=== FILE: README.md ===
# EternalWithHer — scene navigation and room state machines in Dafny

EternalWithHer is a browser experience built on PIXI, gsap, Matter.js and
Howler. The visitor pulls a curtain rope, walks up to a house, enters a
hallway of seven doors and visits themed rooms. This project models the
parts of it that have behaviour worth stating:

- the `SceneManager`: the current scene, the history stack, the
  `transitioning` guard, the scene factory and the transition presets;
- the curtain's pull gesture and its rope topology (`CurtainScene.js`,
  `rope.js`);
- the one-shot door latches of the house and the hallway, and the back
  button and background of `BaseRoom`;
- the rooms' small state machines:
  - the gaming-room quiz;
  - the letter journal (`BedroomRoom.js`);
  - the living-room memory modal;
  - the dance-room gramophone and particles;
  - the balcony overlay;
  - the bedroom collage (`BedroomRoom.jsx`);
- the arithmetic:
  - `lerpColor` over JavaScript's 32-bit bitwise operators;
  - the cover and contain scaling rules;
  - the sunset sky's palette indices;
  - the polygon bounding box;
- the `SoundManager` bookkeeping.

Every component is an immutable record with one pure function per handler.
Each asynchronous completion is a separate event: a gsap `onComplete`, a
`setTimeout` or `setInterval` firing, an awaited promise settling. Where a
handler without a guard can start the same close tween again before the
first one ends, the state counts the tweens in flight, and every one of
them completes and applies its `onComplete` (gsap 3 does not overwrite
tweens by default). Events arrive in any order the caller chooses. Geometry
is over `real`.

Modules:

| file | module | models |
|---|---|---|
| common.dfy | `Common` | `Option`, `Math.floor`, `Math.round`, min and max |
| colour.dfy | `Colour` | ToInt32, the bitwise shifts, and, or on 32-bit patterns, `lerpColor` |
| scaling.dfy | `Scaling` | cover placement, cover scale, contain scale |
| scenes.dfy | `Scenes` | scene ids, `createScene`, `change` options, navigation requests |
| scene_manager.dfy | `SceneManager` | `change`, `goBack`, `canGoBack`, `update`, `destroy` |
| transitions.dfy | `Transitions` | `transitionOut` / `transitionIn` presets |
| rope.dfy | `Rope` | `createRope`, `createRopeAnchor`, `createTassel`, `createRopePhysics` |
| curtain.dfy | `Curtain` | pointer handlers, `startOpening`, `update`, `destroy` |
| door_latch.dfy | `DoorLatch` | the `isInteractive` latch shared by the house and hallway |
| house.dfy | `House` | the house door, `_lerp`, the sunset sky |
| interior.dfy | `Interior` | the hallway's door table and latch profile |
| base_room.dfy | `BaseRoom` | background, `resize`, back button, `exit`, `destroy` |
| gaming_room.dfy | `GamingRoom` | the arcade quiz |
| letter_journal.dfy | `LetterJournal` | the journal of `BedroomRoom.js` |
| living_room.dfy | `LivingRoom` | photo frames and the memory modal |
| dance_room.dfy | `DanceRoom` | gramophone, music particles, floor tiles |
| balcony.dfy | `Balcony` | click areas, texture loading, the overlay |
| collage.dfy | `Collage` | the collage of `BedroomRoom.jsx` |
| sound_manager.dfy | `SoundManager` | registry, plays, effect tracker, mute and volume |

The house scene's `_lerpColor` is the same expression as
`BaseRoom.lerpColor`, so `Colour.LerpColor` models both.

Behaviour of the code that the model keeps, though a reader might expect otherwise:

- **Curtain trigger.** Opening depends on the largest single pointer move,
  not on the cumulative drag, because `dragStartY` is reset on every move.
  `Curtain.CumulativePullDoesNotOpen` shows a 120-pixel drag made of two
  moves that does not open.
- **Scene history.** The history can hold the current id (house, hallway,
  house).
- **Two back requests during one exit animation.** They pop two ids but
  navigate once.
- **Rejected `init()`.** The guard stays set for good.
- **Scenes that `createScene` cannot build.**
  - `CURTAIN` has no `createScene` case, so the host's first request leaves
    a null scene.
  - `SCENES.BALCONY` and `SCENES.GARDEN_PATH` are `undefined`, so
    `change(undefined)` reaches the `Balcony` case. That constructor fails
    on the missing `ROOM_CONFIGS.BALCONY`. The balcony is still modelled as
    the class is written.
- **Stale close completions.** Every close of the collage, the balcony
  overlay, the quiz, the memory modal and the journal starts its own fade
  tween. The open flag stays set until a fade ends, or there is no guard at
  all, so a second tap during the fade starts a second tween. Its late
  completion undoes whatever was opened in between.
  - The collage closes again with its blur left on
    (`Collage.StaleFadeClosesReopened`).
  - The balcony overlay closes and drops its image with its blur left on
    (`Balcony.StaleFadeClosesReopened`).
  - The next memory is dismissed (`LivingRoom.StaleCloseDismissesNextMemory`).
  - The re-opened journal closes (`LetterJournal.StaleCloseClosesReopened`).
  - The quiz is hidden during an answer's pause. Its timer still runs, so
    after a restart the first question is skipped
    (`GamingRoom.StaleCloseSkipsAQuestion`). If the results are shown into
    the hidden modal, button 0 stays bound to `closeQuiz` after the
    restart, and the first option closes the quiz
    (`GamingRoom.StaleResultsRebindOptionZero`).
- **Unreachable scene modules.**
  - The factory builds the bedroom from `BedroomRoom.jsx`, the collage.
    `BedroomRoom.js`, the journal, is not reachable from it.
  - `CurtainScene.js` is not reachable from it either.
  - Both are modelled as written.

## Model

| member | source | states |
|---|---|---|
| Common.Floor | src/scenes/HouseScene.jsx:45 | `Math.floor`: the greatest integer not above `x` |
| Common.Round | src/scenes/rooms/GamingRoom.jsx:557 | `Math.round`: the integer within half of `x`, halves going up |
| Common.RoundBetween | src/scenes/BaseRoom.jsx:85-87 | rounding a value between two integers stays between them |
| Colour.ToInt32 | src/scenes/BaseRoom.jsx:89 | the 32-bit signed wrap: in range, congruent mod 2^32, identity on values already in range |
| Colour.Byte | src/scenes/BaseRoom.jsx:78-83 | `(c >> k) & 0xff` is a byte for every input, including negative and over-wide numbers |
| Colour.PackBytes | src/scenes/BaseRoom.jsx:89 | for byte channels, shifting and or-ing the channels gives `r*65536 + g*256 + b` |
| Colour.UnpackBytes | src/scenes/BaseRoom.jsx:78-83 | the three channel reads of a 24-bit colour are its base-256 digits |
| Colour.PackUnpack | src/scenes/BaseRoom.jsx:78-89 | unpack then pack gives back any 24-bit colour |
| Colour.UnpackPack | src/scenes/BaseRoom.jsx:78-89 | pack then unpack gives back each byte channel, and the packed value is 24-bit |
| Colour.LerpChannelEnds | src/scenes/BaseRoom.jsx:85-87 | a blended channel is the first input at ratio 0 and the second at ratio 1 |
| Colour.LerpChannelBetween | src/scenes/BaseRoom.jsx:85-87 | for a ratio in [0, 1] a blended channel lies between the two inputs |
| Colour.LerpColorAtZero | src/scenes/BaseRoom.jsx:77-90 | `lerpColor(c1, c2, 0) == c1` for 24-bit `c1` |
| Colour.LerpColorAtOne | src/scenes/BaseRoom.jsx:77-90 | `lerpColor(c1, c2, 1) == c2` for 24-bit `c2` |
| Common.RoundOfInteger | src/scenes/BaseRoom.jsx:85-87 | `Math.round` of an integer is that integer |
| Colour.LerpColorSame | src/scenes/BaseRoom.jsx:85-89 | `lerpColor(c, c, t) == c` for every ratio |
| Colour.LerpColorBetween | src/scenes/BaseRoom.jsx:78-89 | for a ratio in [0, 1] the result is 24-bit and each channel lies between the inputs' channels |
| Scaling.RatioCompare | src/scenes/rooms/Balcony.jsx:258-273 | comparing aspect quotients agrees with comparing cross products |
| Scaling.CoverPlacement | src/scenes/BaseRoom.jsx:30-43 | keeps the aspect, covers the screen, matches one side, centres with non-positive offsets |
| Scaling.Place | src/scenes/BaseRoom.jsx:42-43 | a sprite of the given size, centred on the screen |
| Scaling.CoverScale | src/scenes/rooms/Balcony.jsx:258-273 | the branchy scale equals `max(W/tw, H/th)`, covers the screen and matches one side |
| Scaling.ContainScale | src/scenes/rooms/BedroomRoom.jsx:161-168 | a positive scale that fits the image within 85% of the screen and reaches 85% on one side |
| Scenes.CreateScene | src/core/SceneManager.jsx:25-55 | throws exactly for `undefined` (it hits the `Balcony` case); builds exactly for the ten working ids; never a balcony or garden path |
| Scenes.CreateSceneInjective | src/core/SceneManager.jsx:26-50 | different ids never build the same scene class |
| Scenes.CurtainIsUnknown | src/core/SceneManager.jsx:51-53 | `CURTAIN` falls to the default case: a null scene |
| SceneManager.Step | src/core/SceneManager.jsx:57-119 | history grows by at most one, only at the end of an exit whose options add to history; at most one `sceneChange` per step, carrying the target id; a wedged manager stays wedged |
| SceneManager.NewIsValid | src/core/SceneManager.jsx:18-23 | the constructor's manager is idle, with no scene and nothing to go back to |
| SceneManager.StepPreservesValid | src/core/SceneManager.jsx:57-119 | every history entry stays a buildable id, and the phase stays consistent with the current scene |
| SceneManager.ChangeWhileTransitioningIsNoop | src/core/SceneManager.jsx:58 | `change` while transitioning changes nothing |
| SceneManager.GoBackPopsWhileTransitioning | src/core/SceneManager.jsx:114-117 | `goBack` while transitioning still pops the last entry |
| SceneManager.GoBackOnEmptyIsNoop | src/core/SceneManager.jsx:115 | `goBack` with an empty history does nothing |
| SceneManager.CanGoBackIffBackActs | src/core/SceneManager.jsx:114-123 | `canGoBack()` holds exactly when `goBack()` changes the state |
| SceneManager.ExitPushesIffAddToHistory | src/core/SceneManager.jsx:60-80 | after the exit animation the old name is pushed iff `addToHistory`, which defaults to true |
| SceneManager.ChangeWithoutSceneDoesNotPush | src/core/SceneManager.jsx:66-80 | a change with no current scene never pushes |
| SceneManager.UnknownIdReleasesGuard | src/core/SceneManager.jsx:83-89 | an id with no case leaves a null scene named by the id, releases the guard and emits nothing |
| SceneManager.InitRejectionWedges | src/core/SceneManager.jsx:92-94 | a rejected `init()` leaves the guard set and every later change is dropped |
| SceneManager.UpdateReachesSceneBeforeInit | src/core/SceneManager.jsx:196-200 | the per-frame `update` already reaches a scene whose `init()` is pending |
| SceneManager.DestroyClears | src/core/SceneManager.jsx:202-211 | `destroy` leaves no scene to update and an empty history |
| SceneManager.SettleKeepsValid | src/core/SceneManager.jsx:57-112 | running a change to its end keeps the manager valid |
| SceneManager.NavigateToKnown | src/core/SceneManager.jsx:57-112 | a completed change to a buildable id: that scene is current, the guard is free, one `sceneChange` for the id, old name pushed iff a scene existed and the options add to history |
| SceneManager.NavigateToUnknown | src/core/SceneManager.jsx:83-89 | a completed change to an id with no case: null scene, guard free, no event |
| SceneManager.NavigateBackPops | src/core/SceneManager.jsx:114-119 | a completed back shrinks the history by exactly one and lands on the popped id |
| SceneManager.ForwardThenBackScenario | src/core/SceneManager.jsx:57-123 | house, hallway, living room, back, back: on the house with an empty history, and a third back does nothing |
| SceneManager.HistoryMayHoldCurrent | src/core/SceneManager.jsx:78-80 | house, hallway, house: the history holds the current id |
| SceneManager.DoubleBackLosesAnEntry | src/core/SceneManager.jsx:114-119 | two back requests during one exit animation pop two entries but navigate once |
| SceneManager.InitialCurtainRequestYieldsNoScene | src/core/Game.js:29 | the host's first request leaves a null scene named `CURTAIN` and a free guard |
| Transitions.ParsePreset | src/core/SceneManager.jsx:167-191 | each of the five names gives its own preset and no other name does; every other string falls to the default |
| Transitions.ExitTween | src/core/SceneManager.jsx:125-155 | an unknown preset resolves at once; a known one animates from the current pose to a gone pose |
| Transitions.EnterTween | src/core/SceneManager.jsx:157-194 | an unknown preset resolves at once; a known one starts from a gone pose |
| Transitions.EnterEndsAtRest | src/core/SceneManager.jsx:167-191 | from rest, every enter preset ends at alpha 1, x 0, scale 1 |
| Transitions.ExitHidesIffKnown | src/core/SceneManager.jsx:125-155 | the exit leaves the old scene gone iff the preset is known |
| Transitions.SlidesAgreeInDirection | src/core/SceneManager.jsx:172-179 | the old scene leaves on the side opposite to where the new one comes from |
| Transitions.TweensTouchOnlyTheirProperties | src/core/SceneManager.jsx:167-191 | each preset changes only the properties it names |
| Rope.CreateRope | src/physics/rope.js:14-69 | `segments` bodies, body i at (x, y + i·L), all in one group, `segments-1` links pinning i's bottom to i+1's top with length 0, first and end body, none for no segments |
| Rope.LinkAtRest | src/physics/rope.js:46-57 | segment i's bottom centre and segment i+1's top centre coincide at creation |
| Rope.DefaultRope | src/physics/rope.js:17-21 | with no options: 8 segments of length 20 and 7 links |
| Rope.CreateRopeAnchor | src/physics/rope.js:76-89 | pins (x, y) to the first body's top centre with stiffness 1 and length 0, or to nothing without a first body |
| Rope.AnchorAtOriginGap | src/physics/rope.js:76-89 | an anchor at the rope's own origin starts half a segment away from its body point |
| Rope.CreateTassel | src/physics/rope.js:96-125 | a circle of the radius (default 20) centred L/2 + radius below the end body, linked from (0, L/2) to (0, -0.7·radius) |
| Rope.TasselGap | src/physics/rope.js:102-122 | the link starts 0.3·radius apart |
| Rope.CreateCurtainRope | src/scenes/CurtainScene.js:141-218 | gravity 0.3; 12 segments of 25 from `(w/2, 80)`; 11 links of stiffness 0.9, damping 0.1 and engine-chosen length, all at rest; a rigid zero-length anchor of stiffness 1 from `(w/2, 67.5)` to segment 0's top, at rest; a radius-20 tassel at `(w/2, 380)`; a tassel link of stiffness 0.9 and engine-chosen length from segment 11's bottom to 15 above the tassel |
| Rope.CurtainTasselGap | src/scenes/CurtainScene.js:198-215 | on the rope the builder makes, the tassel link's two points start 2.5 apart, the tassel's point straight above the last segment's bottom, and the length is left to the engine, which keeps that 2.5 |
| Curtain.StartOpening | src/scenes/CurtainScene.js:340-375 | sets `isOpening`; the sound plays only on the first call; no navigation yet |
| Curtain.Step | src/scenes/CurtainScene.js:282-338 | `totalPull` never decreases, becomes `max(totalPull, deltaY)` exactly on a downward move while dragging and not opening, and is unchanged otherwise; a handled move becomes the next origin; a move while not dragging or while opening, and a press while opening, change nothing; a press otherwise starts a drag at its y; a release always ends the drag; once opening, the pull and sounds are frozen; at most one force per event, only while not opening, downward exactly on moves |
| Curtain.InitialInv | src/scenes/CurtainScene.js:9-21 | the constructor's gesture satisfies the invariant |
| Curtain.StepPreservesInv | src/scenes/CurtainScene.js:294-318 | `totalPull` is non-negative, `pullProgress == min(1, totalPull/100)`, opening iff `totalPull` reached 100, then one sound and exactly one navigation made or pending, always the house fade |
| Curtain.RunPreservesInv | src/scenes/CurtainScene.js:282-355 | the invariant holds after any event sequence |
| Curtain.RunPullNeverDecreases | src/scenes/CurtainScene.js:297-306 | over any event sequence `totalPull` never shrinks and an opening curtain stays opening |
| Curtain.AtMostOneNavigation | src/scenes/CurtainScene.js:351-355 | whatever the pointer does, at most one `change(HOUSE, fade, 0.8)` |
| Curtain.OneLongMoveOpens | src/scenes/CurtainScene.js:297-355 | a press and one move of at least 100 opens and requests the house |
| Curtain.CumulativePullDoesNotOpen | src/scenes/CurtainScene.js:297-317 | two 60-pixel moves never open: the start point is reset on every move |
| Curtain.StartOpeningIdempotent | src/scenes/CurtainScene.js:340-342 | opening twice is opening once |
| Curtain.OpeningIgnoresPointer | src/scenes/CurtainScene.js:288-325 | once opening, presses and moves change nothing and a release only clears the drag flag |
| Curtain.Update | src/scenes/CurtainScene.js:377-420 | steps the engine only while it exists, by `delta·16.67`, and draws one more point than there are segments |
| Curtain.UpdateAfterDestroyIsInert | src/scenes/CurtainScene.js:378-446 | after `destroy`, frame ticks no longer step the physics |
| DoorLatch.Step | src/scenes/InteriorScene.jsx:267-299 | requests only grow, by one at most; an accepted tap clears the latch and schedules its request; a tap on a cleared latch does nothing; hover shows only when interactive |
| DoorLatch.StepPreservesInv | src/scenes/InteriorScene.jsx:286-299 | each navigation, made or scheduled, used up one `enter()` timer, and one door sound per navigation |
| DoorLatch.RunPreservesInv | src/scenes/InteriorScene.jsx:286-299 | the invariant holds after any event sequence, and earlier requests are never withdrawn |
| DoorLatch.OneNavigationPerEnter | src/scenes/InteriorScene.jsx:287-289 | after one `enter()`, at most one navigation however many taps arrive |
| DoorLatch.TapBeforeEnableIgnored | src/scenes/HouseScene.jsx:462-466 | before the enable timer fires a tap does nothing |
| DoorLatch.EnterEnableTapNavigates | src/scenes/HouseScene.jsx:462-585 | enter, enable, tap, timer: exactly the tap's navigation |
| House.DoorNavigatesOnceToInterior | src/scenes/HouseScene.jsx:572-576 | the house door navigates at most once, only to `change(INTERIOR, fade, 0.8)`, and the interior is buildable |
| House.TapsOnlyRequest | src/scenes/HouseScene.jsx:572-576 | when every tap carries the door's request, no other navigation is ever made |
| House.Lerp | src/scenes/HouseScene.jsx:611 | `_lerp(a, b, 0) == a` and `_lerp(a, b, 1) == b` |
| House.LerpBetween | src/scenes/HouseScene.jsx:611 | for a ratio in [0, 1] the result lies between the ends |
| House.SkyStrip | src/scenes/HouseScene.jsx:42-53 | for every strip the index clamps never bind, the blend factor lies in [0, 1), the blended colours are neighbours, and the fill is 24-bit with channels between theirs |
| House.ExactStrip | src/scenes/HouseScene.jsx:44-53 | a strip exactly on a palette position shows that colour unblended |
| House.SkyTop | src/scenes/HouseScene.jsx:36-53 | the top strip is 0x2d0a28 |
| House.SkyBottom | src/scenes/HouseScene.jsx:41-47 | the bottom strip blends the eleventh and twelfth colours at 49/60, so the last colour is never shown pure |
| Interior.DoorRequest | src/scenes/InteriorScene.jsx:296-298 | door i requests `change(door i's scene, zoom, 0.6)`, which adds to history |
| Interior.DoorsLeadToRooms | src/scenes/InteriorScene.jsx:116-124 | the seven doors lead to seven different buildable rooms, never the house or hallway |
| Interior.ExitDisablesDoors | src/scenes/InteriorScene.jsx:523-525 | after `exit()` the doors are off and a tap schedules nothing |
| Interior.HoverNeedsInteraction | src/scenes/InteriorScene.jsx:267-268 | hover is ignored while interaction is off |
| BaseRoom.Or | src/scenes/BaseRoom.jsx:55-57 | JavaScript's `v or fallback` on a colour: the value unless absent or zero |
| BaseRoom.GradientStrip | src/scenes/BaseRoom.jsx:62-70 | strip i starts at i·(H/n + 1), spans the width, and is H/n + 1 high; for i ≤ n its colour is 24-bit and between the top and bottom colours channel by channel; the first strip has exactly a 24-bit top colour |
| BaseRoom.GradientCoversScreen | src/scenes/BaseRoom.jsx:60-68 | the twenty strips abut from the top edge down, and the last ends at or below the bottom edge |
| BaseRoom.GradientStrips | src/scenes/BaseRoom.jsx:61-72 | n strips, the i-th being strip i; the first at the top edge in a 24-bit top colour, and every colour 24-bit |
| BaseRoom.CreateBackground | src/scenes/BaseRoom.jsx:21-75 | a sprite iff an image is configured and loads, cover-sized and aspect-keeping; otherwise twenty strips |
| BaseRoom.GradientStartsAtTop | src/scenes/BaseRoom.jsx:55-67 | the first strip has exactly the `gradientTop`, else `backgroundColor`, else 0x1a1a2e |
| BaseRoom.GradientColoursBetween | src/scenes/BaseRoom.jsx:61-72 | every strip is 24-bit and between the top and bottom colours channel by channel |
| BaseRoom.ResizeAgreesWithCreate | src/scenes/BaseRoom.jsx:146-185 | resizing gives exactly what `createBackground` builds for the new screen: its chained defaults pick the same colours |
| BaseRoom.TapBack | src/scenes/BaseRoom.jsx:119-124 | while interactive, a click and one `goBack`; otherwise nothing |
| BaseRoom.ExitRoom | src/scenes/BaseRoom.jsx:141-144 | `exit` turns interaction off |
| BaseRoom.DestroyRoom | src/scenes/BaseRoom.jsx:194-197 | `destroy` leaves no background |
| BaseRoom.BackButtonNotLatched | src/scenes/BaseRoom.jsx:119-144 | two taps send two `goBack`s; after `exit` a tap does nothing |
| GamingRoom.Step | src/scenes/rooms/GamingRoom.jsx:352-600 | the questions never change and a step adds at most one point; a close tween starts exactly on a reachable tap of button 0 while it is bound to `closeQuiz`, and the quiz goes inactive exactly when a pending close tween completes |
| GamingRoom.CountCorrect | src/scenes/rooms/GamingRoom.jsx:527-544 | the correct answers, with skipped questions scoring nothing, are never more than the entries |
| GamingRoom.NewQuizInv | src/scenes/rooms/GamingRoom.jsx:36-62 | the initial quiz satisfies the invariant |
| GamingRoom.StepPreservesInv | src/scenes/rooms/GamingRoom.jsx:493-600 | one entry per question passed in the round plus the answer in its pause, score = correct entries, the pause locks the buttons and keeps a question on the card, a shown results card has button 0 bound to `closeQuiz`; holds with any number of close tweens in flight |
| GamingRoom.RunPreservesInv | src/scenes/rooms/GamingRoom.jsx:493-600 | the invariant holds after any event sequence |
| GamingRoom.ResultsScore | src/scenes/rooms/GamingRoom.jsx:508-570 | on the results card there is one entry per question, answered or skipped, and the score counts the correct ones |
| GamingRoom.ShowQuestion | src/scenes/rooms/GamingRoom.jsx:508-512 | the results exactly once every question has been asked, with button 0 then bound to `closeQuiz`; a question otherwise, leaving the binding |
| GamingRoom.StaleCloseSkipsAQuestion | src/scenes/rooms/GamingRoom.jsx:493-600 | two replay taps, a completion, a restart, an answer and the stale completion hide the quiz in its pause; a restart then shows question 2 with question 1 skipped and a score of 0 |
| GamingRoom.StaleResultsRebindOptionZero | src/scenes/rooms/GamingRoom.jsx:547-600 | a stale completion in the last pause lets the results bind button 0 to `closeQuiz` behind the hidden modal; after a restart the first option starts a close instead of answering |
| GamingRoom.AllCorrectCount | src/scenes/rooms/GamingRoom.jsx:541-544 | all-correct answers score one each |
| GamingRoom.PerfectRunIsPerfect | src/scenes/rooms/GamingRoom.jsx:557-561 | an all-correct quiz ends with the perfect message |
| GamingRoom.DoubleTapScoresOnce | src/scenes/rooms/GamingRoom.jsx:538-553 | a second tap during the pause is ignored |
| GamingRoom.ArcadeIgnoredWhileActive | src/scenes/rooms/GamingRoom.jsx:352-356 | the arcade does nothing while a quiz is active |
| GamingRoom.Start | src/scenes/rooms/GamingRoom.jsx:493-506 | from an inactive quiz: active, at question 0, score 0, no answers, the first question on the card (the results for an empty quiz), while a pending pause, the button lock and the close tweens carry over; an active quiz is unchanged |
| GamingRoom.Percentage | src/scenes/rooms/GamingRoom.jsx:557 | a number exactly when there are questions |
| GamingRoom.PercentageBounds | src/scenes/rooms/GamingRoom.jsx:557 | the percentage is in [0, 100], 100 for a full score, and below 100 otherwise when there are fewer than 200 questions |
| GamingRoom.FiveQuestionTiers | src/scenes/rooms/GamingRoom.jsx:557-568 | for five questions: 5 perfect, 4 amazing, 3 great, fewer a nice try; an empty quiz is a nice try |
| GamingRoom.ProgressText | src/scenes/rooms/GamingRoom.jsx:517 | the progress reads `current + 1` of the total, between 1 and the number of questions |
| GamingRoom.ButtonsMatchOptions | src/scenes/rooms/GamingRoom.jsx:519-524 | button i is shown iff the question has an i-th option; with the configured questions all four are shown |
| GamingRoom.ButtonLabel | src/scenes/rooms/GamingRoom.jsx:521 | button i shows option i, or empty when there is none |
| LetterJournal.StepPreservesInv | src/scenes/rooms/BedroomRoom.js:511-572 | the index stays a letter, the modal is visible exactly while the journal is open, the paper shows the current letter once turns settle; holds with any number of close tweens in flight |
| LetterJournal.RunPreservesInv | src/scenes/rooms/BedroomRoom.js:511-572 | the invariant holds after any event sequence |
| LetterJournal.Open | src/scenes/rooms/BedroomRoom.js:511-523 | from a hidden modal: open, shown, at the first letter with the paper showing it, close tweens and page turns carried over; while shown, unchanged |
| LetterJournal.CloseJournal | src/scenes/rooms/BedroomRoom.js:525-527 | one more close tween exactly when the modal is shown; the modal, the open flag, the letter and the page turns are unchanged until a tween completes |
| LetterJournal.CloseComplete | src/scenes/rooms/BedroomRoom.js:528-531 | each pending close tween's end hides the modal and clears `journalOpen`, leaving the letter and the page turns |
| LetterJournal.StaleCloseClosesReopened | src/scenes/rooms/BedroomRoom.js:511-532 | after two closes, one completion and a re-open, the stale completion closes the journal |
| LetterJournal.AlwaysALetter | src/scenes/rooms/BedroomRoom.js:535-555 | `updateLetter` always finds a letter |
| LetterJournal.NextPrevRoundTrip | src/scenes/rooms/BedroomRoom.js:543-555 | next then previous, and previous then next, return to the same letter away from the ends |
| LetterJournal.ArrowsStopAtEnds | src/scenes/rooms/BedroomRoom.js:544-551 | at the ends the arrows do nothing |
| LetterJournal.RapidTurnsSettleOnLast | src/scenes/rooms/BedroomRoom.js:550-571 | two quick nexts land on the third letter and the paper shows it once both turns end |
| LetterJournal.PageIndicator | src/scenes/rooms/BedroomRoom.js:540 | the indicator reads between 1/3 and 3/3 |
| LetterJournal.IndicatorWaitsForTurn | src/scenes/rooms/BedroomRoom.js:535-565 | the indicator is refreshed only by `updateLetter`: a "next" tap leaves it as it was, and the completed turn moves it one page on |
| LivingRoom.BuildFrames | src/scenes/rooms/LivingRoom.jsx:65-89 | one frame per memory, in order with its index, evenly spaced and centred on the screen |
| LivingRoom.Shown | src/scenes/rooms/LivingRoom.jsx:402-406 | the modal shows the selected frame's memory, and nothing without a selection |
| LivingRoom.StepPreservesInv | src/scenes/rooms/LivingRoom.jsx:398-432 | the modal is up exactly while a real frame is selected, with any number of close tweens in flight |
| LivingRoom.Step | src/scenes/rooms/LivingRoom.jsx:194-432 | a close tween starts exactly on a close tap while the modal is shown; the modal closes exactly when a pending close tween completes, and opens exactly on a frame tap while closed |
| LivingRoom.StaleCloseDismissesNextMemory | src/scenes/rooms/LivingRoom.jsx:398-432 | after two closes and one completion, the next memory opened is dismissed by the stale completion |
| LivingRoom.OpenModalIgnoresFrames | src/scenes/rooms/LivingRoom.jsx:195-209 | while the modal is open, frame hover, out and tap change nothing |
| LivingRoom.OpenThenClose | src/scenes/rooms/LivingRoom.jsx:398-432 | a tap shows that frame's memory; closing returns to browsing with no selection |
| LivingRoom.HighlightSticksThroughModal | src/scenes/rooms/LivingRoom.jsx:194-211 | the tapped frame's glow survives the modal, since its `pointerout` is ignored |
| DanceRoom.TogglePlay | src/scenes/rooms/DanceRoom.jsx:456-496 | flips playing, runs the interval exactly while playing, and shows the matching hint |
| DanceRoom.RemoveFirst | src/scenes/rooms/DanceRoom.jsx:531-532 | removes one occurrence when present, otherwise nothing |
| DanceRoom.RemoveFirstIncreasing | src/scenes/rooms/DanceRoom.jsx:531-532 | removal keeps the particle list in creation order |
| DanceRoom.StepPreservesInv | src/scenes/rooms/DanceRoom.jsx:456-592 | interval live iff playing until destroyed, hint matches, particles distinct and oldest first |
| DanceRoom.ToggleTwiceIsIdentity | src/scenes/rooms/DanceRoom.jsx:457 | two toggles restore the room |
| DanceRoom.ParticleDoneRemovesOnlyIt | src/scenes/rooms/DanceRoom.jsx:529-533 | a finished particle is removed and no other |
| DanceRoom.DistinctCount | src/scenes/rooms/DanceRoom.jsx:520 | each particle is in the list at most once |
| DanceRoom.StoppedSpawnsNothing | src/scenes/rooms/DanceRoom.jsx:499 | while stopped an interval tick creates nothing |
| DanceRoom.DestroyedIsInert | src/scenes/rooms/DanceRoom.jsx:587-592 | `destroy` clears the interval and nothing changes afterwards |
| DanceRoom.TileTick | src/scenes/rooms/DanceRoom.jsx:76-78 | the colour index stays in the palette and a detached tile does not change |
| DanceRoom.TileCycle | src/scenes/rooms/DanceRoom.jsx:72-84 | after k ticks the tile shows colour k mod 5 |
| DanceRoom.TileCycleFrom | src/scenes/rooms/DanceRoom.jsx:78 | from colour i, k ticks give colour (i + k) mod 5 |
| Balcony.SeqMin | src/scenes/rooms/Balcony.jsx:125-127 | `Math.min(...s)`: an element of s no larger than any element |
| Balcony.SeqMax | src/scenes/rooms/Balcony.jsx:126-128 | `Math.max(...s)`: an element of s no smaller than any element |
| Balcony.BoxHoldsVertices | src/scenes/rooms/Balcony.jsx:123-130 | every vertex lies in the box, and each box edge is attained by a vertex coordinate |
| Balcony.VertexBetween | src/scenes/rooms/Balcony.jsx:123-130 | one vertex's x and y lie between the extremes of their coordinate lists |
| Balcony.AptechBox | src/scenes/rooms/Balcony.jsx:13-24 | the first area's box is (1, 245)–(600, 580) |
| Balcony.CafecomixBox | src/scenes/rooms/Balcony.jsx:25-35 | the second area's box is (600, 245)–(1200, 530) |
| Balcony.CiticenterBox | src/scenes/rooms/Balcony.jsx:36-47 | the third area's box is (1200, 245)–(1670, 490) |
| Balcony.ShimmerSweep | src/scenes/rooms/Balcony.jsx:141-166 | the shimmer starts left of and above the box and ends right of it |
| Balcony.LoadOverlayTextures | src/scenes/rooms/Balcony.jsx:87-97 | an area's id has a texture iff its load succeeded, with that texture, and no other keys |
| Balcony.Hover | src/scenes/rooms/Balcony.jsx:151-154 | ignored while an overlay is open; otherwise lights only that area |
| Balcony.Unhover | src/scenes/rooms/Balcony.jsx:156-158 | always unlights that area and no other |
| Balcony.Open | src/scenes/rooms/Balcony.jsx:240-292 | no-op while open or without a texture; otherwise open with that texture at a scale that covers the screen |
| Balcony.Close | src/scenes/rooms/Balcony.jsx:294-313 | no-op when closed; otherwise still open, a click, the blur removed and one more fade tween in flight, nothing else changed |
| Balcony.CloseDone | src/scenes/rooms/Balcony.jsx:309-313 | each pending fade's end closes, hides and forgets the texture, whatever was opened since, and leaves the blur; no fade pending, nothing |
| Balcony.Resize | src/scenes/rooms/Balcony.jsx:337-363 | re-covers only when open with a texture, otherwise unchanged |
| Balcony.ResizeAgreesWithOpen | src/scenes/rooms/Balcony.jsx:337-363 | resizing an open overlay gives the scale opening on the new screen would |
| Balcony.FailedAreaNeverOpens | src/scenes/rooms/Balcony.jsx:240-247 | an area whose load failed never opens |
| Balcony.OpenCloseRoundTrip | src/scenes/rooms/Balcony.jsx:240-315 | open, one close and its fade return to closed, two clicks later |
| Balcony.StaleFadeClosesReopened | src/scenes/rooms/Balcony.jsx:240-315 | two closes start two fades; after one completes another area opens, and the stale completion closes it and drops its image with the blur left on |
| Collage.New | src/scenes/rooms/BedroomRoom.jsx:99-101 | closed, at the base tilt, with the image fitted |
| Collage.OpenCollage | src/scenes/rooms/BedroomRoom.jsx:113-138 | no-op while open; otherwise open, visible, blurred, one click, at the fitted scale |
| Collage.CloseCollage | src/scenes/rooms/BedroomRoom.jsx:140-158 | no-op when closed; otherwise still open, a click, the blur removed and one more fade tween in flight, nothing else changed |
| Collage.FadeOutComplete | src/scenes/rooms/BedroomRoom.jsx:154-157 | each pending fade's end closes and hides the collage, whatever was opened since, and leaves the blur; no fade pending, nothing |
| Collage.Turn | src/scenes/rooms/BedroomRoom.jsx:54-62 | the tilt changes only when closed |
| Collage.ResizeTo | src/scenes/rooms/BedroomRoom.jsx:170-196 | the image is re-fitted to the new screen, open or not |
| Collage.Step | src/scenes/rooms/BedroomRoom.jsx:54-196 | the texture never changes, at most one click per event, only a fade's end closes; a fade starts exactly on a backdrop tap while open, and an open collage closes exactly when a pending fade ends |
| Collage.NewInv | src/scenes/rooms/BedroomRoom.jsx:99-101 | the new collage satisfies the invariant |
| Collage.StepPreservesInv | src/scenes/rooms/BedroomRoom.jsx:54-196 | scale fitted to the screen, tilt 2 or 12, visible iff open, and an open collage with no fade in flight is blurred; holds with any number of fades in flight |
| Collage.RunPreservesInv | src/scenes/rooms/BedroomRoom.jsx:54-196 | the invariant holds after any event sequence |
| Collage.OpenScaleMatchesResize | src/scenes/rooms/BedroomRoom.jsx:129-195 | opening animates to the fitted scale, and resizing before or after opening agrees |
| Collage.OpenCloseRoundTrip | src/scenes/rooms/BedroomRoom.jsx:113-159 | open, one close and its fade return to closed and unblurred, two clicks later |
| Collage.TiltFrozenWhileOpen | src/scenes/rooms/BedroomRoom.jsx:54-62 | a hover tilt made before opening stays while open |
| Collage.ImageTapKeepsOpen | src/scenes/rooms/BedroomRoom.jsx:86-105 | a tap on the image does nothing; the backdrop closes |
| Collage.StaleFadeClosesReopened | src/scenes/rooms/BedroomRoom.jsx:113-158 | two backdrop taps start two fades; after one completes the collage re-opens, and the stale completion closes it with the blur left on |
| SoundManager.New | src/core/SoundManager.jsx:5-15 | empty registry, no effect, unmuted, volume 0.7 |
| SoundManager.Register | src/core/SoundManager.jsx:25-39 | the name maps to a fresh handle with the given or default options, replacing any old one without unloading it |
| SoundManager.PlayNamed | src/core/SoundManager.jsx:42-62 | nothing while muted or unknown; otherwise one play with a fresh id |
| SoundManager.StopWithFade | src/core/SoundManager.jsx:73-84 | a registered sound gets one fade, of 500 ms when no duration is passed and of the passed one otherwise (an explicit 0 included); an unknown name changes nothing |
| SoundManager.SfxFade | src/core/SoundManager.jsx:95-100 | a missing or zero `fadeDuration` means 400: never zero, and the given duration when non-zero |
| SoundManager.PlaySfx | src/core/SoundManager.jsx:92-129 | nothing while muted; a different tracked effect is faded first; unknown names play nothing and leave the tracker; known names play and become tracked |
| SoundManager.SfxEnded | src/core/SoundManager.jsx:121-126 | the tracker is cleared only if it still names that effect |
| SoundManager.StopSfx | src/core/SoundManager.jsx:132-138 | nothing without a tracked effect; otherwise a fade, of 400 ms when no duration is passed, and a cleared tracker |
| SoundManager.ToggleMute | src/core/SoundManager.jsx:188-198 | flips the flag, announces it and returns the new value |
| SoundManager.SetVolume | src/core/SoundManager.jsx:201-204 | the volume clamped into [0, 1] |
| SoundManager.Destroy | src/core/SoundManager.jsx:207-215 | every handle unloaded, the registry emptied, the tracker kept |
| SoundManager.Step | src/core/SoundManager.jsx:25-215 | plays only grow, by one at most, and ids never go back |
| SoundManager.NewInv | src/core/SoundManager.jsx:5-15 | the new manager satisfies the invariant |
| SoundManager.StepPreservesInv | src/core/SoundManager.jsx:25-215 | the volume stays in [0, 1] and play ids stay below the next id, in increasing order |
| SoundManager.RunPreservesInv | src/core/SoundManager.jsx:25-215 | the invariant holds after any event sequence |
| SoundManager.RunIdsDistinct | src/core/SoundManager.jsx:51-108 | no two plays share an id |
| SoundManager.ToggleTwice | src/core/SoundManager.jsx:188-198 | two toggles restore the flag and announce both changes |
| SoundManager.SetVolumeIdempotent | src/core/SoundManager.jsx:201-204 | setting the volume just set changes nothing |
| SoundManager.RegisterReplaces | src/core/SoundManager.jsx:32-38 | registering a taken name replaces its handle and leaves the old one loaded |
| SoundManager.UnknownEffectStillFadesOld | src/core/SoundManager.jsx:95-106 | an unknown effect still fades the old one but leaves the tracker naming it |
| SoundManager.EarlierEndClearsLaterPlay | src/core/SoundManager.jsx:117-126 | the end of an earlier play of the same effect clears the tracker of a later one |
| SoundManager.EmptyNameEscapesStop | src/core/SoundManager.jsx:95-138 | an effect named by the empty string is tracked but never faded or stopped |
| SoundManager.MutedIsSilent | src/core/SoundManager.jsx:43-93 | while muted, neither kind of play does anything |
| SoundManager.StopAfterDestroy | src/core/SoundManager.jsx:132-215 | after `destroy` a stale tracker survives, and `stopSFX` clears it without fading anything |

## Left out

- Rendering is not modelled: PIXI scene-graph construction, text, graphics, filters and hit areas. It has no behaviour to state beyond the flags kept here.
- Animation timing is not modelled: gsap easing, durations and `setTimeout`/`setInterval` delays. Every completion is an event, and the model allows any order of events. Intermediate animation frames are not represented.
- Matter.js engine stepping, forces and constraint solving are foreign floating-point dynamics. Only the rope's topology and creation poses are kept. Forces are recorded as the values the handlers pass, never applied.
- Floating point: all geometry and ratios are exact reals. `Math.round` and `Math.floor` are modelled on them.
- External inputs are parameters:
  - the outcome and size of `PIXI.Assets.load`;
  - the screen size;
  - whether `init()` resolves or rejects;
  - the pointer positions.
- Howler is opaque. A handle is a record, and a play is recorded with the id it returned. Fades, volumes, rates, `resumeContext` and `stop(name)` are not modelled. Neither is the per-play volume option.
- `setAmbient`, `stopAmbient` and the ambient branch of `destroy` are not modelled: the ambient track has no guard worth stating.
- The sound registry is a map keyed by name. A name that collides with an `Object.prototype` member is not modelled. Neither is a volume that is `NaN`.
- `Math.random` (shimmer delays, particle placement, tile interval lengths) is not modelled. It affects only presentation.
- Host plumbing (`Game.js` render loop, resize forwarding) and the React and Three.js components are not part of this model.
- The microtask ordering of `change` is over-approximated. A `goBack` or `change` may arrive between any two resumptions.
- The rooms' own `destroy` overrides in the gaming room, the living room and the journal kill their pending tweens. They are not modelled: a destroyed room receives no further events, so no completion arrives after it.
- DanceRoom.TileTick: the tile intervals are never cleared in the source. The model stops at a detached tile and does not represent the leaked timer.
- DanceRoom.DestroyedIsInert: events after `destroy` are dropped. The destroyed container can no longer receive taps, and its tweens are killed.
- Scaling.CoverScale: textures of zero width or height are excluded. PIXI reports a loaded texture with positive dimensions.
- Scaling.ContainScale: textures of zero width or height are excluded, as above.
- BaseRoom.CreateBackground: textures of zero width or height are excluded, as above.

=== FILE: balcony.dfy ===
/** The balcony: three polygonal click areas over the background, each
    opening a full-screen overlay of its own photograph, and the shimmer
    band that sweeps each area's bounding box. */
module Balcony {
  import opened Common
  import Scaling

  datatype Area = Area(id: string, points: seq<int>)

  /** The click areas: flat `x, y, x, y, ...` polygons of five vertices. */
  const Areas: seq<Area> := [
    Area("aptech", [1, 245, 600, 245, 600, 530, 300, 560, 1, 580]),
    Area("cafecomix", [600, 245, 1200, 245, 1200, 485, 950, 505, 600, 530]),
    Area("citicenter", [1200, 245, 1670, 245, 1670, 490, 1320, 478, 1200, 485])]

  /** Entries at even positions (the x coordinates) and at odd positions
      (the y coordinates). */
  function Evens(s: seq<int>): seq<int> {
    seq((|s| + 1) / 2, k requires 0 <= k < (|s| + 1) / 2 => s[2 * k])
  }

  function Odds(s: seq<int>): seq<int> {
    seq(|s| / 2, k requires 0 <= k < |s| / 2 => s[2 * k + 1])
  }

  function SeqMin(s: seq<int>): (m: int)
    requires |s| > 0
    ensures m in s && forall k | 0 <= k < |s| :: m <= s[k]
    decreases |s|
  {
    if |s| == 1 then s[0]
    else
      var rest := SeqMin(s[1..]);
      if s[0] <= rest then s[0] else rest
  }

  function SeqMax(s: seq<int>): (m: int)
    requires |s| > 0
    ensures m in s && forall k | 0 <= k < |s| :: s[k] <= m
    decreases |s|
  {
    if |s| == 1 then s[0]
    else
      var rest := SeqMax(s[1..]);
      if s[0] >= rest then s[0] else rest
  }

  datatype Box = Box(minX: int, minY: int, maxX: int, maxY: int)

  /** The bounding box the shimmer uses: the extremes of the even and odd
      entries of the polygon. */
  function BoundingBox(points: seq<int>): Box
    requires |points| >= 2
  {
    var xs := Evens(points);
    var ys := Odds(points);
    Box(SeqMin(xs), SeqMin(ys), SeqMax(xs), SeqMax(ys))
  }

  /** Every vertex lies in the bounding box, and each edge of the box is
      touched by a vertex. */
  lemma BoxHoldsVertices(points: seq<int>)
    requires |points| >= 2
    ensures var b := BoundingBox(points);
      (forall k | 0 <= k < |points| / 2 ::
        b.minX <= points[2 * k] <= b.maxX && b.minY <= points[2 * k + 1] <= b.maxY)
      && b.minX in Evens(points) && b.maxX in Evens(points)
      && b.minY in Odds(points) && b.maxY in Odds(points)
  {
    forall k | 0 <= k < |points| / 2
      ensures SeqMin(Evens(points)) <= points[2 * k] <= SeqMax(Evens(points))
      ensures SeqMin(Odds(points)) <= points[2 * k + 1] <= SeqMax(Odds(points))
    {
      VertexBetween(points, k);
    }
  }

  /** One vertex against the extremes of the coordinate lists it belongs to. */
  lemma VertexBetween(points: seq<int>, k: nat)
    requires |points| >= 2 && k < |points| / 2
    ensures SeqMin(Evens(points)) <= points[2 * k] <= SeqMax(Evens(points))
    ensures SeqMin(Odds(points)) <= points[2 * k + 1] <= SeqMax(Odds(points))
  {
    var xs := Evens(points);
    var ys := Odds(points);
    assert k < |xs| && xs[k] == points[2 * k];
    assert k < |ys| && ys[k] == points[2 * k + 1];
  }

  /** The three boxes. Neighbouring areas share an edge: the first box ends
      where the second starts, and the second where the third starts. */
  lemma BoxOfLists(points: seq<int>, xs: seq<int>, ys: seq<int>)
    requires |points| >= 2 && Evens(points) == xs && Odds(points) == ys
    ensures BoundingBox(points) == Box(SeqMin(xs), SeqMin(ys), SeqMax(xs), SeqMax(ys))
  {
  }

  lemma AptechLists()
    ensures Evens(Areas[0].points) == [1, 600, 600, 300, 1] && Odds(Areas[0].points) == [245, 245, 530, 560, 580]
  {
    assert Areas[0].points == [1, 245, 600, 245, 600, 530, 300, 560, 1, 580];
  }

  lemma AptechXExtremes()
    ensures SeqMin([1, 600, 600, 300, 1]) == 1 && SeqMax([1, 600, 600, 300, 1]) == 600
  {
  }

  lemma AptechYExtremes()
    ensures SeqMin([245, 245, 530, 560, 580]) == 245 && SeqMax([245, 245, 530, 560, 580]) == 580
  {
  }

  lemma AptechBox()
    ensures BoundingBox(Areas[0].points) == Box(1, 245, 600, 580)
  {
    AptechLists();
    BoxOfLists(Areas[0].points, [1, 600, 600, 300, 1], [245, 245, 530, 560, 580]);
    AptechXExtremes();
    AptechYExtremes();
  }

  lemma CafecomixLists()
    ensures Evens(Areas[1].points) == [600, 1200, 1200, 950, 600] && Odds(Areas[1].points) == [245, 245, 485, 505, 530]
  {
    assert Areas[1].points == [600, 245, 1200, 245, 1200, 485, 950, 505, 600, 530];
  }

  lemma CafecomixXExtremes()
    ensures SeqMin([600, 1200, 1200, 950, 600]) == 600 && SeqMax([600, 1200, 1200, 950, 600]) == 1200
  {
  }

  lemma CafecomixYExtremes()
    ensures SeqMin([245, 245, 485, 505, 530]) == 245 && SeqMax([245, 245, 485, 505, 530]) == 530
  {
  }

  lemma CafecomixBox()
    ensures BoundingBox(Areas[1].points) == Box(600, 245, 1200, 530)
  {
    CafecomixLists();
    BoxOfLists(Areas[1].points, [600, 1200, 1200, 950, 600], [245, 245, 485, 505, 530]);
    CafecomixXExtremes();
    CafecomixYExtremes();
  }

  lemma CiticenterLists()
    ensures Evens(Areas[2].points) == [1200, 1670, 1670, 1320, 1200] && Odds(Areas[2].points) == [245, 245, 490, 478, 485]
  {
    assert Areas[2].points == [1200, 245, 1670, 245, 1670, 490, 1320, 478, 1200, 485];
  }

  lemma CiticenterXExtremes()
    ensures SeqMin([1200, 1670, 1670, 1320, 1200]) == 1200 && SeqMax([1200, 1670, 1670, 1320, 1200]) == 1670
  {
  }

  lemma CiticenterYExtremes()
    ensures SeqMin([245, 245, 490, 478, 485]) == 245 && SeqMax([245, 245, 490, 478, 485]) == 490
  {
  }

  lemma CiticenterBox()
    ensures BoundingBox(Areas[2].points) == Box(1200, 245, 1670, 490)
  {
    CiticenterLists();
    BoxOfLists(Areas[2].points, [1200, 1670, 1670, 1320, 1200], [245, 245, 490, 478, 485]);
    CiticenterXExtremes();
    CiticenterYExtremes();
  }

  /** The shimmer band of an area starts 300 left of its box and 100 above
      it and slides to 100 past its right edge, so it crosses all of it. */
  function ShimmerSweep(b: Box): (s: (int, int, int))
    ensures s.0 < b.minX && s.1 < b.minY && s.2 > b.maxX
  {
    (b.minX - 300, b.minY - 100, b.maxX + 100)
  }

  /** Outcome of loading one overlay photograph. */
  datatype Load = Loaded(width: real, height: real) | LoadFailed

  /** `loadOverlayTextures`: one load per area in order; a failure is
      logged and skipped. */
  method LoadOverlayTextures(outcomes: seq<Load>) returns (textures: map<string, (real, real)>)
    requires |outcomes| == |Areas|
    ensures forall i | 0 <= i < |Areas| :: Areas[i].id in textures <==> outcomes[i].Loaded?
    ensures forall i | 0 <= i < |Areas| && outcomes[i].Loaded? ::
      textures[Areas[i].id] == (outcomes[i].width, outcomes[i].height)
    ensures forall id | id in textures :: exists i | 0 <= i < |Areas| :: Areas[i].id == id
  {
    textures := map[];
    var i := 0;
    while i < |Areas|
      invariant 0 <= i <= |Areas|
      invariant forall k | 0 <= k < i :: Areas[k].id in textures <==> outcomes[k].Loaded?
      invariant forall k | 0 <= k < i && outcomes[k].Loaded? :: textures[Areas[k].id] == (outcomes[k].width, outcomes[k].height)
      invariant forall id | id in textures :: exists k | 0 <= k < i :: Areas[k].id == id
    {
      if outcomes[i].Loaded? {
        textures := textures[Areas[i].id := (outcomes[i].width, outcomes[i].height)];
      }
      i := i + 1;
    }
  }

  datatype Overlay = Overlay(
    open: bool,                       // `isOverlayOpen`
    visible: bool,
    texture: Option<(real, real)>,    // the image shown, by size
    scale: real,
    blurred: bool,                    // background and areas carry the blur filter
    fades: nat,                       // fade-out tweens started and not yet completed
    clicks: nat,                      // click sounds played
    lit: set<string>)                 // areas whose glass is brightened

  function Closed(): Overlay {
    Overlay(false, false, None, 1.0, false, 0, 0, {})
  }

  /** Pointer over an area brightens its glass, except while an overlay is
      open; pointer out dims it unconditionally. */
  function Hover(o: Overlay, id: string): (o': Overlay)
    ensures o.open ==> o' == o
    ensures !o.open ==> o'.lit == o.lit + {id} && o' == o.(lit := o'.lit)
  {
    if o.open then o else o.(lit := o.lit + {id})
  }

  function Unhover(o: Overlay, id: string): (o': Overlay)
    ensures id !in o'.lit && o' == o.(lit := o'.lit)
    ensures forall other | other in o.lit && other != id :: other in o'.lit
  {
    o.(lit := o.lit - {id})
  }

  predicate Positive(t: (real, real)) { t.0 > 0.0 && t.1 > 0.0 }

  /** `openOverlay(id)`: ignored while an overlay is open or when the
      area's photograph did not load; otherwise shows it cover-scaled and
      blurs the room. */
  function Open(o: Overlay, textures: map<string, (real, real)>, id: string, w: real, h: real): (o': Overlay)
    requires w > 0.0 && h > 0.0
    requires forall k | k in textures :: Positive(textures[k])
    ensures o.open || id !in textures ==> o' == o
    ensures !o.open && id in textures ==>
      o'.open && o'.visible && o'.blurred && o'.texture == Some(textures[id])
      && o'.scale * textures[id].0 >= w && o'.scale * textures[id].1 >= h
      && (o'.scale * textures[id].0 == w || o'.scale * textures[id].1 == h)
  {
    if o.open || id !in textures then o
    else
      var t := textures[id];
      assert Positive(t);
      o.(open := true, visible := true, texture := Some(t), scale := Scaling.CoverScale(w, h, t.0, t.1),
         blurred := true, clicks := o.clicks + 1)
  }

  /** `closeOverlay`: while open, a click, the blur removed and a fade-out
      tween started. `isOverlayOpen` stays set until a fade completes, so a
      second tap clicks again and starts a second tween of its own. */
  function Close(o: Overlay): (o': Overlay)
    ensures !o.open ==> o' == o
    ensures o.open ==>
      o'.open && o'.fades == o.fades + 1 && !o'.blurred && o'.clicks == o.clicks + 1
      && o' == o.(blurred := false, fades := o'.fades, clicks := o'.clicks)
  {
    if !o.open then o else o.(blurred := false, fades := o.fades + 1, clicks := o.clicks + 1)
  }

  /** One fade-out tween's `onComplete`. Each started tween completes and
      each completion hides the overlay, clears `isOverlayOpen` and drops
      the image, whatever was opened since it started; the blur is left as
      it is. */
  function CloseDone(o: Overlay): (o': Overlay)
    ensures o.fades > 0 ==>
      !o'.open && !o'.visible && o'.texture.None? && o'.fades == o.fades - 1
      && o' == o.(open := false, visible := false, texture := None, fades := o'.fades)
    ensures o.fades == 0 ==> o' == o
  {
    if o.fades > 0 then o.(fades := o.fades - 1, visible := false, open := false, texture := None) else o
  }

  /** `resize`: an open overlay with an image is re-cover-scaled. */
  function Resize(o: Overlay, w: real, h: real): (o': Overlay)
    requires w > 0.0 && h > 0.0
    requires o.texture.Some? ==> Positive(o.texture.value)
    ensures o'.open == o.open && o'.texture == o.texture
    ensures o.open && o.texture.Some? ==>
      o'.scale == MaxReal(w / o.texture.value.0, h / o.texture.value.1)
    ensures !(o.open && o.texture.Some?) ==> o' == o
  {
    if o.open && o.texture.Some? then
      o.(scale := Scaling.CoverScale(w, h, o.texture.value.0, o.texture.value.1))
    else o
  }

  /** Resizing an open overlay to the screen it was opened on changes
      nothing, and resizing it gives the scale that opening it on the new
      screen would have given. */
  lemma ResizeAgreesWithOpen(textures: map<string, (real, real)>, id: string, w0: real, h0: real, w1: real, h1: real)
    requires w0 > 0.0 && h0 > 0.0 && w1 > 0.0 && h1 > 0.0
    requires forall k | k in textures :: Positive(textures[k])
    requires id in textures
    ensures Resize(Open(Closed(), textures, id, w0, h0), w1, h1).scale == Open(Closed(), textures, id, w1, h1).scale
    ensures Resize(Open(Closed(), textures, id, w0, h0), w0, h0) == Open(Closed(), textures, id, w0, h0)
  {
  }

  /** An area whose photograph failed to load never opens the overlay. */
  lemma FailedAreaNeverOpens(outcomes: seq<Load>, i: nat, textures: map<string, (real, real)>, w: real, h: real)
    requires |outcomes| == |Areas| && i < |Areas| && outcomes[i].LoadFailed?
    requires forall k | 0 <= k < |Areas| :: Areas[k].id in textures <==> outcomes[k].Loaded?
    requires forall k | k in textures :: Positive(textures[k])
    requires w > 0.0 && h > 0.0
    ensures Open(Closed(), textures, Areas[i].id, w, h) == Closed()
  {
  }

  /** Open, close and one completed fade return to the closed overlay but
      for the two clicks played. */
  lemma OpenCloseRoundTrip(textures: map<string, (real, real)>, id: string, w: real, h: real)
    requires w > 0.0 && h > 0.0
    requires forall k | k in textures :: Positive(textures[k])
    requires id in textures
    ensures var o := CloseDone(Close(Open(Closed(), textures, id, w, h)));
      !o.open && !o.visible && !o.blurred && o.texture.None? && o.clicks == 2
  {
  }

  /** Two taps during one fade start two tweens. After the first completes
      the visitor opens another area; the second, stale completion then
      closes that overlay and drops its image while its blur stays on. */
  lemma StaleFadeClosesReopened(textures: map<string, (real, real)>, a: string, b: string, w: real, h: real)
    requires w > 0.0 && h > 0.0
    requires forall k | k in textures :: Positive(textures[k])
    requires a in textures && b in textures
    ensures var o1 := Close(Close(Open(Closed(), textures, a, w, h)));
      o1.open && o1.fades == 2 && o1.clicks == 3
    ensures var o2 := CloseDone(Close(Close(Open(Closed(), textures, a, w, h))));
      var o3 := Open(o2, textures, b, w, h);
      !o2.open && o3.open && o3.blurred && o3.texture == Some(textures[b])
      && var o4 := CloseDone(o3);
      !o4.open && !o4.visible && o4.texture.None? && o4.blurred && o4.fades == 0 && o4.clicks == 4
  {
  }
}

=== FILE: base_room.dfy ===
/** `BaseRoom`, the superclass of the rooms: its background (a cover-sized
    image or a gradient of twenty strips), the background's `resize`, and
    the back button. */
module BaseRoom {
  import opened Common
  import Colour
  import Scaling
  import opened Scenes

  /** The room's configuration object; an absent key is `None`. */
  datatype RoomConfig = RoomConfig(
    backgroundImage: Option<string>,
    backgroundColor: Option<int>,
    gradientTop: Option<int>,
    gradientBottom: Option<int>)

  const DefaultColour: int := 0x1a1a2e

  /** JavaScript `v || fallback` for a colour that is a number or absent:
      `undefined` and `0` are both falsy. */
  function Or(v: Option<int>, fallback: int): (c: int)
    ensures v.Some? && v.value != 0 ==> c == v.value
    ensures v.None? || v.value == 0 ==> c == fallback
  {
    if v.Some? && v.value != 0 then v.value else fallback
  }

  /** A string is truthy unless absent or empty. */
  predicate Truthy(s: Option<string>) {
    s.Some? && s.value != ""
  }

  /** Outcome of `PIXI.Assets.load` for the background image. */
  datatype Load = Loaded(width: real, height: real) | LoadFailed

  predicate Usable(l: Load) {
    l.Loaded? ==> l.width > 0.0 && l.height > 0.0
  }

  datatype Strip = Strip(y: real, width: real, height: real, colour: int)

  datatype Background =
    | Sprite(texW: real, texH: real, placement: Scaling.Placement)
    | Gradient(strips: seq<Strip>)

  const Strips := 20

  /** Height of each of `n` strips over a screen `h` high (an exact share
      plus one pixel) and the top of strip `i`. Strips abut, so the last one
      runs about `n` pixels past the bottom edge. */
  function StripHeight(n: nat, h: real): real
    requires n > 0
  {
    h / n as real + 1.0
  }

  function StripTop(i: nat, n: nat, h: real): real
    requires n > 0
  {
    i as real * StripHeight(n, h)
  }

  /** The colour of strip `i` of `n`: for `i <= n` a 24-bit value between
      `top` and `bottom` channel by channel, and `top` itself for the first
      strip. */
  lemma StripColour(i: nat, n: nat, top: int, bottom: int)
    requires n > 0
    ensures i <= n ==> var c := Colour.LerpColor(top, bottom, i as real / n as real);
      && Colour.Is24Bit(c)
      && Colour.Between(Colour.Red(c), Colour.Red(top), Colour.Red(bottom))
      && Colour.Between(Colour.Green(c), Colour.Green(top), Colour.Green(bottom))
      && Colour.Between(Colour.Blue(c), Colour.Blue(top), Colour.Blue(bottom))
    ensures i == 0 && Colour.Is24Bit(top) ==> Colour.LerpColor(top, bottom, i as real / n as real) == top
  {
    if i <= n {
      Colour.LerpColorBetween(top, bottom, i as real / n as real);
    }
    if i == 0 && Colour.Is24Bit(top) {
      assert i as real / n as real == 0.0;
      Colour.LerpColorAtZero(top, bottom);
    }
  }

  /** Strip `i` of `n` over a `w` by `h` screen, blending `top` to `bottom`:
      it sits at the `i`-th step down the screen, spans the width, and its
      colour lies between the two ends, starting at `top`. */
  function GradientStrip(i: nat, n: nat, w: real, h: real, top: int, bottom: int): (st: Strip)
    requires n > 0
    ensures st.y == StripTop(i, n, h) && st.height == StripHeight(n, h) && st.width == w
    ensures i <= n ==>
      && Colour.Is24Bit(st.colour)
      && Colour.Between(Colour.Red(st.colour), Colour.Red(top), Colour.Red(bottom))
      && Colour.Between(Colour.Green(st.colour), Colour.Green(top), Colour.Green(bottom))
      && Colour.Between(Colour.Blue(st.colour), Colour.Blue(top), Colour.Blue(bottom))
    ensures i == 0 && Colour.Is24Bit(top) ==> st.colour == top
  {
    StripColour(i, n, top, bottom);
    Strip(StripTop(i, n, h), w, StripHeight(n, h), Colour.LerpColor(top, bottom, i as real / n as real))
  }

  /** The `n` strips of the gradient, top to bottom: the first at the top
      edge in the top colour, every one a 24-bit colour. */
  function GradientStrips(n: nat, w: real, h: real, top: int, bottom: int): (s: seq<Strip>)
    requires n > 0
    ensures |s| == n
    ensures forall i | 0 <= i < n :: s[i] == GradientStrip(i, n, w, h, top, bottom)
    ensures s[0].y == 0.0
    ensures forall i | 0 <= i < n :: Colour.Is24Bit(s[i].colour)
    ensures Colour.Is24Bit(top) ==> s[0].colour == top
  {
    seq(n, i requires 0 <= i < n => GradientStrip(i, n, w, h, top, bottom))
  }

  /** The top and bottom colours the gradient fallback uses. */
  function TopColour(c: RoomConfig): int { Or(c.gradientTop, Or(c.backgroundColor, DefaultColour)) }
  function BottomColour(c: RoomConfig): int { Or(c.gradientBottom, Or(c.backgroundColor, DefaultColour)) }

  /** `createBackground`: the image, cover-sized and centred, when one is
      configured and loads; otherwise, also after a failed load, the
      gradient. */
  function CreateBackground(c: RoomConfig, w: real, h: real, load: Load): (b: Background)
    requires w > 0.0 && h > 0.0 && Usable(load)
    ensures b.Sprite? <==> Truthy(c.backgroundImage) && load.Loaded?
    ensures b.Sprite? ==> (b.placement.width >= w && b.placement.height >= h
                           && b.placement.width * b.texH == b.placement.height * b.texW)
    ensures b.Gradient? ==> |b.strips| == Strips
  {
    if Truthy(c.backgroundImage) && load.Loaded? then
      Sprite(load.width, load.height, Scaling.CoverPlacement(w, h, load.width, load.height))
    else
      Gradient(GradientStrips(Strips, w, h, TopColour(c), BottomColour(c)))
  }

  /** The gradient covers the screen top to bottom: each strip starts where
      the previous one ends, the first at the top, and the last ends below
      the bottom edge. */
  lemma GradientCoversScreen(h: real)
    requires h > 0.0
    ensures StripTop(0, Strips, h) == 0.0
    ensures forall i: nat | i < Strips - 1 :: StripTop(i, Strips, h) + StripHeight(Strips, h) == StripTop(i + 1, Strips, h)
    ensures StripTop(Strips - 1, Strips, h) + StripHeight(Strips, h) >= h
  {
  }

  /** The first strip has exactly the top colour. */
  lemma GradientStartsAtTop(c: RoomConfig, w: real, h: real)
    requires w > 0.0 && h > 0.0 && Colour.Is24Bit(TopColour(c))
    ensures GradientStrips(Strips, w, h, TopColour(c), BottomColour(c))[0].colour == TopColour(c)
  {
    Colour.LerpColorAtZero(TopColour(c), BottomColour(c));
    assert 0 as real / Strips as real == 0.0;
  }

  /** Every strip's colour is a 24-bit value between the gradient's ends,
      channel by channel. */
  lemma GradientColoursBetween(c: RoomConfig, w: real, h: real, i: nat)
    requires w > 0.0 && h > 0.0 && i < Strips
    ensures var col := GradientStrips(Strips, w, h, TopColour(c), BottomColour(c))[i].colour;
      && Colour.Is24Bit(col)
      && Colour.Between(Colour.Red(col), Colour.Red(TopColour(c)), Colour.Red(BottomColour(c)))
      && Colour.Between(Colour.Green(col), Colour.Green(TopColour(c)), Colour.Green(BottomColour(c)))
      && Colour.Between(Colour.Blue(col), Colour.Blue(TopColour(c)), Colour.Blue(BottomColour(c)))
  {
    Colour.LerpColorBetween(TopColour(c), BottomColour(c), i as real / Strips as real);
  }

  /** `resize`: re-cover the sprite from its texture's size, or redraw every
      existing strip with the colours `gradientTop || backgroundColor ||
      0x1a1a2e` and `gradientBottom || backgroundColor || 0x1a1a2e`. Without
      a background nothing happens. */
  function Resize(bg: Option<Background>, c: RoomConfig, w: real, h: real): Option<Background>
    requires w > 0.0 && h > 0.0
    requires bg.Some? && bg.value.Sprite? ==> bg.value.texW > 0.0 && bg.value.texH > 0.0
  {
    match bg
    case None => None
    case Some(Sprite(tw, th, _)) => Some(Sprite(tw, th, Scaling.CoverPlacement(w, h, tw, th)))
    case Some(Gradient(strips)) =>
      var top := Or(c.gradientTop, Or(c.backgroundColor, DefaultColour));
      var bottom := Or(c.gradientBottom, Or(c.backgroundColor, DefaultColour));
      Some(Gradient(seq(|strips|, i requires 0 <= i < |strips| => GradientStrip(i, Strips, w, h, top, bottom))))
  }

  /** Resizing a background to a screen gives exactly the background that
      `createBackground` would have built for that screen: the chained
      `||` of `resize` picks the same colours as the two-step defaults of
      `createBackground`. */
  lemma ResizeAgreesWithCreate(c: RoomConfig, w0: real, h0: real, w1: real, h1: real, load: Load)
    requires w0 > 0.0 && h0 > 0.0 && w1 > 0.0 && h1 > 0.0 && Usable(load)
    ensures Resize(Some(CreateBackground(c, w0, h0, load)), c, w1, h1) == Some(CreateBackground(c, w1, h1, load))
  {
  }

  /** The room state the back button sees. */
  datatype Room = Room(interactive: bool, background: Option<Background>, requests: seq<NavRequest>, clicks: nat)

  /** After the constructor: interactive from the start. */
  function NewRoom(): Room {
    Room(true, None, [], 0)
  }

  /** Tap on the back button: while interactive, a click sound and a
      `goBack()`; the room stays interactive. */
  function TapBack(r: Room): (r': Room)
    ensures r'.interactive == r.interactive && r'.clicks == r.clicks + |r'.requests| - |r.requests|
    ensures r.interactive ==> r'.requests == r.requests + [GoBack]
    ensures !r.interactive ==> r' == r
  {
    if r.interactive then r.(clicks := r.clicks + 1, requests := r.requests + [GoBack]) else r
  }

  /** `exit()`: interaction off (the ambient sound is stopped too). */
  function ExitRoom(r: Room): (r': Room)
    ensures !r'.interactive && r'.requests == r.requests
  {
    r.(interactive := false)
  }

  /** `destroy()`: the element table is emptied, so a later resize finds no
      background. */
  function DestroyRoom(r: Room): (r': Room)
    ensures r'.background.None? && r'.requests == r.requests
  {
    r.(background := None)
  }

  /** The back button is not latched: two quick taps send two `goBack()`
      requests (the manager pops for both, navigates once); after `exit()`
      taps do nothing. */
  lemma BackButtonNotLatched(r: Room)
    requires r.interactive
    ensures TapBack(TapBack(r)).requests == r.requests + [GoBack, GoBack]
    ensures TapBack(ExitRoom(r)) == ExitRoom(r)
  {
  }
}

=== FILE: collage.dfy ===
/** The bedroom's wall collage (`BedroomRoom.jsx`): a tilted thumbnail that
    turns on hover and, when tapped, opens a dimmed overlay holding the full
    collage scaled to fit 85 % of the screen. */
module Collage {
  import Scaling

  /** Thumbnail tilt at rest and while hovered, in degrees. */
  const BaseAngle: int := 2
  const HoverAngle: int := BaseAngle + 10

  datatype Collage = Collage(
    screenW: real, screenH: real,    // current screen size
    texW: real, texH: real,          // size of the open collage texture
    open: bool,                      // `isCollageOpen`
    visible: bool,                   // the overlay container is shown
    blurred: bool,                   // background, thumbnail and back button are blurred
    fades: nat,                      // fade-out tweens started and not yet completed
    angle: int,                      // the thumbnail's target tilt
    scale: real,                     // the open image's target scale
    clicks: nat)                     // click sounds played

  predicate Sizes(w: real, h: real, tw: real, th: real) {
    w > 0.0 && h > 0.0 && tw > 0.0 && th > 0.0
  }

  /** The room once `createCollageInteraction` has run: closed, thumbnail
      at its base tilt, image scale already fitted to the screen. */
  function New(w: real, h: real, tw: real, th: real): (c: Collage)
    requires Sizes(w, h, tw, th)
    ensures !c.open && !c.visible && c.angle == BaseAngle
    ensures c.scale * tw <= Scaling.Margin * w && c.scale * th <= Scaling.Margin * h
  {
    Collage(w, h, tw, th, false, false, false, 0, BaseAngle, Scaling.ContainScale(w, h, tw, th), 0)
  }

  datatype Event =
    | Over                  // pointer over the thumbnail
    | Out                   // pointer leaves the thumbnail
    | ThumbnailTap
    | DimTap                // tap on the dimmed backdrop
    | ImageTap              // tap on the open image; propagation is stopped
    | FadeOutDone
    | Resize(w: real, h: real)

  /** `openCollage`: ignored while open (which includes the fade-out);
      otherwise a click, the blur, and the image growing to its fitted
      scale. */
  function OpenCollage(c: Collage): (c': Collage)
    requires Sizes(c.screenW, c.screenH, c.texW, c.texH)
    ensures c.open ==> c' == c
    ensures !c.open ==>
      (c'.open && c'.visible && c'.blurred && c'.clicks == c.clicks + 1 && c'.angle == c.angle
       && (c'.scale * c.texW == Scaling.Margin * c.screenW || c'.scale * c.texH == Scaling.Margin * c.screenH))
  {
    if c.open then c
    else c.(open := true, visible := true, blurred := true, clicks := c.clicks + 1,
            scale := Scaling.ContainScale(c.screenW, c.screenH, c.texW, c.texH))
  }

  /** `closeCollage`: ignored when closed; otherwise a click, the blur is
      lifted and a fade-out tween starts. `isCollageOpen` stays set until a
      fade completes, so a second backdrop tap clicks again and starts a
      second tween of its own. */
  function CloseCollage(c: Collage): (c': Collage)
    ensures !c.open ==> c' == c
    ensures c.open ==>
      c'.open && c'.fades == c.fades + 1 && !c'.blurred && c'.clicks == c.clicks + 1
      && c' == c.(blurred := false, fades := c'.fades, clicks := c'.clicks)
  {
    if !c.open then c else c.(blurred := false, fades := c.fades + 1, clicks := c.clicks + 1)
  }

  /** One fade-out tween's `onComplete`. Every tween started completes, and
      each completion hides the overlay and clears `isCollageOpen` whatever
      happened since it started; it does not touch the blur. */
  function FadeOutComplete(c: Collage): (c': Collage)
    ensures c.fades > 0 ==>
      !c'.open && !c'.visible && c'.fades == c.fades - 1
      && c' == c.(open := false, visible := false, fades := c'.fades)
    ensures c.fades == 0 ==> c' == c
  {
    if c.fades > 0 then c.(open := false, visible := false, fades := c.fades - 1) else c
  }

  /** Hover and out turn the thumbnail unless the collage is open. */
  function Turn(c: Collage, angle: int): (c': Collage)
    ensures c.open ==> c' == c
    ensures !c.open ==> c'.angle == angle && c' == c.(angle := angle)
  {
    if c.open then c else c.(angle := angle)
  }

  /** `resize`: the open image is re-fitted to the new screen whether or
      not the overlay is showing. */
  function ResizeTo(c: Collage, w: real, h: real): (c': Collage)
    requires Sizes(w, h, c.texW, c.texH)
    ensures c'.screenW == w && c'.screenH == h && c'.open == c.open && c'.angle == c.angle
    ensures c'.scale * c.texW <= Scaling.Margin * w && c'.scale * c.texH <= Scaling.Margin * h
  {
    c.(screenW := w, screenH := h, scale := Scaling.ContainScale(w, h, c.texW, c.texH))
  }

  predicate Admissible(e: Event) {
    e.Resize? ==> e.w > 0.0 && e.h > 0.0
  }

  function Step(c: Collage, e: Event): (c': Collage)
    requires Sizes(c.screenW, c.screenH, c.texW, c.texH) && Admissible(e)
    ensures Sizes(c'.screenW, c'.screenH, c'.texW, c'.texH)
    ensures c'.texW == c.texW && c'.texH == c.texH
    ensures c'.clicks <= c.clicks + 1
    ensures c.open && !e.FadeOutDone? ==> c'.open
    ensures c'.fades == c.fades + 1 <==> e.DimTap? && c.open
    ensures c'.fades < c.fades <==> e.FadeOutDone? && c.fades > 0
    ensures c.open && !c'.open <==> e.FadeOutDone? && c.fades > 0 && c.open
  {
    match e
    case Over => Turn(c, HoverAngle)
    case Out => Turn(c, BaseAngle)
    case ThumbnailTap => OpenCollage(c)
    case DimTap => CloseCollage(c)
    case ImageTap => c
    case FadeOutDone => FadeOutComplete(c)
    case Resize(w, h) => ResizeTo(c, w, h)
  }

  /** What every reachable state keeps: the open image is always scaled to
      fit the current screen, the thumbnail tilt is one of the two angles,
      the overlay is shown exactly while the collage is open, and an open
      collage without a fade in flight is blurred. Blur on a closed
      collage is reachable (see `StaleFadeClosesReopened`). */
  predicate Inv(c: Collage) {
    && Sizes(c.screenW, c.screenH, c.texW, c.texH)
    && c.scale == Scaling.ContainScale(c.screenW, c.screenH, c.texW, c.texH)
    && (c.angle == BaseAngle || c.angle == HoverAngle)
    && (c.visible <==> c.open)
    && (c.open && c.fades == 0 ==> c.blurred)
  }

  function Run(c: Collage, evs: seq<Event>): Collage
    requires Inv(c)
    requires forall i | 0 <= i < |evs| :: Admissible(evs[i])
    decreases |evs|
  {
    if |evs| == 0 then c
    else
      StepPreservesInv(c, evs[0]);
      Run(Step(c, evs[0]), evs[1..])
  }

  lemma NewInv(w: real, h: real, tw: real, th: real)
    requires Sizes(w, h, tw, th)
    ensures Inv(New(w, h, tw, th))
  {
  }

  lemma StepPreservesInv(c: Collage, e: Event)
    requires Inv(c) && Admissible(e)
    ensures Inv(Step(c, e))
  {
  }

  lemma {:induction false} RunPreservesInv(c: Collage, evs: seq<Event>)
    requires Inv(c)
    requires forall i | 0 <= i < |evs| :: Admissible(evs[i])
    ensures Inv(Run(c, evs))
    ensures Run(c, evs).texW == c.texW && Run(c, evs).texH == c.texH
    decreases |evs|
  {
    if |evs| > 0 {
      StepPreservesInv(c, evs[0]);
      var c1 := Step(c, evs[0]);
      assert forall i | 0 <= i < |evs[1..]| :: Admissible(evs[1..][i]);
      RunPreservesInv(c1, evs[1..]);
    }
  }

  /** Opening always shows the image at exactly the fitted scale of the
      current screen, and a resize while open gives the scale opening on
      the new screen would have given. */
  lemma OpenScaleMatchesResize(c: Collage, w: real, h: real)
    requires Inv(c) && !c.open && w > 0.0 && h > 0.0
    ensures OpenCollage(c).scale == c.scale
    ensures ResizeTo(OpenCollage(c), w, h).scale == OpenCollage(ResizeTo(c, w, h)).scale
  {
  }

  /** Open, close and one finished fade bring the overlay back to closed,
      unblurred and hidden, with two clicks played. */
  lemma OpenCloseRoundTrip(c: Collage)
    requires Inv(c) && !c.open
    ensures var c' := FadeOutComplete(CloseCollage(OpenCollage(c)));
      c' == c.(blurred := false, clicks := c.clicks + 2)
  {
  }

  /** Two backdrop taps during one fade start two tweens. The first
      completion closes the collage; the visitor re-opens it; the second,
      stale completion then hides the re-opened collage and clears its
      flag, while the blur the re-open applied stays on. */
  lemma StaleFadeClosesReopened(c: Collage)
    requires Inv(c) && !c.open && c.fades == 0
    ensures var c1 := Step(Step(OpenCollage(c), DimTap), DimTap);
      c1.fades == 2 && c1.clicks == c.clicks + 3
    ensures var c2 := Step(OpenCollage(Step(Step(Step(OpenCollage(c), DimTap), DimTap), FadeOutDone)), FadeOutDone);
      !c2.open && !c2.visible && c2.blurred && c2.fades == 0 && c2.clicks == c.clicks + 4
    ensures var c3 := Step(Step(Step(OpenCollage(c), DimTap), DimTap), FadeOutDone);
      !c3.open && OpenCollage(c3).open && OpenCollage(c3).blurred
  {
  }

  /** While the collage is open the thumbnail keeps the tilt it had, so a
      hover that opened it leaves it turned until the pointer leaves after
      closing. */
  lemma TiltFrozenWhileOpen(c: Collage)
    requires Inv(c) && !c.open
    ensures var o := OpenCollage(Turn(c, HoverAngle));
      Turn(o, BaseAngle).angle == HoverAngle
      && Turn(FadeOutComplete(CloseCollage(o)), BaseAngle).angle == BaseAngle
  {
  }

  /** A tap on the open image does not close it; only the backdrop does. */
  lemma ImageTapKeepsOpen(c: Collage)
    requires Inv(c) && c.open
    ensures Step(c, ImageTap) == c
    ensures !Step(Step(c, DimTap), FadeOutDone).open
  {
  }
}

=== FILE: colour.dfy ===
/** 24-bit RGB colours as JavaScript's 32-bit bitwise operators see them:
    channel unpacking (`(c >> 16) & 0xff`), packing
    (`(r << 16) | (g << 8) | b`) and the per-channel linear blend used by
    `BaseRoom.lerpColor` and `HouseScene._lerpColor`. */
module Colour {
  import opened Common

  const TwoTo32: int := 0x1_0000_0000
  const TwoTo31: int := 0x8000_0000
  const TwoTo24: int := 0x100_0000

  /** ECMAScript ToInt32 of an integral number: wrap into the signed
      32-bit range. */
  function ToInt32(n: int): (r: int)
    ensures -TwoTo31 <= r < TwoTo31
    ensures (r - n) % TwoTo32 == 0
    ensures -TwoTo31 <= n < TwoTo31 ==> r == n
  {
    (n + TwoTo31) % TwoTo32 - TwoTo31
  }

  /** `(c >> shift) & 0xff`: `>>` is an arithmetic shift, i.e. a floor
      division (Dafny's `/` by a positive divisor), and `& 0xff` keeps the
      low byte of the two's-complement value (Dafny's `%` by 256). */
  function Byte(c: int, shift: nat): (r: int)
    requires shift == 0 || shift == 8 || shift == 16
    ensures 0 <= r < 256
  {
    var d := if shift == 16 then 0x1_0000 else if shift == 8 then 0x100 else 1;
    (ToInt32(c) / d) % 256
  }

  function Red(c: int): int { Byte(c, 16) }
  function Green(c: int): int { Byte(c, 8) }
  function Blue(c: int): int { Byte(c, 0) }

  predicate Is24Bit(c: int) { 0 <= c < TwoTo24 }

  /** 2 to the power k. */
  function Pow2(k: nat): (r: nat)
    ensures r >= 1
  {
    if k == 0 then 1 else 2 * Pow2(k - 1)
  }

  /** The unsigned 32-bit pattern of an integer (its ToUint32). */
  function Bits(n: int): (r: nat)
    ensures r < TwoTo32
  {
    n % TwoTo32
  }

  /** `x << k` on the 32-bit pattern of `x`. */
  function ShiftLeft(x: int, k: nat): (r: nat)
    ensures r < TwoTo32
  {
    (Bits(x) * Pow2(k)) % TwoTo32
  }

  /** Bitwise OR of two non-negative integers, bit by bit from the lowest. */
  function BitOr(a: nat, b: nat): nat
    decreases a + b
  {
    if a == 0 && b == 0 then 0
    else (if a % 2 == 1 || b % 2 == 1 then 1 else 0) + 2 * BitOr(a / 2, b / 2)
  }

  /** A 32-bit pattern read back as the signed result of a JS bitwise operator. */
  function Signed(u: nat): int {
    if u >= TwoTo31 then u - TwoTo32 else u
  }

  /** `(r << 16) | (g << 8) | b`, evaluated left to right on 32-bit patterns. */
  function Pack(r: int, g: int, b: int): int {
    Signed(BitOr(BitOr(ShiftLeft(r, 16), ShiftLeft(g, 8)), Bits(b)))
  }

  lemma {:induction false} OrZero(a: nat)
    ensures BitOr(a, 0) == a
    decreases a
  {
    if a != 0 {
      OrZero(a / 2);
    }
  }

  /** OR-ing a value below 2^k into a multiple of 2^k is addition. */
  lemma {:induction false} OrShifted(x: nat, y: nat, k: nat)
    requires y < Pow2(k)
    ensures BitOr(x * Pow2(k), y) == x * Pow2(k) + y
    decreases k
  {
    if k == 0 {
      OrZero(x);
    } else {
      var a := x * Pow2(k);
      assert a == 2 * (x * Pow2(k - 1));
      assert a % 2 == 0 && a / 2 == x * Pow2(k - 1);
      if a != 0 || y != 0 {
        OrShifted(x, y / 2, k - 1);
      }
    }
  }

  lemma Pow2Values()
    ensures Pow2(8) == 0x100 && Pow2(16) == 0x1_0000
  {
  }

  /** One channel of the blend: `Math.round(a + (b - a) * t)`. */
  function LerpChannel(a: int, b: int, t: real): int {
    Round(a as real + (b - a) as real * t)
  }

  /** `BaseRoom.lerpColor(color1, color2, ratio)`. */
  function LerpColor(c1: int, c2: int, t: real): int {
    Pack(LerpChannel(Red(c1), Red(c2), t),
         LerpChannel(Green(c1), Green(c2), t),
         LerpChannel(Blue(c1), Blue(c2), t))
  }

  /** A byte shifted left by 8 or 16 stays inside 32 bits. */
  lemma ShiftByte(x: int, k: nat)
    requires 0 <= x < 256 && (k == 8 || k == 16)
    ensures ShiftLeft(x, k) == x * Pow2(k)
  {
    Pow2Values();
    assert Bits(x) == x;
    assert x * Pow2(k) < TwoTo32;
  }

  /** The first OR of `Pack`: red and green bytes in place. */
  lemma OrRedGreen(r: int, g: int)
    requires 0 <= r < 256 && 0 <= g < 256
    ensures BitOr(ShiftLeft(r, 16), ShiftLeft(g, 8)) == (r * 0x100 + g) * 0x100
  {
    Pow2Values();
    ShiftByte(r, 16);
    ShiftByte(g, 8);
    OrShifted(r, g * 0x100, 16);
  }

  /** The second OR of `Pack`: the blue byte below the other two. */
  lemma OrBlue(hi: nat, b: int)
    requires 0 <= b < 256
    ensures BitOr(hi * 0x100, Bits(b)) == hi * 0x100 + b
  {
    Pow2Values();
    assert Bits(b) == b;
    OrShifted(hi, b, 8);
  }

  /** For bytes, packing is plain positional arithmetic. */
  lemma {:induction false} PackBytes(r: int, g: int, b: int)
    requires 0 <= r < 256 && 0 <= g < 256 && 0 <= b < 256
    ensures Pack(r, g, b) == r * 0x1_0000 + g * 0x100 + b
  {
    var hi := r * 0x100 + g;
    OrRedGreen(r, g);
    OrBlue(hi, b);
    var u := BitOr(BitOr(ShiftLeft(r, 16), ShiftLeft(g, 8)), Bits(b));
    assert u == hi * 0x100 + b;
    assert u < TwoTo31;
  }

  /** A 24-bit colour is its three channels written positionally. */
  lemma UnpackBytes(c: int)
    requires Is24Bit(c)
    ensures Red(c) == c / 0x1_0000 && Green(c) == (c / 0x100) % 256 && Blue(c) == c % 256
    ensures c == Red(c) * 0x1_0000 + Green(c) * 0x100 + Blue(c)
  {
    assert ToInt32(c) == c;
  }

  /** Unpacking then packing a 24-bit colour gives it back. */
  lemma {:induction false} PackUnpack(c: int)
    requires Is24Bit(c)
    ensures Pack(Red(c), Green(c), Blue(c)) == c
  {
    UnpackBytes(c);
    PackBytes(Red(c), Green(c), Blue(c));
  }

  /** Division by 256 of a value written in base 256. */
  lemma DivMod256(q: int, rem: int)
    requires 0 <= rem < 256
    ensures (q * 256 + rem) / 256 == q && (q * 256 + rem) % 256 == rem
  {
  }

  lemma Div65536(q: int, rem: int)
    requires 0 <= rem < 0x1_0000
    ensures (q * 0x1_0000 + rem) / 0x1_0000 == q
  {
  }

  /** The channels of a positionally written 24-bit value. */
  lemma {:induction false} UnpackPositional(r: int, g: int, b: int)
    requires 0 <= r < 256 && 0 <= g < 256 && 0 <= b < 256
    ensures var c := r * 0x1_0000 + g * 0x100 + b;
      Is24Bit(c) && Red(c) == r && Green(c) == g && Blue(c) == b
  {
    var c := r * 0x1_0000 + g * 0x100 + b;
    assert ToInt32(c) == c;
    var hi := r * 256 + g;
    assert c == hi * 256 + b;
    DivMod256(hi, b);
    assert Blue(c) == b;
    DivMod256(r, g);
    assert Green(c) == (hi % 256) == g;
    assert c == r * 0x1_0000 + (g * 0x100 + b);
    Div65536(r, g * 0x100 + b);
    assert Red(c) == r % 256 == r;
  }

  /** Packing bytes and unpacking recovers each channel. */
  lemma {:induction false} UnpackPack(r: int, g: int, b: int)
    requires 0 <= r < 256 && 0 <= g < 256 && 0 <= b < 256
    ensures Is24Bit(Pack(r, g, b))
    ensures Red(Pack(r, g, b)) == r && Green(Pack(r, g, b)) == g && Blue(Pack(r, g, b)) == b
  {
    PackBytes(r, g, b);
    UnpackPositional(r, g, b);
  }

  /** A blend channel at t = 0 is the first channel, at t = 1 the second. */
  lemma LerpChannelEnds(a: int, b: int)
    ensures LerpChannel(a, b, 0.0) == a
    ensures LerpChannel(a, b, 1.0) == b
  {
    RoundOfInteger(a);
    RoundOfInteger(b);
  }

  /** For t in [0, 1] a blend channel lies between the two input channels. */
  lemma LerpChannelBetween(a: int, b: int, t: real)
    requires 0.0 <= t <= 1.0
    ensures a <= b ==> a <= LerpChannel(a, b, t) <= b
    ensures b <= a ==> b <= LerpChannel(a, b, t) <= a
  {
    var x := a as real + (b - a) as real * t;
    if a <= b {
      assert (b - a) as real * t <= (b - a) as real;
      RoundBetween(a, b, x);
    } else {
      assert (b - a) as real * t >= (b - a) as real;
      RoundBetween(b, a, x);
    }
  }

  /** `lerpColor(c1, c2, 0) == c1` for a 24-bit `c1`. */
  lemma {:induction false} LerpColorAtZero(c1: int, c2: int)
    requires Is24Bit(c1)
    ensures LerpColor(c1, c2, 0.0) == c1
  {
    LerpChannelEnds(Red(c1), Red(c2));
    LerpChannelEnds(Green(c1), Green(c2));
    LerpChannelEnds(Blue(c1), Blue(c2));
    PackUnpack(c1);
  }

  /** `lerpColor(c1, c2, 1) == c2` for a 24-bit `c2`. */
  lemma {:induction false} LerpColorAtOne(c1: int, c2: int)
    requires Is24Bit(c2)
    ensures LerpColor(c1, c2, 1.0) == c2
  {
    LerpChannelEnds(Red(c1), Red(c2));
    LerpChannelEnds(Green(c1), Green(c2));
    LerpChannelEnds(Blue(c1), Blue(c2));
    PackUnpack(c2);
  }

  /** Blending a 24-bit colour with itself gives it back, whatever the ratio. */
  lemma {:induction false} LerpColorSame(c: int, t: real)
    requires Is24Bit(c)
    ensures LerpColor(c, c, t) == c
  {
    RoundOfInteger(Red(c));
    RoundOfInteger(Green(c));
    RoundOfInteger(Blue(c));
    PackUnpack(c);
  }

  /** For a ratio in [0, 1] the blend is a 24-bit colour whose every channel
      lies between the corresponding channels of the inputs. */
  lemma {:induction false} LerpColorBetween(c1: int, c2: int, t: real)
    requires 0.0 <= t <= 1.0
    ensures Is24Bit(LerpColor(c1, c2, t))
    ensures Between(Red(LerpColor(c1, c2, t)), Red(c1), Red(c2))
    ensures Between(Green(LerpColor(c1, c2, t)), Green(c1), Green(c2))
    ensures Between(Blue(LerpColor(c1, c2, t)), Blue(c1), Blue(c2))
  {
    var r := LerpChannel(Red(c1), Red(c2), t);
    var g := LerpChannel(Green(c1), Green(c2), t);
    var b := LerpChannel(Blue(c1), Blue(c2), t);
    LerpChannelBetween(Red(c1), Red(c2), t);
    LerpChannelBetween(Green(c1), Green(c2), t);
    LerpChannelBetween(Blue(c1), Blue(c2), t);
    UnpackPack(r, g, b);
  }

  predicate Between(v: int, a: int, b: int) {
    (a <= v <= b) || (b <= v <= a)
  }
}

=== FILE: common.dfy ===
/** Small shared vocabulary: an optional value and the handful of
    JavaScript `Math` functions the scenes use, over exact reals. */
module Common {

  /** `null`/`undefined` versus a present value. */
  datatype Option<+T> = None | Some(value: T) {
    function GetOr(default: T): T {
      match this
      case Some(v) => v
      case None => default
    }
  }

  /** `Math.floor`. */
  function Floor(x: real): (r: int)
    ensures r as real <= x < r as real + 1.0
  {
    x.Floor
  }

  /** `Math.round`: the nearest integer, halves rounded towards +infinity. */
  function Round(x: real): (r: int)
    ensures r as real - 0.5 <= x < r as real + 0.5
  {
    Floor(x + 0.5)
  }

  function MinReal(a: real, b: real): (r: real)
    ensures r <= a && r <= b
    ensures r == a || r == b
  {
    if a <= b then a else b
  }

  function MaxReal(a: real, b: real): (r: real)
    ensures r >= a && r >= b
    ensures r == a || r == b
  {
    if a >= b then a else b
  }

  /** Rounding an exact integer gives it back. */
  lemma RoundOfInteger(n: int)
    ensures Round(n as real) == n
  {
  }

  /** Rounding a value that lies between two integers stays between them. */
  lemma RoundBetween(lo: int, hi: int, x: real)
    requires lo as real <= x <= hi as real
    ensures lo <= Round(x) <= hi
  {
  }
}

=== FILE: curtain.dfy ===
/** The curtain scene's pull gesture: a press on the tassel starts a drag,
    every downward pointer move pushes the tassel and may start the opening,
    and the opening animation ends in one navigation to the house.

    Pointer moves are measured from the previous move, not from the press,
    so `totalPull` is the largest single move seen, not the distance pulled. */
module Curtain {
  import opened Common
  import opened Scenes

  /** Distance, in pixels, one pointer move must reach to open the curtains. */
  const PullThreshold := 100.0

  datatype Gesture = Gesture(
    isDragging: bool,
    dragStartY: real,
    totalPull: real,
    pullProgress: real,
    isOpening: bool,
    timelineRunning: bool,      // the opening animation has not completed yet
    forces: seq<real>,          // vertical forces applied to the tassel, in order
    soundsPlayed: nat,          // plays of the curtain sound
    requests: seq<NavRequest>)  // navigations asked of the scene manager

  /** State after the constructor and `setupPointerEvents`. */
  function Initial(): Gesture {
    Gesture(false, 0.0, 0.0, 0.0, false, false, [], 0, [])
  }

  datatype Event = Down(y: real) | Move(y: real) | Up | OpeningDone

  /** `startOpening`: runs once; plays the sound and starts the animation
      whose completion navigates. */
  function StartOpening(g: Gesture): (g': Gesture)
    ensures g'.isOpening && g'.requests == g.requests
    ensures g'.soundsPlayed == g.soundsPlayed + (if g.isOpening then 0 else 1)
  {
    if g.isOpening then g
    else g.(isOpening := true, timelineRunning := true, soundsPlayed := g.soundsPlayed + 1)
  }

  function OnDown(g: Gesture, y: real): Gesture {
    if g.isOpening then g else g.(isDragging := true, dragStartY := y)
  }

  /** A pointer move: a downward step pushes the tassel by a force
      proportional to the step, raises `totalPull` to the step if larger,
      refreshes the progress and opens on reaching the threshold; every
      handled move becomes the next step's origin. */
  function OnMove(g: Gesture, y: real): Gesture {
    if !g.isDragging || g.isOpening then g
    else
      var deltaY := y - g.dragStartY;
      var g1 :=
        if deltaY > 0.0 then
          var pull := MaxReal(g.totalPull, deltaY);
          var g0 := g.(forces := g.forces + [deltaY * 0.0001], totalPull := pull,
                       pullProgress := MinReal(1.0, pull / PullThreshold));
          if pull >= PullThreshold && !g0.isOpening then StartOpening(g0) else g0
        else g;
      g1.(dragStartY := y)
  }

  /** Release (inside or outside): ends the drag and, unless opening, applies
      a small upward force, whether or not a drag was under way. */
  function OnUp(g: Gesture): Gesture {
    var g1 := g.(isDragging := false);
    if g.isOpening then g1 else g1.(forces := g1.forces + [-0.01])
  }

  /** Completion of the opening animation. */
  function OnOpeningDone(g: Gesture): Gesture {
    if g.timelineRunning then
      g.(timelineRunning := false, requests := g.requests + [ChangeRequest(HOUSE, "fade", 0.8)])
    else g
  }

  /** A handled downward move: the pointer is dragging, the curtain is not
      opening and the move goes down from the last origin. */
  predicate PullingMove(g: Gesture, e: Event) {
    e.Move? && g.isDragging && !g.isOpening && e.y - g.dragStartY > 0.0
  }

  function Step(g: Gesture, e: Event): (g': Gesture)
    ensures g.isOpening ==> g'.isOpening && g'.totalPull == g.totalPull && g'.soundsPlayed == g.soundsPlayed
    ensures g'.totalPull >= g.totalPull
    ensures PullingMove(g, e) ==> g'.totalPull == MaxReal(g.totalPull, e.y - g.dragStartY)
    ensures !PullingMove(g, e) ==> g'.totalPull == g.totalPull
    ensures e.Move? && g.isDragging && !g.isOpening ==> g'.dragStartY == e.y && g'.isDragging
    ensures e.Move? && (!g.isDragging || g.isOpening) ==> g' == g
    ensures e.Down? && g.isOpening ==> g' == g
    ensures e.Down? && !g.isOpening ==> g'.isDragging && g'.dragStartY == e.y
    ensures e.Up? ==> !g'.isDragging
    ensures |g.forces| <= |g'.forces| <= |g.forces| + 1 && g'.forces[..|g.forces|] == g.forces
    ensures |g'.forces| > |g.forces| ==> !g.isOpening
    ensures |g'.forces| > |g.forces| ==> (g'.forces[|g.forces|] > 0.0 <==> e.Move?)
  {
    match e
    case Down(y) => OnDown(g, y)
    case Move(y) => OnMove(g, y)
    case Up => OnUp(g)
    case OpeningDone => OnOpeningDone(g)
  }

  /** The gesture's bookkeeping: the progress shown is the high-water mark
      over the threshold, capped at 1; the opening has started exactly when
      the mark reached the threshold; the sound played once and exactly one
      navigation was asked for or is still pending once opening. */
  ghost predicate Inv(g: Gesture) {
    && g.totalPull >= 0.0
    && g.pullProgress == MinReal(1.0, g.totalPull / PullThreshold)
    && (g.isOpening <==> g.totalPull >= PullThreshold)
    && g.soundsPlayed == (if g.isOpening then 1 else 0)
    && |g.requests| + (if g.timelineRunning then 1 else 0) == (if g.isOpening then 1 else 0)
    && (forall i | 0 <= i < |g.requests| :: g.requests[i] == ChangeRequest(HOUSE, "fade", 0.8))
  }

  lemma InitialInv()
    ensures Inv(Initial())
  {
  }

  lemma StepPreservesInv(g: Gesture, e: Event)
    requires Inv(g)
    ensures Inv(Step(g, e))
  {
  }

  function Run(g: Gesture, events: seq<Event>): Gesture
    decreases |events|
  {
    if |events| == 0 then g else Run(Step(g, events[0]), events[1..])
  }

  lemma {:induction false} RunPreservesInv(g: Gesture, events: seq<Event>)
    requires Inv(g)
    ensures Inv(Run(g, events))
    decreases |events|
  {
    if |events| > 0 {
      StepPreservesInv(g, events[0]);
      RunPreservesInv(Step(g, events[0]), events[1..]);
    }
  }

  /** Over any run the largest single pull never shrinks, and once the
      curtain is opening it stays opening. */
  lemma {:induction false} RunPullNeverDecreases(g: Gesture, events: seq<Event>)
    ensures Run(g, events).totalPull >= g.totalPull
    ensures g.isOpening ==> Run(g, events).isOpening
    decreases |events|
  {
    if |events| > 0 {
      RunPullNeverDecreases(Step(g, events[0]), events[1..]);
    }
  }

  /** Whatever the pointer does, the gesture asks for at most one
      navigation, and it is the fade to the house. */
  lemma AtMostOneNavigation(events: seq<Event>)
    ensures var g := Run(Initial(), events);
      |g.requests| <= 1 && (|g.requests| == 1 ==> g.requests[0] == ChangeRequest(HOUSE, "fade", 0.8))
  {
    InitialInv();
    RunPreservesInv(Initial(), events);
  }

  /** A press followed by one move at least the threshold below it opens. */
  lemma OneLongMoveOpens(y0: real, y1: real)
    requires y1 - y0 >= PullThreshold
    ensures var g := Run(Initial(), [Down(y0), Move(y1), OpeningDone]);
      g.isOpening && g.requests == [ChangeRequest(HOUSE, "fade", 0.8)]
  {
    var g1 := Step(Initial(), Down(y0));
    var g2 := Step(g1, Move(y1));
    assert g2.isOpening && g2.timelineRunning;
    var evs := [Down(y0), Move(y1), OpeningDone];
    assert evs[1..][1..][1..] == [];
    assert Run(Initial(), evs) == Run(g1, evs[1..]);
    assert Run(g1, evs[1..]) == Run(g2, evs[1..][1..]);
    assert Run(g2, evs[1..][1..]) == Run(Step(g2, OpeningDone), []);
  }

  /** Two moves of 60 pixels pull 120 in all but never open: each move is
      measured from the previous one. */
  lemma CumulativePullDoesNotOpen()
    ensures var g := Run(Initial(), [Down(0.0), Move(60.0), Move(120.0)]);
      !g.isOpening && g.totalPull == 60.0 && g.pullProgress == 0.6
  {
    var g1 := Step(Initial(), Down(0.0));
    var g2 := Step(g1, Move(60.0));
    assert g2.totalPull == 60.0 && g2.dragStartY == 60.0;
    var g3 := Step(g2, Move(120.0));
    assert g3.totalPull == 60.0;
    var evs := [Down(0.0), Move(60.0), Move(120.0)];
    assert evs[1..][1..][1..] == [];
    assert Run(Initial(), evs) == Run(g3, []);
  }

  /** Opening twice is opening once. */
  lemma StartOpeningIdempotent(g: Gesture)
    ensures StartOpening(StartOpening(g)) == StartOpening(g)
  {
  }

  /** Once opening, presses and moves change nothing, and a release only
      clears the drag flag. */
  lemma OpeningIgnoresPointer(g: Gesture, e: Event)
    requires g.isOpening && !e.OpeningDone?
    ensures var g' := Step(g, e);
      g'.forces == g.forces && g'.totalPull == g.totalPull && g'.pullProgress == g.pullProgress
      && g'.requests == g.requests && g'.timelineRunning == g.timelineRunning
    ensures !e.Up? ==> Step(g, e) == g
    ensures e.Up? ==> Step(g, e) == g.(isDragging := false)
  {
  }

  /** The physics rig as `update` and `destroy` see it. */
  datatype Rig = Rig(engineLive: bool, segments: seq<(real, real)>)

  /** `update(delta)`: when the engine exists, the milliseconds it is
      advanced by and the rope polyline to draw. */
  function Update(r: Rig, delta: real): (out: Option<(real, seq<(real, real)>)>)
    ensures out.Some? <==> r.engineLive
    ensures out.Some? ==> out.value.0 == delta * 16.67
    ensures out.Some? ==> |out.value.1| == (if |r.segments| > 0 then |r.segments| + 1 else 0)
    ensures out.Some? && |r.segments| > 0 ==>
      out.value.1[0] == (r.segments[0].0, r.segments[0].1 - 12.0) && out.value.1[1..] == r.segments
  {
    if !r.engineLive then None
    else Some((delta * 16.67, RopePolyline(r.segments)))
  }

  /** The rope is drawn from 12 pixels above the first segment's centre
      through every segment's centre. */
  function RopePolyline(centres: seq<(real, real)>): seq<(real, real)> {
    if |centres| == 0 then [] else [(centres[0].0, centres[0].1 - 12.0)] + centres
  }

  /** `destroy()`: the engine is cleared and the segment list emptied. */
  function DestroyRig(r: Rig): Rig {
    Rig(false, [])
  }

  /** After `destroy`, frame ticks no longer step the physics. */
  lemma UpdateAfterDestroyIsInert(r: Rig, delta: real)
    ensures Update(DestroyRig(r), delta).None?
  {
  }
}

=== FILE: dance_room.dfy ===
/** The dance room: the gramophone toggles the music, a running interval
    spawns a music-note particle every 100 ms while it plays, each particle
    removes itself when its float-away tween completes, and the floor tiles
    cycle through five colours on timers of their own. */
module DanceRoom {

  const PlayingHint := "Click again to stop"
  const StoppedHint := "Click the gramophone to play music"

  /** Milliseconds between particles while playing. */
  const ParticleEveryMs := 100

  /** Particles are named by their creation number. */
  datatype Room = Room(
    playing: bool,            // `isPlaying`
    intervalLive: bool,       // the particle interval is scheduled
    hint: string,
    particles: seq<nat>,      // `this.particles`, oldest first
    spawned: nat,             // particles created so far
    destroyed: bool)

  function Initial(): Room {
    Room(false, false, StoppedHint, [], 0, false)
  }

  datatype Event = GramophoneTap | IntervalTick | ParticleDone(id: nat) | Destroy

  /** `togglePlay`: flip, then start the interval and set the stop hint, or
      clear the interval and restore the play hint. */
  function TogglePlay(r: Room): (r': Room)
    ensures r'.playing == !r.playing && r'.intervalLive == r'.playing
    ensures r'.hint == (if r'.playing then PlayingHint else StoppedHint)
    ensures r'.particles == r.particles
  {
    var p := !r.playing;
    r.(playing := p, intervalLive := p, hint := if p then PlayingHint else StoppedHint)
  }

  /** `createMusicParticle`, run by the interval: only while playing. */
  function Spawn(r: Room): Room {
    if r.intervalLive && r.playing then r.(particles := r.particles + [r.spawned], spawned := r.spawned + 1) else r
  }

  /** `particles.splice(particles.indexOf(p), 1)` when present. */
  function RemoveFirst(s: seq<nat>, x: nat): (r: seq<nat>)
    ensures x in s ==> multiset(r) == multiset(s) - multiset{x} && |r| == |s| - 1
    ensures x !in s ==> r == s
    ensures forall y | y in r :: y in s
  {
    if |s| == 0 then s
    else if s[0] == x then
      assert s == [s[0]] + s[1..];
      s[1..]
    else
      var rest := RemoveFirst(s[1..], x);
      assert s == [s[0]] + s[1..];
      [s[0]] + rest
  }

  function Step(r: Room, e: Event): Room {
    if r.destroyed then r
    else match e
      case GramophoneTap => TogglePlay(r)
      case IntervalTick => Spawn(r)
      case ParticleDone(id) => r.(particles := RemoveFirst(r.particles, id))
      case Destroy => r.(destroyed := true, intervalLive := false)
  }

  predicate Increasing(s: seq<nat>) {
    forall i, j | 0 <= i < j < |s| :: s[i] < s[j]
  }

  /** The interval runs exactly while the music plays (until the room is
      destroyed), the hint matches the state, and the live particles are
      distinct, oldest first, and all were spawned. */
  ghost predicate Inv(r: Room) {
    && (!r.destroyed ==> r.intervalLive == r.playing)
    && (r.destroyed ==> !r.intervalLive)
    && r.hint == (if r.playing then PlayingHint else StoppedHint)
    && Increasing(r.particles)
    && (forall p | p in r.particles :: p < r.spawned)
  }

  /** Removing an element keeps a sequence increasing. */
  lemma {:induction false} RemoveFirstIncreasing(s: seq<nat>, x: nat)
    requires Increasing(s)
    ensures Increasing(RemoveFirst(s, x))
    decreases |s|
  {
    if |s| > 0 && s[0] != x {
      var rest := RemoveFirst(s[1..], x);
      RemoveFirstIncreasing(s[1..], x);
      assert forall y | y in s[1..] :: s[0] < y;
      var r := [s[0]] + rest;
      assert RemoveFirst(s, x) == r;
      forall i, j | 0 <= i < j < |r|
        ensures r[i] < r[j]
      {
        if i == 0 {
          assert r[j] in rest;
        } else {
          assert r[i] == rest[i - 1] && r[j] == rest[j - 1];
        }
      }
    }
  }

  lemma StepPreservesInv(r: Room, e: Event)
    requires Inv(r)
    ensures Inv(Step(r, e))
  {
    if !r.destroyed && e.ParticleDone? {
      RemoveFirstIncreasing(r.particles, e.id);
    } else if !r.destroyed && e.IntervalTick? && r.intervalLive && r.playing {
      var s := r.particles + [r.spawned];
      forall i, j | 0 <= i < j < |s|
        ensures s[i] < s[j]
      {
        assert s[i] == r.particles[i] && s[i] in r.particles;
      }
    }
  }

  /** Two taps on the gramophone restore the room as it was. */
  lemma ToggleTwiceIsIdentity(r: Room)
    requires Inv(r) && !r.destroyed
    ensures Step(Step(r, GramophoneTap), GramophoneTap) == r
  {
  }

  /** A completed particle is gone from the list, and no other particle is
      removed. */
  lemma ParticleDoneRemovesOnlyIt(r: Room, id: nat)
    requires Inv(r) && !r.destroyed && id in r.particles
    ensures var r' := Step(r, ParticleDone(id));
      id !in r'.particles && multiset(r'.particles) == multiset(r.particles) - multiset{id}
  {
    DistinctCount(r.particles, id);
  }

  /** In an increasing sequence every element occurs once. */
  lemma {:induction false} DistinctCount(s: seq<nat>, x: nat)
    requires Increasing(s) && x in s
    ensures multiset(s)[x] == 1
    decreases |s|
  {
    assert s == [s[0]] + s[1..];
    if s[0] == x {
      assert x !in s[1..];
    } else {
      DistinctCount(s[1..], x);
    }
  }

  /** Once stopped, interval ticks create nothing. */
  lemma StoppedSpawnsNothing(r: Room)
    requires Inv(r) && !r.playing
    ensures Step(r, IntervalTick) == r
  {
  }

  /** After `destroy()` the particle interval is cleared and the room no
      longer changes. */
  lemma DestroyedIsInert(r: Room, e: Event)
    requires Inv(r)
    ensures var d := Step(r, Destroy);
      !d.intervalLive && Step(d, e) == d
  {
  }

  /** The floor tile colours. */
  const TileColours: seq<int> := [0xff69b4, 0x00ffff, 0xff00ff, 0xffff00, 0x00ff88]

  /** One tile's animation: its colour index, and whether it is still in
      the scene graph. Its interval is never cleared. */
  datatype Tile = Tile(colourIndex: nat, attached: bool)

  /** One tick of the tile's interval: advance the colour while attached. */
  function TileTick(t: Tile): (t': Tile)
    requires t.colourIndex < |TileColours|
    ensures t'.colourIndex < |TileColours| && t'.attached == t.attached
    ensures !t.attached ==> t' == t
  {
    if !t.attached then t else t.(colourIndex := (t.colourIndex + 1) % |TileColours|)
  }

  function TileTicks(t: Tile, k: nat): Tile
    requires t.colourIndex < |TileColours|
    decreases k
  {
    if k == 0 then t else TileTicks(TileTick(t), k - 1)
  }

  /** An attached tile's colour after `k` ticks is colour `k mod 5`: the
      cycle has period five. */
  lemma {:induction false} TileCycle(k: nat)
    ensures TileTicks(Tile(0, true), k).colourIndex == k % |TileColours|
    ensures TileTicks(Tile(0, true), k).attached
  {
    TileCycleFrom(0, k);
  }

  lemma {:induction false} TileCycleFrom(i: nat, k: nat)
    requires i < |TileColours|
    ensures TileTicks(Tile(i, true), k) == Tile((i + k) % |TileColours|, true)
    decreases k
  {
    if k > 0 {
      var n := |TileColours|;
      TileCycleFrom((i + 1) % n, k - 1);
      assert ((i + 1) % n + (k - 1)) % n == (i + k) % n;
    }
  }
}

=== FILE: door_latch.dfy ===
/** The one-shot latch that the house and interior scenes put in front of
    their doors: `isInteractive` starts false, a timer started by `enter()`
    sets it, an accepted tap clears it and schedules the navigation on a
    second timer. */
module DoorLatch {
  import opened Scenes

  /** What differs between the two scenes using the latch. */
  datatype Profile = Profile(enableDelayMs: nat, navigateDelayMs: nat, exitClears: bool)

  datatype Latch = Latch(
    interactive: bool,
    enableTimers: nat,             // `enter()` timers not yet fired
    navTimers: seq<NavRequest>,    // navigations scheduled by accepted taps, oldest first
    requests: seq<NavRequest>,     // navigations handed to the scene manager
    hovered: bool,                 // hover highlight shown
    soundsPlayed: nat,             // door sound plays
    enters: nat)                   // `enter()` calls so far

  /** After the constructor. */
  function Initial(): Latch {
    Latch(false, 0, [], [], false, 0, 0)
  }

  datatype Event =
    | Enter
    | EnableFires
    | Hover
    | Unhover
    | Tap(request: NavRequest)
    | NavigateFires
    | Exit

  function Step(p: Profile, l: Latch, e: Event): (l': Latch)
    ensures |l.requests| <= |l'.requests| <= |l.requests| + 1 && l'.requests[..|l.requests|] == l.requests
    ensures e.Tap? && l.interactive ==> !l'.interactive && l'.navTimers == l.navTimers + [e.request]
    ensures e.Tap? && !l.interactive ==> l' == l
    ensures e.Hover? ==> (l'.hovered <==> l.hovered || l.interactive)
  {
    match e
    case Enter => l.(enableTimers := l.enableTimers + 1, enters := l.enters + 1)
    case EnableFires =>
      if l.enableTimers > 0 then l.(enableTimers := l.enableTimers - 1, interactive := true) else l
    case Hover => if l.interactive then l.(hovered := true) else l
    case Unhover => l.(hovered := false)
    case Tap(req) =>
      if l.interactive then
        l.(interactive := false, soundsPlayed := l.soundsPlayed + 1, navTimers := l.navTimers + [req])
      else l
    case NavigateFires =>
      if |l.navTimers| > 0 then l.(requests := l.requests + [l.navTimers[0]], navTimers := l.navTimers[1..]) else l
    case Exit => if p.exitClears then l.(interactive := false) else l
  }

  /** Every navigation, handed over or still scheduled, used up one firing
      of an `enter()` timer, and so did an interactive latch. */
  ghost predicate Inv(l: Latch) {
    |l.requests| + |l.navTimers| + (if l.interactive then 1 else 0) + l.enableTimers <= l.enters
    && l.soundsPlayed == |l.requests| + |l.navTimers|
  }

  lemma StepPreservesInv(p: Profile, l: Latch, e: Event)
    requires Inv(l)
    ensures Inv(Step(p, l, e))
  {
  }

  function Run(p: Profile, l: Latch, events: seq<Event>): Latch
    decreases |events|
  {
    if |events| == 0 then l else Run(p, Step(p, l, events[0]), events[1..])
  }

  lemma {:induction false} RunPreservesInv(p: Profile, l: Latch, events: seq<Event>)
    requires Inv(l)
    ensures Inv(Run(p, l, events))
    ensures |Run(p, l, events).requests| >= |l.requests|
    ensures Run(p, l, events).requests[..|l.requests|] == l.requests
    decreases |events|
  {
    if |events| > 0 {
      StepPreservesInv(p, l, events[0]);
      RunPreservesInv(p, Step(p, l, events[0]), events[1..]);
    }
  }

  /** A scene whose `enter()` ran once navigates at most once, however many
      taps arrive: a double tap opens one door. */
  lemma {:induction false} OneNavigationPerEnter(p: Profile, events: seq<Event>)
    requires Run(p, Initial(), events).enters <= 1
    ensures |Run(p, Initial(), events).requests| <= 1
  {
    RunPreservesInv(p, Initial(), events);
  }

  /** Nothing is accepted before the `enter()` timer has fired. */
  lemma TapBeforeEnableIgnored(p: Profile, req: NavRequest)
    ensures Step(p, Initial(), Tap(req)) == Initial()
    ensures Step(p, Step(p, Initial(), Enter), Tap(req)).navTimers == []
  {
  }

  /** A tap after `enter()` and its timer is accepted and, once the second
      timer fires, hands exactly that navigation to the manager. */
  lemma EnterEnableTapNavigates(p: Profile, req: NavRequest)
    ensures Run(p, Initial(), [Enter, EnableFires, Tap(req), NavigateFires]).requests == [req]
  {
    var evs := [Enter, EnableFires, Tap(req), NavigateFires];
    var l1 := Step(p, Initial(), Enter);
    var l2 := Step(p, l1, EnableFires);
    var l3 := Step(p, l2, Tap(req));
    var l4 := Step(p, l3, NavigateFires);
    assert l4.requests == [req];
    assert evs[1..][1..][1..][1..] == [];
    assert Run(p, Initial(), evs) == Run(p, l1, evs[1..]);
    assert Run(p, l1, evs[1..]) == Run(p, l2, evs[1..][1..]);
    assert Run(p, l2, evs[1..][1..]) == Run(p, l3, evs[1..][1..][1..]);
    assert Run(p, l3, evs[1..][1..][1..]) == Run(p, l4, []);
  }
}

=== FILE: gaming_room.dfy ===
/** The gaming room's arcade quiz: five questions asked one at a time
    through four option buttons, a one-second pause after each answer, a
    results card whose first button closes the quiz. */
module GamingRoom {
  import opened Common

  datatype Question = Question(options: seq<string>, correct: int)

  /** The option buttons the card owns. */
  const ButtonCount := 4

  /** The quiz as configured: every question has four options; the correct
      answers are the second, first, third, first and second. */
  const Questions: seq<Question> := [
    Question(["Coffee Shop", "Through Friends", "Online", "At Work"], 1),
    Question(["Perfect - Ed Sheeran", "All of Me - John Legend", "Thinking Out Loud", "A Thousand Years"], 0),
    Question(["The Notebook", "Titanic", "A Walk to Remember", "Pride & Prejudice"], 2),
    Question(["Pizza", "Sushi", "Pasta", "Tacos"], 0),
    Question(["Paris", "Maldives", "Japan", "Iceland"], 1)]

  /** What the quiz card holds: nothing before the first start, a
      question, or the results. Hiding the modal leaves the card as it is. */
  datatype Card = Blank | Asking | Results

  datatype Quiz = Quiz(
    questions: seq<Question>,
    active: bool,              // `quizActive`, which always equals `quizModal.visible`
    current: nat,              // `currentQuestion`
    score: nat,
    answers: seq<Option<int>>, // per question of this round: the option chosen, or None if skipped
    card: Card,
    buttonsEnabled: bool,      // option buttons accept taps (`eventMode`)
    advancePending: bool,      // the one-second timer after an answer is running
    replayBound: bool,         // button 0's tap handler is `closeQuiz` rather than `selectAnswer(0)`
    closes: nat)               // close tweens started and not yet completed

  function NewQuiz(qs: seq<Question>): Quiz {
    Quiz(qs, false, 0, 0, [], Blank, true, false, false, 0)
  }

  datatype Event = ArcadeTap | OptionTap(index: nat) | AdvanceFires | CloseDone

  /** `showQuestion`: the question at `current`, or, once every question
      has been asked, the results, whose replay button is rebound to
      `closeQuiz`. It runs whether or not the modal is shown. */
  function ShowQuestion(q: Quiz): (q': Quiz)
    ensures q'.card.Results? <==> q.current >= |q.questions|
    ensures q'.card.Results? ==> q'.replayBound
    ensures q'.card.Asking? ==> q'.replayBound == q.replayBound
    ensures q' == q.(card := q'.card, replayBound := q'.replayBound)
  {
    if q.current >= |q.questions| then q.(card := Results, replayBound := true) else q.(card := Asking)
  }

  /** `startQuiz`, reached only from the arcade while no quiz is active:
      round, score and answers reset and the modal shown. A pending
      one-second timer, the button lock and button 0's binding are left as
      they are. */
  function Start(q: Quiz): (q': Quiz)
    ensures !q.active ==> q'.active && q'.current == 0 && q'.score == 0 && q'.answers == []
    ensures !q.active ==> q'.card == (if |q.questions| == 0 then Results else Asking)
    ensures !q.active ==>
      q'.advancePending == q.advancePending && q'.buttonsEnabled == q.buttonsEnabled && q'.closes == q.closes
    ensures q.active ==> q' == q
  {
    if q.active then q
    else ShowQuestion(q.(active := true, current := 0, score := 0, answers := []))
  }

  /** Button `i` is shown on the card: on a question when the question has
      an `i`-th option, on the results only the replay button. */
  predicate ButtonVisible(q: Quiz, i: nat) {
    || (q.card.Asking? && q.current < |q.questions| && i < |q.questions[q.current].options|)
    || (q.card.Results? && i == 0)
  }

  /** The progress line of a question card, `current + 1` of the total, as
      a pair. */
  function ProgressText(q: Quiz): (p: (nat, nat))
    requires q.card.Asking? && q.current < |q.questions|
    ensures 1 <= p.0 <= p.1 && p.1 == |q.questions|
  {
    (q.current + 1, |q.questions|)
  }

  /** `selectAnswer(i)`: score a correct pick, lock the buttons, start the
      pause. */
  function Select(q: Quiz, i: nat): Quiz
    requires q.current < |q.questions|
  {
    var correct := i as int == q.questions[q.current].correct;
    q.(score := if correct then q.score + 1 else q.score,
       answers := q.answers + [Some(i as int)],
       buttonsEnabled := false, advancePending := true)
  }

  /** A tap reaches button `i` only while the modal is shown, the buttons
      are unlocked and the button is visible. Button 0 then runs whatever
      it is bound to: `closeQuiz` starts one more close tween, with no
      guard. Any other reachable tap answers the question on the card. */
  function OnOptionTap(q: Quiz, i: nat): Quiz {
    if i >= ButtonCount || !q.active || !q.buttonsEnabled || !ButtonVisible(q, i) then q
    else if i == 0 && q.replayBound then q.(closes := q.closes + 1)
    else if q.card.Asking? && q.current < |q.questions| then Select(q, i)
    else q
  }

  /** The pause ends: next question, buttons unlocked. A question whose
      answer a restart wiped during the pause is recorded as skipped. */
  function OnAdvance(q: Quiz): Quiz {
    if q.advancePending then
      var answers := if |q.answers| == q.current then q.answers + [None] else q.answers;
      ShowQuestion(q.(current := q.current + 1, answers := answers, buttonsEnabled := true, advancePending := false))
    else q
  }

  /** One close tween completes: the modal is hidden, the quiz inactive and
      button 0 bound to `selectAnswer(0)` again, whatever was started since
      the tween began. */
  function OnCloseDone(q: Quiz): Quiz {
    if q.closes > 0 then q.(closes := q.closes - 1, active := false, replayBound := false) else q
  }

  function Step(q: Quiz, e: Event): (q': Quiz)
    ensures q'.questions == q.questions
    ensures q'.score <= q.score + 1
    ensures q'.closes == q.closes + 1 <==>
      e.OptionTap? && e.index == 0 && q.active && q.buttonsEnabled && q.replayBound && ButtonVisible(q, 0)
    ensures q.active && !q'.active <==> e.CloseDone? && q.closes > 0 && q.active
  {
    match e
    case ArcadeTap => Start(q)
    case OptionTap(i) => OnOptionTap(q, i)
    case AdvanceFires => OnAdvance(q)
    case CloseDone => OnCloseDone(q)
  }

  /** Whether an answer hits its question's correct option; a skipped
      question scores nothing. */
  function Hit(q: Question, a: Option<int>): nat {
    if a == Some(q.correct) then 1 else 0
  }

  /** Number of answers that hit their question's correct option. */
  function CountCorrect(qs: seq<Question>, answers: seq<Option<int>>): (n: nat)
    requires |answers| <= |qs|
    ensures n <= |answers|
    decreases |answers|
  {
    if |answers| == 0 then 0
    else
      var k := |answers| - 1;
      CountCorrect(qs, answers[..k]) + Hit(qs[k], answers[k])
  }

  /** The quiz's bookkeeping: one entry per question passed in this round,
      plus the answer still in its pause unless a restart wiped it; the
      score counts the correct entries; the pause locks the buttons and
      keeps a question on the card; a shown results card has its replay
      button bound to `closeQuiz`. */
  ghost predicate Inv(q: Quiz) {
    && q.current <= |q.questions|
    && q.current <= |q.answers| <= q.current + 1
    && (|q.answers| == q.current + 1 ==> q.advancePending)
    && |q.answers| <= |q.questions|
    && q.score == CountCorrect(q.questions, q.answers)
    && (q.card.Blank? ==> !q.active && !q.advancePending && q.current == 0 && q.answers == [])
    && (q.card.Asking? ==> q.current < |q.questions|)
    && (q.card.Results? ==> q.current == |q.questions|)
    && (q.advancePending ==> q.card.Asking?)
    && (q.buttonsEnabled <==> !q.advancePending)
    && (q.card.Results? && q.active ==> q.replayBound)
  }

  lemma NewQuizInv(qs: seq<Question>)
    ensures Inv(NewQuiz(qs))
  {
  }

  lemma {:induction false} StepPreservesInv(q: Quiz, e: Event)
    requires Inv(q)
    ensures Inv(Step(q, e))
  {
    var q' := Step(q, e);
    if e.OptionTap? && q' != q && q'.closes == q.closes {
      var a' := q.answers + [Some(e.index as int)];
      assert a'[..|q.answers|] == q.answers;
    }
    if e.AdvanceFires? && q.advancePending && |q.answers| == q.current {
      var a' := q.answers + [None];
      assert a'[..|q.answers|] == q.answers;
    }
  }

  function Run(q: Quiz, events: seq<Event>): Quiz
    decreases |events|
  {
    if |events| == 0 then q else Run(Step(q, events[0]), events[1..])
  }

  lemma {:induction false} RunPreservesInv(q: Quiz, events: seq<Event>)
    requires Inv(q)
    ensures Inv(Run(q, events)) && Run(q, events).questions == q.questions
    decreases |events|
  {
    if |events| > 0 {
      StepPreservesInv(q, events[0]);
      RunPreservesInv(Step(q, events[0]), events[1..]);
    }
  }

  /** On the results card there is one entry per question, answered or
      skipped, and the score is the number answered correctly, so never
      more than the number of questions. */
  lemma ResultsScore(events: seq<Event>)
    ensures var q := Run(NewQuiz(Questions), events);
      q.card.Results? ==> |q.answers| == |Questions| && q.score == CountCorrect(Questions, q.answers) <= |Questions|
  {
    NewQuizInv(Questions);
    RunPreservesInv(NewQuiz(Questions), events);
  }

  /** Two taps on the replay button start two close tweens. The first
      completion closes the quiz; the visitor restarts it and answers the
      first question; the second, stale completion hides the running quiz
      during the pause. A new start then resets the round, but the pending
      timer still fires: the second question is shown and the first is
      skipped, unanswered and unscored. */
  lemma {:induction false} StaleCloseSkipsAQuestion(q: Quiz)
    requires Inv(q) && q.active && q.card.Results? && q.closes == 0
    requires 1 < |q.questions| && 0 < |q.questions[0].options|
    ensures var q1 := Step(Step(Step(Step(q, OptionTap(0)), OptionTap(0)), CloseDone), ArcadeTap);
      q1.active && q1.closes == 1 && q1.card.Asking? && q1.current == 0 && !q1.replayBound
    ensures var q1 := Step(Step(Step(Step(q, OptionTap(0)), OptionTap(0)), CloseDone), ArcadeTap);
      var q2 := Step(Step(q1, OptionTap(0)), CloseDone);
      q2.advancePending && !q2.active && q2.card.Asking?
      && var q3 := Step(Step(q2, ArcadeTap), AdvanceFires);
      q3.active && q3.card.Asking? && q3.current == 1 && q3.answers == [None] && q3.score == 0
  {
  }

  /** A stale close completion during the last question's pause leaves the
      timer to show the results into the hidden modal, which binds button
      0 to `closeQuiz`. After the next start that binding is still there,
      so tapping the first option of the first question closes the quiz
      instead of answering it. */
  lemma {:induction false} StaleResultsRebindOptionZero(q: Quiz)
    requires Inv(q) && q.active && q.card.Asking? && q.buttonsEnabled && !q.replayBound
    requires q.current == |q.questions| - 1 && q.closes == 1
    requires 0 < |q.questions[q.current].options| && 0 < |q.questions[0].options|
    ensures var q1 := Step(Step(Step(Step(q, OptionTap(0)), CloseDone), AdvanceFires), ArcadeTap);
      q1.active && q1.card.Asking? && q1.current == 0 && q1.replayBound && q1.buttonsEnabled
      && var q2 := Step(q1, OptionTap(0));
      q2.closes == 1 && q2.answers == [] && q2.score == 0 && !q2.advancePending
  {
  }

  /** Answers that are all correct score one each. */
  lemma {:induction false} AllCorrectCount(qs: seq<Question>, answers: seq<Option<int>>)
    requires |answers| <= |qs|
    requires forall i | 0 <= i < |answers| :: answers[i] == Some(qs[i].correct)
    ensures CountCorrect(qs, answers) == |answers|
    decreases |answers|
  {
    if |answers| > 0 {
      AllCorrectCount(qs, answers[..|answers| - 1]);
    }
  }

  /** A results card reached by answering every question correctly shows
      the perfect tier. */
  lemma PerfectRunIsPerfect(q: Quiz)
    requires Inv(q) && q.card.Results? && |q.questions| > 0
    requires forall i | 0 <= i < |q.answers| :: q.answers[i] == Some(q.questions[i].correct)
    ensures TierOf(Percentage(q.score, |q.questions|)) == Perfect
  {
    AllCorrectCount(q.questions, q.answers);
    PercentageBounds(q.score, |q.questions|);
  }

  /** While a question is asked, exactly the buttons that have an option
      are shown, and with the configured questions that is all four. */
  lemma ButtonsMatchOptions(q: Quiz, i: nat)
    requires Inv(q) && q.card.Asking?
    ensures ButtonVisible(q, i) <==> i < |q.questions[q.current].options|
    ensures q.questions == Questions && i < ButtonCount ==> ButtonVisible(q, i)
  {
  }

  /** A second tap during the pause is ignored: the question is scored once. */
  lemma DoubleTapScoresOnce(q: Quiz, i: nat, j: nat)
    requires Inv(q) && i < ButtonCount && q.active && q.card.Asking? && q.buttonsEnabled && ButtonVisible(q, i)
    requires i == 0 ==> !q.replayBound
    ensures Step(Step(q, OptionTap(i)), OptionTap(j)) == Step(q, OptionTap(i))
  {
  }

  /** The arcade does nothing while a quiz is active, including while a
      close animation runs. */
  lemma ArcadeIgnoredWhileActive(q: Quiz)
    requires q.active
    ensures Step(q, ArcadeTap) == q
  {
  }

  /** The results message tier. */
  datatype Tier = Perfect | Amazing | Great | NiceTry

  /** `Math.round(score / questions.length * 100)`, over exact reals (where
      it equals `score * 100 / length`); no number (`NaN`) when there are
      no questions. */
  function Percentage(score: nat, total: nat): (p: Option<int>)
    ensures p.Some? <==> total > 0
  {
    if total == 0 then None else Some(Round((score * 100) as real / total as real))
  }

  /** A score out of a positive total rounds to a percentage in [0, 100];
      a full score is exactly 100, and for fewer than 200 questions
      nothing less is. */
  lemma {:induction false} PercentageBounds(score: nat, total: nat)
    requires 0 < total && score <= total
    ensures 0 <= Percentage(score, total).value <= 100
    ensures score == total ==> Percentage(score, total).value == 100
    ensures score < total && total < 200 ==> Percentage(score, total).value < 100
  {
    var d := total as real;
    var x := (score * 100) as real / d;
    DivMono((score * 100) as real, d * 100.0, d);
    assert (d * 100.0) / d == 100.0;
    RoundBetween(0, 100, x);
    if score == total {
      assert x == 100.0;
      RoundOfInteger(100);
    }
    if score < total && total < 200 {
      assert score as real <= d - 1.0;
      assert score as real * 100.0 <= d * 100.0 - 100.0;
      DivBelow((score * 100) as real, 99.5, d);
      assert Round(x) as real - 0.5 <= x < 99.5;
    }
  }

  lemma DivBelow(a: real, b: real, d: real)
    requires d > 0.0 && a < b * d
    ensures a / d < b
  {
    assert a / d * d == a;
  }

  lemma DivMono(a: real, b: real, d: real)
    requires d > 0.0 && a <= b
    ensures a / d <= b / d
  {
    assert a / d * d == a && b / d * d == b;
  }

  /** The comparisons of `showResults`; `NaN` fails all of them. */
  function TierOf(p: Option<int>): Tier {
    if p.None? then NiceTry
    else if p.value == 100 then Perfect
    else if p.value >= 80 then Amazing
    else if p.value >= 60 then Great
    else NiceTry
  }

  /** With the five questions: all right is perfect, four amazing, three
      great, fewer a nice try. An empty quiz always reads as a nice try. */
  lemma FiveQuestionTiers(score: nat)
    requires score <= 5
    ensures TierOf(Percentage(score, 5)) ==
      if score == 5 then Perfect else if score == 4 then Amazing else if score == 3 then Great else NiceTry
    ensures TierOf(Percentage(score, 0)) == NiceTry
  {
    RoundOfInteger(score * 20);
    assert (score * 100) as real / 5.0 == (score * 20) as real;
  }

  /** The label of button `i` for a question: its option, or empty. */
  function ButtonLabel(q: Question, i: nat): (s: string)
    ensures i < |q.options| ==> s == q.options[i]
    ensures i >= |q.options| ==> s == ""
  {
    if i < |q.options| then q.options[i] else ""
  }
}

=== FILE: house.dfy ===
/** The house scene: its door latch profile and navigation, its linear
    interpolation helpers and the sunset sky's colour strips. */
module House {
  import opened Common
  import opened Scenes
  import Colour
  import DoorLatch

  /** Interaction is enabled 1.5 s after `enter()`, the navigation follows
      the tap by 0.4 s, and `exit()` does nothing. */
  const Profile := DoorLatch.Profile(1500, 400, false)

  /** The request `openDoor` schedules. */
  const DoorRequest: NavRequest := ChangeRequest(INTERIOR, "fade", 0.8)

  /** The door of a freshly entered house leads, once, to the interior,
      which the manager can construct. */
  lemma {:induction false} DoorNavigatesOnceToInterior(events: seq<DoorLatch.Event>)
    requires forall i | 0 <= i < |events| :: events[i].Tap? ==> events[i].request == DoorRequest
    requires DoorLatch.Run(Profile, DoorLatch.Initial(), events).enters <= 1
    ensures var l := DoorLatch.Run(Profile, DoorLatch.Initial(), events);
      |l.requests| <= 1 && OnlyDoor(l.requests)
    ensures CreateScene(DoorRequest.id) == Created(InteriorScene)
  {
    DoorLatch.OneNavigationPerEnter(Profile, events);
    TapsOnlyRequest(DoorLatch.Initial(), events);
  }

  predicate OnlyDoor(s: seq<NavRequest>) {
    forall i | 0 <= i < |s| :: s[i] == DoorRequest
  }

  /** One step keeps both queues free of anything but the door request. */
  lemma StepOnlyDoor(l: DoorLatch.Latch, e: DoorLatch.Event)
    requires e.Tap? ==> e.request == DoorRequest
    requires OnlyDoor(l.requests) && OnlyDoor(l.navTimers)
    ensures var l' := DoorLatch.Step(Profile, l, e); OnlyDoor(l'.requests) && OnlyDoor(l'.navTimers)
  {
    var l' := DoorLatch.Step(Profile, l, e);
    match e {
      case Tap(req) =>
        if l.interactive {
          assert l'.navTimers == l.navTimers + [req];
        }
      case NavigateFires =>
        if |l.navTimers| > 0 {
          assert l'.requests == l.requests + [l.navTimers[0]];
          assert l'.navTimers == l.navTimers[1..];
        }
      case _ =>
    }
  }

  /** When every tap carries the door's request, every navigation handed
      over or scheduled is that request. */
  lemma {:induction false} TapsOnlyRequest(l: DoorLatch.Latch, events: seq<DoorLatch.Event>)
    requires forall i | 0 <= i < |events| :: events[i].Tap? ==> events[i].request == DoorRequest
    requires OnlyDoor(l.requests) && OnlyDoor(l.navTimers)
    ensures OnlyDoor(DoorLatch.Run(Profile, l, events).requests)
    decreases |events|
  {
    if |events| > 0 {
      StepOnlyDoor(l, events[0]);
      var l1 := DoorLatch.Step(Profile, l, events[0]);
      TapsOnlyRequest(l1, events[1..]);
      assert DoorLatch.Run(Profile, l, events) == DoorLatch.Run(Profile, l1, events[1..]);
    }
  }

  /** `_lerp(a, b, t)`. */
  function Lerp(a: real, b: real, t: real): (r: real)
    ensures t == 0.0 ==> r == a
    ensures t == 1.0 ==> r == b
  {
    a + (b - a) * t
  }

  /** For a ratio in [0, 1] the blend stays between its ends. */
  lemma LerpBetween(a: real, b: real, t: real)
    requires 0.0 <= t <= 1.0
    ensures a <= b ==> a <= Lerp(a, b, t) <= b
    ensures b <= a ==> b <= Lerp(a, b, t) <= a
  {
    var d := b - a;
    var x := d * t;
    assert Lerp(a, b, t) == a + x;
    if a <= b {
      ScaleBelow(d, t);
      assert 0.0 <= x <= d;
    }
    if b <= a {
      ScaleBelow(-d, t);
      assert -d * t == -x;
      assert 0.0 <= -x <= -d;
    }
  }

  lemma ScaleBelow(d: real, t: real)
    requires d >= 0.0 && 0.0 <= t <= 1.0
    ensures 0.0 <= d * t <= d
  {
    assert d - d * t == d * (1.0 - t);
    assert d * (1.0 - t) >= 0.0;
  }

  datatype Rgb = Rgb(r: int, g: int, b: int)

  /** The twelve sunset colours, top to bottom. */
  const Palette: seq<Rgb> := [
    Rgb(45, 10, 40), Rgb(70, 15, 50), Rgb(120, 25, 50), Rgb(180, 50, 40), Rgb(210, 80, 40),
    Rgb(235, 120, 50), Rgb(250, 160, 60), Rgb(255, 195, 80), Rgb(255, 210, 120),
    Rgb(255, 200, 150), Rgb(255, 180, 160), Rgb(240, 150, 160)]

  const Strips := 60

  function MinInt(a: int, b: int): int { if a <= b then a else b }

  /** Position of strip `i` along the palette. */
  function PalettePosition(i: nat): real {
    (i as real / Strips as real) * (|Palette| - 1) as real
  }

  /** The palette indices strip `i` blends, clamped to the last colour as
      the source does. */
  function LowIndex(i: nat): nat {
    var fl := Floor(PalettePosition(i));
    MinInt(if fl < 0 then 0 else fl, |Palette| - 1)
  }

  function HighIndex(i: nat): nat {
    var fl := Floor(PalettePosition(i));
    MinInt(if fl < 0 then 0 else fl + 1, |Palette| - 1)
  }

  /** The fill of sky strip `i`: each channel rounded from the blend of the
      two neighbouring palette colours, then packed. */
  function StripColour(i: nat): int
    requires i < Strips
  {
    var ci := PalettePosition(i);
    var f := ci - Floor(ci) as real;
    var c1 := Palette[LowIndex(i)];
    var c2 := Palette[HighIndex(i)];
    Colour.Pack(Colour.LerpChannel(c1.r, c2.r, f), Colour.LerpChannel(c1.g, c2.g, f), Colour.LerpChannel(c1.b, c2.b, f))
  }

  predicate IsByteColour(c: Rgb) { 0 <= c.r < 256 && 0 <= c.g < 256 && 0 <= c.b < 256 }

  /** For every strip the clamps of the index computation never bind, the
      two colours blended are neighbours, and the strip's colour is a
      24-bit value whose every channel lies between theirs. */
  lemma {:induction false} SkyStrip(i: nat)
    requires i < Strips
    ensures 0 <= Floor(PalettePosition(i)) <= |Palette| - 2
    ensures 0.0 <= PalettePosition(i) - Floor(PalettePosition(i)) as real < 1.0
    ensures HighIndex(i) == LowIndex(i) + 1
    ensures var c1 := Palette[LowIndex(i)]; var c2 := Palette[HighIndex(i)]; var c := StripColour(i);
      && Colour.Is24Bit(c)
      && Colour.Between(Colour.Red(c), c1.r, c2.r)
      && Colour.Between(Colour.Green(c), c1.g, c2.g)
      && Colour.Between(Colour.Blue(c), c1.b, c2.b)
  {
    var ci := PalettePosition(i);
    assert 0.0 <= ci < 11.0;
    var f := ci - Floor(ci) as real;
    var c1 := Palette[LowIndex(i)];
    var c2 := Palette[HighIndex(i)];
    assert IsByteColour(c1) && IsByteColour(c2);
    var r := Colour.LerpChannel(c1.r, c2.r, f);
    var g := Colour.LerpChannel(c1.g, c2.g, f);
    var b := Colour.LerpChannel(c1.b, c2.b, f);
    Colour.LerpChannelBetween(c1.r, c2.r, f);
    Colour.LerpChannelBetween(c1.g, c2.g, f);
    Colour.LerpChannelBetween(c1.b, c2.b, f);
    Colour.UnpackPack(r, g, b);
  }

  /** A strip that sits exactly on a palette position shows that palette
      colour unblended. */
  lemma ExactStrip(i: nat)
    requires i < Strips && PalettePosition(i) == LowIndex(i) as real
    ensures var c := Palette[LowIndex(i)]; StripColour(i) == Colour.Pack(c.r, c.g, c.b)
  {
    var ci := PalettePosition(i);
    assert Floor(ci) == LowIndex(i);
    var f := ci - Floor(ci) as real;
    assert f == 0.0;
    var c1 := Palette[LowIndex(i)];
    var c2 := Palette[HighIndex(i)];
    Colour.LerpChannelEnds(c1.r, c2.r);
    Colour.LerpChannelEnds(c1.g, c2.g);
    Colour.LerpChannelEnds(c1.b, c2.b);
  }

  /** The top strip is exactly the first palette colour, 0x2d0a28. */
  lemma SkyTop()
    ensures StripColour(0) == 0x2d0a28
  {
    assert PalettePosition(0) == 0.0;
    assert LowIndex(0) == 0;
    ExactStrip(0);
    Colour.PackBytes(45, 10, 40);
  }

  /** The last palette colour is never reached: the bottom strip is 49/60
      of the way from the eleventh colour to the twelfth. */
  lemma SkyBottom()
    ensures LowIndex(Strips - 1) == 10 && PalettePosition(Strips - 1) - 10.0 == 49.0 / 60.0
  {
    assert PalettePosition(59) == 649.0 / 60.0;
    assert Floor(649.0 / 60.0) == 10;
  }
}

=== FILE: interior.dfy ===
/** The interior hallway: seven doors in an arc, each leading to a room
    behind the shared door latch. */
module Interior {
  import opened Scenes
  import DoorLatch

  /** Interaction is enabled 1.2 s after `enter()`, a door's navigation
      follows its tap by 0.3 s, and `exit()` disables interaction. */
  const Profile := DoorLatch.Profile(1200, 300, true)

  /** The doors' targets, left to right. */
  const Doors: seq<SceneRef> := [LIVING, BEDROOM, KITCHEN, GAMING, DANCE, STUDY, GARDEN]

  /** The request a tap on door `i` schedules. */
  function DoorRequest(i: nat): (req: NavRequest)
    requires i < |Doors|
    ensures req.ChangeTo? && req.id == Doors[i]
    ensures TransitionOf(req.options) == "zoom" && DurationOf(req.options) == 0.6 && AddsToHistory(req.options)
  {
    ChangeRequest(Doors[i], "zoom", 0.6)
  }

  /** Every door leads to a room the manager can construct, no two doors to
      the same room, and none back to the house or the hallway. */
  lemma DoorsLeadToRooms()
    ensures forall i | 0 <= i < |Doors| :: CreateScene(Doors[i]).Created?
    ensures forall i, j | 0 <= i < j < |Doors| :: Doors[i] != Doors[j]
    ensures HOUSE !in Doors && INTERIOR !in Doors
  {
  }

  /** Leaving the hallway disables its doors, so a later tap schedules no
      navigation. */
  lemma ExitDisablesDoors(l: DoorLatch.Latch, req: NavRequest)
    ensures !DoorLatch.Step(Profile, l, DoorLatch.Exit).interactive
    ensures DoorLatch.Step(Profile, DoorLatch.Step(Profile, l, DoorLatch.Exit), DoorLatch.Tap(req)).navTimers == l.navTimers
  {
  }

  /** Hovering is ignored while interaction is off. */
  lemma HoverNeedsInteraction(l: DoorLatch.Latch)
    requires !l.interactive && !l.hovered
    ensures !DoorLatch.Step(Profile, l, DoorLatch.Hover).hovered
  {
  }
}

=== FILE: letter_journal.dfy ===
/** The journal in `BedroomRoom.js`: a modal that shows one of three
    letters at a time, with previous/next arrows, a page-turn animation
    that refreshes the text when it completes, and a close button. */
module LetterJournal {

  datatype Letter = Letter(title: string, date: string)

  /** The letters, in page order (their bodies are left out). */
  const Letters: seq<Letter> := [
    Letter("My Dearest", "Forever Yours"),
    Letter("To My Love", "With All My Heart"),
    Letter("My Everything", "Always & Forever")]

  datatype Journal = Journal(
    index: nat,          // `currentLetterIndex`
    shown: nat,          // the letter whose text is on the paper
    visible: bool,       // the modal, whose backdrop hides the room
    open: bool,          // `journalOpen`
    closes: nat,         // close tweens started and not yet completed
    pendingTurns: nat)   // page-turn animations not yet completed

  function Initial(): Journal {
    Journal(0, 0, false, false, 0, 0)
  }

  datatype Event = JournalTap | Prev | Next | TurnDone | Close | CloseDone

  /** `openJournal`: back to the first letter, shown at once. The journal
      object can only be tapped while the modal's backdrop is not covering
      it. */
  function Open(j: Journal): (j': Journal)
    ensures !j.visible ==> j'.open && j'.visible && j'.index == 0 && j'.shown == 0
    ensures !j.visible ==> j'.closes == j.closes && j'.pendingTurns == j.pendingTurns
    ensures j.visible ==> j' == j
  {
    if j.visible then j else j.(open := true, index := 0, shown := 0, visible := true)
  }

  /** `prevLetter` / `nextLetter`: move within the letters and start a
      turn; at either end nothing happens. */
  function PrevLetter(j: Journal): Journal {
    if j.visible && j.index > 0 then j.(index := j.index - 1, pendingTurns := j.pendingTurns + 1) else j
  }

  function NextLetter(j: Journal): Journal {
    if j.visible && j.index < |Letters| - 1 then j.(index := j.index + 1, pendingTurns := j.pendingTurns + 1) else j
  }

  /** A turn completes: the paper is refreshed from the index as it is now. */
  function TurnComplete(j: Journal): Journal {
    if j.pendingTurns > 0 then j.(pendingTurns := j.pendingTurns - 1, shown := j.index) else j
  }

  /** `closeJournal` has no guard: each tap on the shown close button
      starts one more close tween. */
  function CloseJournal(j: Journal): (j': Journal)
    ensures j'.closes == j.closes + (if j.visible then 1 else 0)
    ensures j'.visible == j.visible && j'.open == j.open
    ensures j'.index == j.index && j'.shown == j.shown && j'.pendingTurns == j.pendingTurns
  {
    if j.visible then j.(closes := j.closes + 1) else j
  }

  /** Each close tween's completion hides the modal and clears
      `journalOpen`, whatever was opened since the tween began. */
  function CloseComplete(j: Journal): (j': Journal)
    ensures j.closes > 0 ==> !j'.open && !j'.visible && j'.closes == j.closes - 1
    ensures j.closes > 0 ==> j'.index == j.index && j'.shown == j.shown && j'.pendingTurns == j.pendingTurns
    ensures j.closes == 0 ==> j' == j
  {
    if j.closes > 0 then j.(closes := j.closes - 1, visible := false, open := false) else j
  }

  function Step(j: Journal, e: Event): Journal {
    match e
    case JournalTap => Open(j)
    case Prev => PrevLetter(j)
    case Next => NextLetter(j)
    case TurnDone => TurnComplete(j)
    case Close => CloseJournal(j)
    case CloseDone => CloseComplete(j)
  }

  /** The pager never leaves the letters, the modal is shown exactly while
      the journal is open, and with no turn in flight the paper shows the
      current letter. */
  ghost predicate Inv(j: Journal) {
    && j.index < |Letters| && j.shown < |Letters|
    && (j.open <==> j.visible)
    && (j.pendingTurns == 0 ==> j.shown == j.index)
  }

  lemma StepPreservesInv(j: Journal, e: Event)
    requires Inv(j)
    ensures Inv(Step(j, e))
  {
  }

  function Run(j: Journal, events: seq<Event>): Journal
    decreases |events|
  {
    if |events| == 0 then j else Run(Step(j, events[0]), events[1..])
  }

  lemma {:induction false} RunPreservesInv(j: Journal, events: seq<Event>)
    requires Inv(j)
    ensures Inv(Run(j, events))
    decreases |events|
  {
    if |events| > 0 {
      StepPreservesInv(j, events[0]);
      RunPreservesInv(Step(j, events[0]), events[1..]);
    }
  }

  /** Whatever is tapped, `updateLetter` always finds a letter. */
  lemma AlwaysALetter(events: seq<Event>)
    ensures Run(Initial(), events).index < |Letters| && Run(Initial(), events).shown < |Letters|
  {
    RunPreservesInv(Initial(), events);
  }

  /** Next then previous, away from the last page, returns to the same
      letter, and previous then next, away from the first page, likewise. */
  lemma NextPrevRoundTrip(j: Journal)
    requires j.visible && j.index < |Letters|
    ensures j.index < |Letters| - 1 ==> PrevLetter(NextLetter(j)).index == j.index
    ensures j.index > 0 ==> NextLetter(PrevLetter(j)).index == j.index
  {
  }

  /** At the ends the arrows do nothing. */
  lemma ArrowsStopAtEnds(j: Journal)
    ensures j.index == 0 ==> PrevLetter(j) == j
    ensures j.index >= |Letters| - 1 ==> NextLetter(j) == j
  {
  }

  /** Two quick "next" taps from the first letter land on the third, and
      once both turns complete the paper shows it. */
  lemma RapidTurnsSettleOnLast()
    ensures var j := Open(Initial());
      var j2 := TurnComplete(TurnComplete(NextLetter(NextLetter(j))));
      j2.index == 2 && j2.shown == 2 && j2.pendingTurns == 0
  {
  }

  /** Two taps on the close button start two close tweens. After the first
      completes the visitor re-opens the journal, and the second, stale
      completion closes it again. */
  lemma StaleCloseClosesReopened(j: Journal)
    requires Inv(j) && !j.visible && j.closes == 0
    ensures var j1 := CloseComplete(CloseJournal(CloseJournal(Open(j))));
      !j1.open && j1.closes == 1 && Open(j1).open
      && var j2 := CloseComplete(Open(j1));
      !j2.open && !j2.visible && j2.closes == 0
  {
  }

  /** `${index + 1} / ${letters.length}`, as a pair. The text is written by
      `updateLetter`, which runs on opening and when a turn completes, so it
      shows the page on screen rather than the index a pending turn has
      already moved to. */
  function PageIndicator(j: Journal): (p: (nat, nat))
    requires j.shown < |Letters|
    ensures 1 <= p.0 <= p.1 && p.1 == |Letters|
  {
    (j.shown + 1, |Letters|)
  }

  /** A "next" tap leaves the indicator as it was until the turn completes;
      then it reads one page further on. */
  lemma IndicatorWaitsForTurn(j: Journal)
    requires Inv(j) && j.visible && j.pendingTurns == 0 && j.index < |Letters| - 1
    ensures PageIndicator(NextLetter(j)) == PageIndicator(j)
    ensures PageIndicator(TurnComplete(NextLetter(j))).0 == PageIndicator(j).0 + 1
  {
  }
}

=== FILE: living_room.dfy ===
/** The living room: a row of five photo frames, each opening a modal
    with its memory; the backdrop or the close button dismisses it. */
module LivingRoom {
  import opened Common

  datatype Memory = Memory(date: string, description: string, colour: int)

  const Memories: seq<Memory> := [
    Memory("First Meeting", "The day our story began...", 0xffb6c1),
    Memory("First Date", "Coffee and endless conversations", 0xffd700),
    Memory("First Trip", "Adventures together", 0x87ceeb),
    Memory("Anniversary", "One year of love", 0xff69b4),
    Memory("Special Day", "A moment to remember", 0xdda0dd)]

  const FrameWidth := 120.0
  const FrameGap := 40.0
  const FrameY := 220.0

  /** A frame's centre and the memory it carries (`frame.memory`,
      `frame.index`). */
  datatype Frame = Frame(x: real, y: real, index: nat, memory: Memory)

  /** Left frame's centre: the row of frames plus one trailing gap is
      centred on the screen. */
  function StartX(screenW: real): real {
    (screenW - |Memories| as real * (FrameWidth + FrameGap)) / 2.0 + FrameWidth / 2.0
  }

  /** `createPhotoFrames`: one frame per memory, left to right, one frame
      width plus a gap apart. */
  method BuildFrames(screenW: real) returns (frames: seq<Frame>)
    ensures |frames| == |Memories|
    ensures forall i | 0 <= i < |frames| :: frames[i].index == i && frames[i].memory == Memories[i] && frames[i].y == FrameY
    ensures forall i | 0 <= i < |frames| - 1 :: frames[i + 1].x - frames[i].x == FrameWidth + FrameGap
    ensures frames[0].x + frames[|frames| - 1].x == screenW - FrameGap
  {
    var startX := StartX(screenW);
    frames := [];
    var i := 0;
    while i < |Memories|
      invariant 0 <= i <= |Memories| && |frames| == i
      invariant forall k | 0 <= k < i :: frames[k] == Frame(startX + k as real * (FrameWidth + FrameGap), FrameY, k, Memories[k])
    {
      frames := frames + [Frame(startX + i as real * (FrameWidth + FrameGap), FrameY, i, Memories[i])];
      i := i + 1;
    }
    forall k | 0 <= k < |frames| - 1
      ensures frames[k + 1].x - frames[k].x == FrameWidth + FrameGap
    {
      assert (k + 1) as real * (FrameWidth + FrameGap) == k as real * (FrameWidth + FrameGap) + (FrameWidth + FrameGap);
    }
  }

  datatype Room = Room(
    modalOpen: bool,
    selected: Option<nat>,     // `selectedFrame`, by index
    visible: bool,             // the modal and its backdrop
    closes: nat,               // close tweens started and not yet completed
    highlighted: set<nat>)     // frames showing the hover glow

  function Initial(): Room {
    Room(false, None, false, 0, {})
  }

  datatype Event = Hover(frame: nat) | Unhover(frame: nat) | FrameTap(frame: nat) | Close | CloseDone

  /** Frame handlers are ignored while the modal is open. `closeMemory`
      has no guard: each tap on the shown backdrop or close button starts
      one more close tween, and each tween's completion hides the modal
      and clears the selection, whatever was opened since it began. */
  function Step(r: Room, e: Event): (r': Room)
    ensures r'.closes == r.closes + 1 <==> e.Close? && r.visible
    ensures r.modalOpen && !r'.modalOpen <==> e.CloseDone? && r.closes > 0 && r.modalOpen
    ensures !r.modalOpen && r'.modalOpen <==> e.FrameTap? && e.frame < |Memories| && !r.modalOpen
  {
    match e
    case Hover(i) => if r.modalOpen || i >= |Memories| then r else r.(highlighted := r.highlighted + {i})
    case Unhover(i) => if r.modalOpen then r else r.(highlighted := r.highlighted - {i})
    case FrameTap(i) =>
      if r.modalOpen || i >= |Memories| then r
      else r.(modalOpen := true, selected := Some(i), visible := true)
    case Close => if r.visible then r.(closes := r.closes + 1) else r
    case CloseDone =>
      if r.closes > 0 then r.(closes := r.closes - 1, visible := false, modalOpen := false, selected := None) else r
  }

  /** The memory the modal shows, if any. */
  function Shown(r: Room): (m: Option<Memory>)
    requires r.selected.Some? ==> r.selected.value < |Memories|
    ensures m.Some? <==> r.selected.Some?
    ensures m.Some? ==> m.value == Memories[r.selected.value]
  {
    if r.selected.Some? then Some(Memories[r.selected.value]) else None
  }

  /** The modal is up exactly while a frame is selected, and only ever for
      a real frame. */
  ghost predicate Inv(r: Room) {
    && (r.modalOpen <==> r.visible)
    && (r.selected.Some? <==> r.modalOpen)
    && (r.selected.Some? ==> r.selected.value < |Memories|)
    && (forall i | i in r.highlighted :: i < |Memories|)
  }

  lemma StepPreservesInv(r: Room, e: Event)
    requires Inv(r)
    ensures Inv(Step(r, e))
  {
  }

  /** While a memory is shown, frame taps and hovers change nothing: the
      modal keeps its memory until it is closed. */
  lemma OpenModalIgnoresFrames(r: Room, i: nat)
    requires Inv(r) && r.modalOpen
    ensures Step(r, FrameTap(i)) == r && Step(r, Hover(i)) == r && Step(r, Unhover(i)) == r
  {
  }

  /** Tapping frame `i` shows memory `i`; closing and finishing the
      animation returns to browsing. */
  lemma OpenThenClose(r: Room, i: nat)
    requires Inv(r) && !r.modalOpen && i < |Memories|
    ensures var o := Step(r, FrameTap(i));
      Shown(o) == Some(Memories[i])
      && var c := Step(Step(o, Close), CloseDone);
      !c.modalOpen && Shown(c) == None && c.highlighted == r.highlighted
  {
  }

  /** Two taps on the backdrop start two close tweens. After the first
      completes the visitor opens another memory, and the second, stale
      completion dismisses it at once. */
  lemma StaleCloseDismissesNextMemory(r: Room, i: nat, j: nat)
    requires Inv(r) && !r.modalOpen && r.closes == 0 && i < |Memories| && j < |Memories|
    ensures var o := Step(Step(Step(Step(r, FrameTap(i)), Close), Close), CloseDone);
      !o.modalOpen && o.closes == 1
      && Shown(Step(o, FrameTap(j))) == Some(Memories[j])
      && var c := Step(Step(o, FrameTap(j)), CloseDone);
      !c.modalOpen && !c.visible && Shown(c) == None && c.closes == 0
  {
  }

  /** The glow of the tapped frame outlives the modal: its `pointerout`
      arrives while the modal is open and is ignored. */
  lemma HighlightSticksThroughModal(r: Room, i: nat)
    requires Inv(r) && !r.modalOpen && i < |Memories|
    ensures var c := Step(Step(Step(Step(Step(r, Hover(i)), FrameTap(i)), Unhover(i)), Close), CloseDone);
      i in c.highlighted
  {
  }
}

=== FILE: rope.dfy ===
/** Rope topology: the segment bodies, the pin constraints that chain them,
    the anchor that hangs the chain from a fixed point and the tassel at its
    end, for both the generic builder and the curtain scene's own rope.
    Only the initial configuration is modelled; the rigid-body dynamics that
    act on it afterwards are not. */
module Rope {
  import opened Common

  datatype Vec = Vec(x: real, y: real)

  function Add(a: Vec, b: Vec): Vec {
    Vec(a.x + b.x, a.y + b.y)
  }

  datatype Shape = Rect(width: real, height: real) | Circle(radius: real)

  /** A body at its creation position; `group` is its collision group
      (bodies sharing a negative group never collide with each other). */
  datatype Body = Body(position: Vec, shape: Shape, group: int)

  /** A constraint end: a fixed world point, or a point given relative to a
      rope segment (by index) or to the tassel. */
  datatype End = World(point: Vec) | OnSegment(index: nat, offset: Vec) | OnTassel(offset: Vec)

  /** `length` is `None` when the call leaves it out, in which case the
      physics engine takes the distance between the two ends at creation. */
  datatype Constraint = Constraint(a: End, b: End, length: Option<real>, stiffness: real, damping: Option<real>)

  predicate EndsIn(e: End, count: nat) {
    e.OnSegment? ==> e.index < count
  }

  /** World position of a constraint end at creation time. */
  function WorldPoint(e: End, segments: seq<Body>, tassel: Body): Vec
    requires EndsIn(e, |segments|)
  {
    match e
    case World(p) => p
    case OnSegment(i, off) => Add(segments[i].position, off)
    case OnTassel(off) => Add(tassel.position, off)
  }

  /** Both ends of the constraint exist and coincide: it starts exactly
      satisfied. */
  predicate AtRest(c: Constraint, segments: seq<Body>, tassel: Body) {
    && EndsIn(c.a, |segments|) && EndsIn(c.b, |segments|)
    && WorldPoint(c.a, segments, tassel) == WorldPoint(c.b, segments, tassel)
  }

  /** The pin that ties segment `i`'s bottom centre to segment `i + 1`'s top
      centre. */
  function Link(i: nat, segmentLength: real, stiffness: real, damping: real, length: Option<real>): Constraint {
    Constraint(OnSegment(i, Vec(0.0, segmentLength / 2.0)), OnSegment(i + 1, Vec(0.0, -segmentLength / 2.0)),
               length, stiffness, Some(damping))
  }

  /** The builder's named parameters; `None` is an omitted key, replaced by
      the destructuring default. */
  datatype RopeOptions = RopeOptions(
    x: real, y: real,
    segments: Option<int>, segmentLength: Option<real>,
    stiffness: Option<real>, damping: Option<real>, ropeWidth: Option<real>)

  function SegmentsOf(o: RopeOptions): int { o.segments.GetOr(8) }
  function LengthOf(o: RopeOptions): real { o.segmentLength.GetOr(20.0) }
  function StiffnessOf(o: RopeOptions): real { o.stiffness.GetOr(0.9) }
  function DampingOf(o: RopeOptions): real { o.damping.GetOr(0.1) }
  function WidthOf(o: RopeOptions): real { o.ropeWidth.GetOr(8.0) }

  /** What the builder returns: the segments, the links it added to the
      composite, and the indices of the last and first segments (absent for
      a rope of no segments: `null` and `undefined` in the source). */
  datatype Rope = Rope(bodies: seq<Body>, links: seq<Constraint>, endBody: Option<nat>, firstBody: Option<nat>)

  function Count(n: int): nat { if n < 0 then 0 else n }

  /** A well-formed chain: every link pins segment `i` to segment `i + 1`,
      every link starts at rest, and the first and last indices are right. */
  ghost predicate Chain(r: Rope, tassel: Body) {
    && |r.links| == Count(|r.bodies| - 1)
    && (forall i | 0 <= i < |r.links| ::
          r.links[i].a.OnSegment? && r.links[i].a.index == i
          && r.links[i].b.OnSegment? && r.links[i].b.index == i + 1)
    && (forall i | 0 <= i < |r.links| :: AtRest(r.links[i], r.bodies, tassel))
    && r.firstBody == (if |r.bodies| > 0 then Some(0) else None)
    && r.endBody == (if |r.bodies| > 0 then Some(|r.bodies| - 1) else None)
  }

  /** `createRope`: a vertical column of rectangles, one segment length
      apart, all in the one collision group, each pinned to the previous one
      with a zero-length link. */
  method CreateRope(o: RopeOptions, group: int) returns (r: Rope)
    ensures |r.bodies| == Count(SegmentsOf(o))
    ensures forall i | 0 <= i < |r.bodies| ::
      r.bodies[i] == Body(Vec(o.x, o.y + i as real * LengthOf(o)), Rect(WidthOf(o), LengthOf(o)), group)
    ensures forall t: Body :: Chain(r, t)
    ensures forall i | 0 <= i < |r.links| ::
      r.links[i] == Link(i, LengthOf(o), StiffnessOf(o), DampingOf(o), Some(0.0))
  {
    var n := SegmentsOf(o);
    var len := LengthOf(o);
    var bodies: seq<Body> := [];
    var links: seq<Constraint> := [];
    var prev: Option<nat> := None;
    var i := 0;
    while i < n
      invariant 0 <= i && i == |bodies|
      invariant n >= 0 ==> i <= n
      invariant n < 0 ==> i == 0
      invariant forall k | 0 <= k < i :: bodies[k] == Body(Vec(o.x, o.y + k as real * len), Rect(WidthOf(o), len), group)
      invariant |links| == Count(i - 1)
      invariant forall k | 0 <= k < |links| :: links[k] == Link(k, len, StiffnessOf(o), DampingOf(o), Some(0.0))
      invariant prev == (if i > 0 then Some(i - 1) else None)
    {
      var body := Body(Vec(o.x, o.y + i as real * len), Rect(WidthOf(o), len), group);
      assert forall k | 0 <= k < i :: (bodies + [body])[k] == bodies[k];
      bodies := bodies + [body];
      if prev.Some? {
        links := links + [Link(prev.value, len, StiffnessOf(o), DampingOf(o), Some(0.0))];
      }
      prev := Some(i);
      i := i + 1;
    }
    var first := if |bodies| > 0 then Some(0) else None;
    r := Rope(bodies, links, prev, first);
    ColumnIsChain(o, group, r);
  }

  /** A column of segments one length apart, linked in order, is a chain. */
  lemma ColumnIsChain(o: RopeOptions, group: int, r: Rope)
    requires forall k | 0 <= k < |r.bodies| ::
      r.bodies[k] == Body(Vec(o.x, o.y + k as real * LengthOf(o)), Rect(WidthOf(o), LengthOf(o)), group)
    requires |r.links| == Count(|r.bodies| - 1)
    requires forall k | 0 <= k < |r.links| :: r.links[k] == Link(k, LengthOf(o), StiffnessOf(o), DampingOf(o), Some(0.0))
    requires r.firstBody == (if |r.bodies| > 0 then Some(0) else None)
    requires r.endBody == (if |r.bodies| > 0 then Some(|r.bodies| - 1) else None)
    ensures forall t: Body :: Chain(r, t)
  {
    forall t: Body
      ensures Chain(r, t)
    {
      forall k | 0 <= k < |r.links|
        ensures AtRest(r.links[k], r.bodies, t)
      {
        LinkAtRest(k, o.x, o.y, LengthOf(o));
      }
    }
  }

  /** Segment `k`'s bottom centre and segment `k + 1`'s top centre are the
      same point when the segments are one length apart. */
  lemma LinkAtRest(k: nat, x: real, y: real, len: real)
    ensures Add(Vec(x, y + k as real * len), Vec(0.0, len / 2.0))
         == Add(Vec(x, y + (k + 1) as real * len), Vec(0.0, -len / 2.0))
  {
    assert (k + 1) as real * len == k as real * len + len;
  }

  /** With every option left out the rope has 8 segments of length 20 and
      width 8, and 7 links of stiffness 0.9 and damping 0.1. */
  lemma DefaultRope(x: real, y: real)
    ensures var o := RopeOptions(x, y, None, None, None, None, None);
      Count(SegmentsOf(o)) == 8 && LengthOf(o) == 20.0 && WidthOf(o) == 8.0
      && Link(0, LengthOf(o), StiffnessOf(o), DampingOf(o), Some(0.0)).stiffness == 0.9
      && Link(0, LengthOf(o), StiffnessOf(o), DampingOf(o), Some(0.0)).damping == Some(0.1)
  {
  }

  /** `createRopeAnchor`: pins the first segment's top centre to the fixed
      point `(x, y)` with a rigid zero-length constraint. Without a first
      segment the second end is read as a world point. */
  function CreateRopeAnchor(x: real, y: real, first: Option<nat>, segmentLength: real): (c: Constraint)
    ensures c.a == World(Vec(x, y)) && c.length == Some(0.0) && c.stiffness == 1.0
    ensures first.Some? <==> c.b.OnSegment?
    ensures first.Some? ==> c.b.index == first.value && c.b.offset.y == -segmentLength / 2.0
  {
    var off := Vec(0.0, -segmentLength / 2.0);
    Constraint(World(Vec(x, y)),
               if first.Some? then OnSegment(first.value, off) else World(off),
               Some(0.0), 1.0, None)
  }

  /** An anchor at the rope's own origin starts stretched by half a
      segment: the first segment's top is that far above its centre. */
  lemma AnchorAtOriginGap(o: RopeOptions, r: Rope, t: Body)
    requires |r.bodies| > 0 && r.firstBody == Some(0)
    requires r.bodies[0].position == Vec(o.x, o.y)
    ensures var c := CreateRopeAnchor(o.x, o.y, r.firstBody, LengthOf(o));
      WorldPoint(c.a, r.bodies, t).y - WorldPoint(c.b, r.bodies, t).y == LengthOf(o) / 2.0
  {
  }

  /** `createTassel`: a disc of the given radius (default 20) hung under the
      last segment, and a zero-length constraint from the segment's bottom
      centre to a point `0.7 * radius` above the disc's centre. */
  function CreateTassel(endIndex: nat, endBody: Body, segmentLength: real, radius: Option<real>, group: int): (res: (Body, Constraint))
    ensures var rad := radius.GetOr(20.0);
      && res.0.shape == Circle(rad) && res.0.group == group
      && res.0.position.x == endBody.position.x
      && res.0.position.y == endBody.position.y + segmentLength / 2.0 + rad
      && res.1.a == OnSegment(endIndex, Vec(0.0, segmentLength / 2.0))
      && res.1.b == OnTassel(Vec(0.0, -rad * 0.7))
      && res.1.length == Some(0.0) && res.1.stiffness == 0.9
  {
    var rad := radius.GetOr(20.0);
    var pos := endBody.position;
    var tassel := Body(Vec(pos.x, pos.y + segmentLength / 2.0 + rad), Circle(rad), group);
    (tassel, Constraint(OnSegment(endIndex, Vec(0.0, segmentLength / 2.0)), OnTassel(Vec(0.0, -rad * 0.7)),
                        Some(0.0), 0.9, None))
  }

  /** The tassel's attachment point starts `0.3 * radius` below the rope's
      end, straight down, so its zero-length constraint starts stretched. */
  lemma TasselGap(r: Rope, segmentLength: real, radius: Option<real>, group: int)
    requires r.endBody.Some? && r.endBody.value < |r.bodies|
    ensures var e := r.endBody.value;
      var res := CreateTassel(e, r.bodies[e], segmentLength, radius, group);
      var top := WorldPoint(res.1.b, r.bodies, res.0);
      var bottom := WorldPoint(res.1.a, r.bodies, res.0);
      top.x == bottom.x && top.y - bottom.y == 0.3 * radius.GetOr(20.0)
  {
  }

  /** The curtain scene's rope: the engine's gravity, twelve segments, the
      eleven links (stiffness 0.9, damping 0.1, length left to the engine),
      the anchor, the tassel and its link. */
  datatype CurtainRope = CurtainRope(
    gravity: Vec, segments: seq<Body>, links: seq<Constraint>, anchor: Constraint,
    tassel: Body, tasselLink: Constraint)

  const CurtainTop := 80.0
  const CurtainSegments := 12
  const CurtainSegmentLength := 25.0

  /** The rope `createRopePhysics` builds on a screen of the given width:
      twelve 12-wide segments hanging one length apart from `(w / 2, 80)`,
      links between neighbours (stiffness 0.9, damping 0.1, length left to
      the engine), a rigid zero-length anchor from the world point half a
      segment above the rope to the top segment's top centre, a radius-20
      tassel one length below the last segment, and the tassel link
      (stiffness 0.9, no damping, length left to the engine) from the last
      segment's bottom centre to a point 15 above the tassel's centre. */
  ghost predicate IsCurtainRope(c: CurtainRope, screenWidth: real, group: int) {
    var ropeX := screenWidth / 2.0;
    && c.gravity == Vec(0.0, 0.3)
    && |c.segments| == CurtainSegments && |c.links| == CurtainSegments - 1
    && (forall i | 0 <= i < |c.segments| ::
          c.segments[i] == Body(Vec(ropeX, CurtainTop + i as real * CurtainSegmentLength), Rect(12.0, CurtainSegmentLength), group))
    && (forall i | 0 <= i < |c.links| :: c.links[i] == Link(i, CurtainSegmentLength, 0.9, 0.1, None))
    && c.anchor.a == World(Vec(ropeX, CurtainTop - CurtainSegmentLength / 2.0))
    && c.anchor.b == OnSegment(0, Vec(0.0, -CurtainSegmentLength / 2.0))
    && c.anchor.length == Some(0.0) && c.anchor.stiffness == 1.0 && c.anchor.damping == None
    && c.tassel == Body(Vec(ropeX, CurtainTop + CurtainSegments as real * CurtainSegmentLength), Circle(20.0), group)
    && c.tasselLink.a == OnSegment(CurtainSegments - 1, Vec(0.0, CurtainSegmentLength / 2.0))
    && c.tasselLink.b == OnTassel(Vec(0.0, -15.0))
    && c.tasselLink.length == None && c.tasselLink.stiffness == 0.9 && c.tasselLink.damping == None
  }

  /** `createRopePhysics`: first the column of segments, then the links
      between neighbours, then the anchor and the tassel. Every link and
      the anchor start exactly satisfied. */
  method CreateCurtainRope(screenWidth: real, group: int) returns (c: CurtainRope)
    ensures IsCurtainRope(c, screenWidth, group)
    ensures forall i | 0 <= i < |c.links| :: AtRest(c.links[i], c.segments, c.tassel)
    ensures AtRest(c.anchor, c.segments, c.tassel)
  {
    var ropeX := screenWidth / 2.0;
    var len := CurtainSegmentLength;
    var segs: seq<Body> := [];
    var i := 0;
    while i < CurtainSegments
      invariant 0 <= i <= CurtainSegments && |segs| == i
      invariant forall k | 0 <= k < i :: segs[k] == Body(Vec(ropeX, CurtainTop + k as real * len), Rect(12.0, len), group)
    {
      segs := segs + [Body(Vec(ropeX, CurtainTop + i as real * len), Rect(12.0, len), group)];
      i := i + 1;
    }
    var links: seq<Constraint> := [];
    i := 0;
    while i < CurtainSegments - 1
      invariant 0 <= i <= CurtainSegments - 1 && |links| == i
      invariant forall k | 0 <= k < i :: links[k] == Link(k, len, 0.9, 0.1, None)
    {
      links := links + [Link(i, len, 0.9, 0.1, None)];
      i := i + 1;
    }
    var anchor := Constraint(World(Vec(ropeX, CurtainTop - len / 2.0)), OnSegment(0, Vec(0.0, -len / 2.0)), Some(0.0), 1.0, None);
    var tassel := Body(Vec(ropeX, CurtainTop + CurtainSegments as real * len), Circle(20.0), group);
    var tasselLink := Constraint(OnSegment(CurtainSegments - 1, Vec(0.0, len / 2.0)), OnTassel(Vec(0.0, -15.0)), None, 0.9, None);
    c := CurtainRope(Vec(0.0, 0.3), segs, links, anchor, tassel, tasselLink);
    forall k | 0 <= k < |links|
      ensures AtRest(links[k], segs, tassel)
    {
      LinkAtRest(k, ropeX, CurtainTop, len);
    }
  }

  /** The curtain's links leave their length to the engine, which takes the
      distance at creation: zero, the same as the generic builder's explicit
      zero. The tassel link, in contrast, starts with its two points 2.5
      apart, the tassel's point directly above the last segment's bottom
      centre, so 2.5 is the rest length the engine keeps for it. */
  lemma CurtainTasselGap(c: CurtainRope, screenWidth: real, group: int)
    requires IsCurtainRope(c, screenWidth, group)
    ensures c.tasselLink.length == None
    ensures var top := WorldPoint(c.tasselLink.b, c.segments, c.tassel);
      var bottom := WorldPoint(c.tasselLink.a, c.segments, c.tassel);
      top.x == bottom.x && bottom.y - top.y == 2.5
  {
    assert c.segments[CurtainSegments - 1].position == Vec(screenWidth / 2.0, CurtainTop + 11.0 * CurtainSegmentLength);
  }
}

=== FILE: scaling.dfy ===
/** Fitting a texture to the screen. Three rules appear in the rooms:
    the "cover" sizing of a room's background sprite (`BaseRoom`), the
    "cover" scale factor of a balcony overlay image (`Balcony`), and the
    85 % "contain" scale of the open wall collage (`BedroomRoom.jsx`).
    Widths and heights are positive exact reals. */
module Scaling {
  import opened Common

  /** Size and top-left position of a sprite placed on the screen. */
  datatype Placement = Placement(width: real, height: real, x: real, y: real)

  /** `a / b > c / d` compared without division, for positive denominators. */
  lemma RatioCompare(a: real, b: real, c: real, d: real)
    requires b > 0.0 && d > 0.0
    ensures a / b > c / d <==> a * d > c * b
  {
    assert a / b * (b * d) == a * d;
    assert c / d * (b * d) == c * b;
    if a / b > c / d {
      assert a / b * (b * d) > c / d * (b * d);
    }
    if a * d > c * b {
      assert (a * d) / (b * d) > (c * b) / (b * d);
    }
  }

  /** Background cover sizing (`createBackground` and `resize` in `BaseRoom`):
      match the screen width when the screen is relatively wider than the
      image, otherwise match its height, keeping the image aspect, and
      centre the result. */
  function CoverPlacement(screenW: real, screenH: real, texW: real, texH: real): (p: Placement)
    requires screenW > 0.0 && screenH > 0.0 && texW > 0.0 && texH > 0.0
    ensures p.width * texH == p.height * texW
    ensures p.width >= screenW && p.height >= screenH
    ensures p.width == screenW || p.height == screenH
    ensures p.x <= 0.0 && p.y <= 0.0
    ensures 2.0 * p.x + p.width == screenW && 2.0 * p.y + p.height == screenH
  {
    var imgAspect := texW / texH;
    var screenAspect := screenW / screenH;
    RatioCompare(screenW, screenH, texW, texH);
    if screenAspect > imgAspect then
      var h := screenW / imgAspect;
      assert h == screenW * texH / texW;
      assert h * texW == screenW * texH;
      assert screenW * texH > texW * screenH;
      assert h * texW > screenH * texW;
      Place(screenW, screenH, screenW, h)
    else
      var w := screenH * imgAspect;
      assert w == screenH * texW / texH;
      assert w * texH == screenH * texW;
      assert w * texH >= screenW * texH;
      Place(screenW, screenH, w, screenH)
  }

  /** Centre a `w` by `h` sprite on the screen. */
  function Place(screenW: real, screenH: real, w: real, h: real): (p: Placement)
    ensures p.width == w && p.height == h
    ensures 2.0 * p.x + w == screenW && 2.0 * p.y + h == screenH
  {
    Placement(w, h, (screenW - w) / 2.0, (screenH - h) / 2.0)
  }

  /** Overlay cover scale (`openOverlay` and `resize` in `Balcony`): `W/tw`
      when the screen is relatively wider than the image, `H/th` otherwise.
      It is the larger of the two ratios, so the scaled image covers the
      screen in both directions and exactly spans it in one. */
  function CoverScale(screenW: real, screenH: real, texW: real, texH: real): (s: real)
    requires screenW > 0.0 && screenH > 0.0 && texW > 0.0 && texH > 0.0
    ensures s == MaxReal(screenW / texW, screenH / texH)
    ensures s * texW >= screenW && s * texH >= screenH
    ensures s * texW == screenW || s * texH == screenH
  {
    RatioCompare(screenW, screenH, texW, texH);
    RatioCompare(screenW, texW, screenH, texH);
    assert screenW / texW * texW == screenW;
    assert screenH / texH * texH == screenH;
    if screenW / screenH > texW / texH then
      assert screenH / texH * texW < screenW / texW * texW;
      screenW / texW
    else
      assert screenW / texW * texH <= screenH / texH * texH;
      screenH / texH
  }

  /** The share of the screen the open collage may use. */
  const Margin: real := 0.85

  /** `calculateOpenScale` in `BedroomRoom.jsx`: the smaller of the two
      ratios of 85 % of the screen to the texture, so the scaled image fits
      inside 85 % of the screen in both directions and reaches it in one. */
  function ContainScale(screenW: real, screenH: real, texW: real, texH: real): (s: real)
    requires screenW > 0.0 && screenH > 0.0 && texW > 0.0 && texH > 0.0
    ensures s > 0.0
    ensures s * texW <= Margin * screenW && s * texH <= Margin * screenH
    ensures s * texW == Margin * screenW || s * texH == Margin * screenH
  {
    var sw := (screenW * Margin) / texW;
    var sh := (screenH * Margin) / texH;
    assert sw * texW == Margin * screenW;
    assert sh * texH == Margin * screenH;
    if sw <= sh then
      assert sw * texH <= sh * texH;
      MinReal(sw, sh)
    else
      assert sh * texW < sw * texW;
      MinReal(sw, sh)
  }
}

=== FILE: scene_manager.dfy ===
/** `SceneManager`: the current scene, a stack of previous scene ids and the
    `transitioning` guard that serialises navigation.

    `change` is an async function with up to three suspension points: the
    exit animation of the old scene, the new scene's `init()`, and the enter
    animation of the new scene. Each resumption is a separate event here
    (`ExitDone`, `InitSettled`, `EnterDone`), so any other event may arrive
    while a change is suspended, exactly as user input can. */
module SceneManager {
  import opened Common
  import opened Scenes

  /** Where a `change` call currently stands. */
  datatype Phase =
    | Idle                                             // `transitioning` is false
    | Exiting(target: SceneRef, options: Options)      // awaiting the old scene's exit animation
    | Initializing(target: SceneRef, options: Options) // awaiting the new scene's `init()`
    | Entering(target: SceneRef, options: Options)     // awaiting the new scene's enter animation
    | Wedged                                           // the change threw or rejected; `transitioning` stays true

  /** `currentScene` (by class), `currentSceneName`, `sceneHistory`, the
      guard, and every `sceneChange` event dispatched so far. */
  datatype Manager = Manager(
    current: Option<SceneKind>,
    currentName: SceneRef,
    history: seq<SceneRef>,
    phase: Phase,
    emitted: seq<SceneRef>)

  predicate Transitioning(m: Manager) {
    !m.phase.Idle?
  }

  /** The constructor: no scene, empty history, not transitioning;
      `currentSceneName` is never assigned, so it reads `undefined`. */
  function New(): Manager {
    Manager(None, Undefined, [], Idle, [])
  }

  datatype Event =
    | RequestChange(id: SceneRef, options: Options)
    | RequestBack
    | ExitDone
    | InitSettled(ok: bool)   // `init()` resolved (`ok`) or rejected
    | EnterDone
    | DestroyManager

  /** Lines 83-94 of `change`: record the name, construct the scene, and
      either stop (null scene), start awaiting `init()`, or throw. */
  function Instantiate(m: Manager, id: SceneRef, o: Options): Manager {
    match CreateScene(id)
    case Created(k) => m.(currentName := id, current := Some(k), phase := Initializing(id, o))
    case Unknown => m.(currentName := id, current := None, phase := Idle)
    case Throws => m.(currentName := id, phase := Wedged)
  }

  /** `change(id, options)` up to its first suspension point. */
  function ChangeScene(m: Manager, id: SceneRef, o: Options): Manager {
    if Transitioning(m) then m
    else if m.current.Some? then m.(phase := Exiting(id, o))
    else Instantiate(m, id, o)
  }

  /** Resumption after the exit animation: run the old scene's `exit` and
      `destroy` (a scene nulled meanwhile by `destroy()` makes this throw),
      push the old name when asked to, then construct the new scene. */
  function FinishExit(m: Manager): Manager {
    match m.phase
    case Exiting(id, o) =>
      if m.current.None? then m.(phase := Wedged)
      else
        var h := if AddsToHistory(o) then m.history + [m.currentName] else m.history;
        Instantiate(m.(history := h), id, o)
    case _ => m
  }

  /** Resumption after `init()`: a rejection leaves the guard set for good;
      otherwise the container is attached (throwing if the scene was nulled
      meanwhile) and the enter animation starts. */
  function FinishInit(m: Manager, ok: bool): Manager {
    match m.phase
    case Initializing(id, o) =>
      if ok && m.current.Some? then m.(phase := Entering(id, o)) else m.(phase := Wedged)
    case _ => m
  }

  /** Resumption after the enter animation: release the guard and dispatch
      `sceneChange` carrying the target id. */
  function FinishEnter(m: Manager): Manager {
    match m.phase
    case Entering(id, _) => m.(phase := Idle, emitted := m.emitted + [id])
    case _ => m
  }

  /** `goBack()`: pops the last id, before the guard is consulted, and
      changes to it without pushing. */
  function GoBack(m: Manager): Manager {
    if |m.history| > 0 then
      ChangeScene(m.(history := m.history[..|m.history| - 1]), m.history[|m.history| - 1], BackOptions)
    else m
  }

  /** `canGoBack()`. */
  function CanGoBack(m: Manager): bool {
    |m.history| > 0
  }

  /** `destroy()`: drop the current scene and the history; the guard is not
      touched. */
  function Destroy(m: Manager): Manager {
    m.(current := None, history := [])
  }

  /** `update(delta)`: the scene that receives the tick, if any (every scene
      class defines `update`). */
  function UpdateTarget(m: Manager): Option<SceneKind> {
    m.current
  }

  function Step(m: Manager, e: Event): (m': Manager)
    ensures |m'.history| <= |m.history| + 1
    ensures |m'.history| == |m.history| + 1 ==> e.ExitDone? && m.phase.Exiting? && AddsToHistory(m.phase.options)
    ensures |m.emitted| <= |m'.emitted| <= |m.emitted| + 1 && m'.emitted[..|m.emitted|] == m.emitted
    ensures |m'.emitted| == |m.emitted| + 1 ==> e.EnterDone? && m.phase.Entering? && m'.emitted[|m.emitted|] == m.phase.target
    ensures m.phase.Wedged? ==> m'.phase.Wedged?
  {
    match e
    case RequestChange(id, o) => ChangeScene(m, id, o)
    case RequestBack => GoBack(m)
    case ExitDone => FinishExit(m)
    case InitSettled(ok) => FinishInit(m, ok)
    case EnterDone => FinishEnter(m)
    case DestroyManager => Destroy(m)
  }

  /** Every id on the history stack names a scene `createScene` can build,
      a live current scene was built from `currentSceneName`, and a change
      under way after construction is for the name just recorded. */
  ghost predicate Valid(m: Manager) {
    && (forall i | 0 <= i < |m.history| :: CreateScene(m.history[i]).Created?)
    && (!m.phase.Wedged? && m.current.Some? ==> CreateScene(m.currentName) == Created(m.current.value))
    && ((m.phase.Initializing? || m.phase.Entering?) ==> m.currentName == m.phase.target)
  }

  lemma NewIsValid()
    ensures Valid(New()) && Fresh(New()) && !CanGoBack(New())
  {
  }

  lemma {:induction false} StepPreservesValid(m: Manager, e: Event)
    requires Valid(m)
    ensures Valid(Step(m, e))
  {
    var m' := Step(m, e);
    if e.RequestBack? && |m.history| > 0 {
      var popped := m.history[..|m.history| - 1];
      assert forall i | 0 <= i < |popped| :: popped[i] == m.history[i];
    } else if e.ExitDone? && m.phase.Exiting? && m.current.Some? && AddsToHistory(m.phase.options) {
      var pushed := m.history + [m.currentName];
      assert forall i | 0 <= i < |pushed| :: pushed[i] == if i < |m.history| then m.history[i] else m.currentName;
    }
  }

  /** Line 58: `change` while `transitioning` changes nothing at all. */
  lemma ChangeWhileTransitioningIsNoop(m: Manager, id: SceneRef, o: Options)
    requires Transitioning(m)
    ensures Step(m, RequestChange(id, o)) == m
  {
  }

  /** Lines 115-117: `goBack` pops the history even when the `change` it
      then calls is dropped by the guard. */
  lemma GoBackPopsWhileTransitioning(m: Manager)
    requires Transitioning(m) && |m.history| > 0
    ensures Step(m, RequestBack) == m.(history := m.history[..|m.history| - 1])
  {
  }

  /** `goBack` with an empty history does nothing. */
  lemma GoBackOnEmptyIsNoop(m: Manager)
    requires |m.history| == 0
    ensures Step(m, RequestBack) == m
  {
  }

  /** `canGoBack()` holds exactly when `goBack()` would change the state. */
  lemma CanGoBackIffBackActs(m: Manager)
    ensures CanGoBack(m) <==> Step(m, RequestBack) != m
  {
    if CanGoBack(m) {
      assert |Step(m, RequestBack).history| == |m.history| - 1;
    }
  }

  /** The push of lines 78-80 happens at the resumption after the exit
      animation, and only when `addToHistory` (default true) holds and the
      old scene still exists. */
  lemma ExitPushesIffAddToHistory(m: Manager)
    requires m.phase.Exiting? && m.current.Some?
    ensures Step(m, ExitDone).history ==
            m.history + (if AddsToHistory(m.phase.options) then [m.currentName] else [])
  {
  }

  /** A change requested while no scene is current never pushes. */
  lemma ChangeWithoutSceneDoesNotPush(m: Manager, id: SceneRef, o: Options)
    requires !Transitioning(m) && m.current.None?
    ensures Step(m, RequestChange(id, o)).history == m.history
  {
  }

  /** Lines 83-89: an id without a `createScene` case leaves a null scene
      named by that id, releases the guard and dispatches nothing. */
  lemma UnknownIdReleasesGuard(m: Manager, id: SceneRef)
    requires m.phase.Exiting? && m.phase.target == id && m.current.Some? && CreateScene(id) == Unknown
    ensures var m' := Step(m, ExitDone);
      m'.current.None? && m'.currentName == id && !Transitioning(m') && m'.emitted == m.emitted
  {
  }

  /** A rejected `init()` leaves the guard set: every later change is dropped. */
  lemma InitRejectionWedges(m: Manager, id: SceneRef, o: Options)
    requires m.phase.Initializing?
    ensures var m' := Step(m, InitSettled(false));
      m'.phase.Wedged? && Step(m', RequestChange(id, o)) == m'
  {
  }

  /** While a new scene awaits `init()`, the per-frame `update` already
      reaches it. */
  lemma UpdateReachesSceneBeforeInit(m: Manager)
    requires Valid(m) && m.phase.Initializing? && m.current.Some?
    ensures UpdateTarget(m) == Some(CreateScene(m.phase.target).kind)
  {
  }

  /** `destroy()` leaves no scene to update and nothing to go back to. */
  lemma DestroyClears(m: Manager)
    ensures var m' := Step(m, DestroyManager);
      UpdateTarget(m').None? && !CanGoBack(m') && m'.phase == m.phase && m'.currentName == m.currentName
  {
  }

  /** Run the remaining resumptions of a change, every `init()` resolving. */
  function Settle(m: Manager): Manager {
    var m1 := if m.phase.Exiting? then FinishExit(m) else m;
    var m2 := if m1.phase.Initializing? then FinishInit(m1, true) else m1;
    if m2.phase.Entering? then FinishEnter(m2) else m2
  }

  /** `await change(id, options)` from an idle manager. */
  function Navigate(m: Manager, id: SceneRef, o: Options): Manager {
    Settle(ChangeScene(m, id, o))
  }

  /** `await goBack()` from an idle manager. */
  function NavigateBack(m: Manager): Manager {
    Settle(GoBack(m))
  }

  /** The resumptions `Settle` runs are steps, so they keep `Valid`. */
  lemma SettleKeepsValid(m: Manager)
    requires Valid(m)
    ensures Valid(Settle(m))
  {
    var m1 := if m.phase.Exiting? then FinishExit(m) else m;
    StepPreservesValid(m, ExitDone);
    var m2 := if m1.phase.Initializing? then FinishInit(m1, true) else m1;
    StepPreservesValid(m1, InitSettled(true));
    StepPreservesValid(m2, EnterDone);
  }

  /** A completed change to a constructible id: the new scene is current,
      the guard is released, exactly one `sceneChange` carrying the id is
      dispatched, and the old name is pushed iff `addToHistory` and an old
      scene existed. */
  lemma NavigateToKnown(m: Manager, id: SceneRef, o: Options)
    requires Valid(m) && !Transitioning(m) && CreateScene(id).Created?
    ensures var m' := Navigate(m, id, o);
      && !Transitioning(m')
      && m'.current == Some(CreateScene(id).kind)
      && m'.currentName == id
      && m'.emitted == m.emitted + [id]
      && m'.history == m.history + (if AddsToHistory(o) && m.current.Some? then [m.currentName] else [])
      && Valid(m')
  {
    StepPreservesValid(m, RequestChange(id, o));
    SettleKeepsValid(ChangeScene(m, id, o));
  }

  /** A completed change to an id without a case: null scene, guard
      released, nothing dispatched (the push still happens first). */
  lemma NavigateToUnknown(m: Manager, id: SceneRef, o: Options)
    requires Valid(m) && !Transitioning(m) && CreateScene(id) == Unknown
    ensures var m' := Navigate(m, id, o);
      && !Transitioning(m')
      && m'.current.None? && m'.currentName == id
      && m'.emitted == m.emitted
      && m'.history == m.history + (if AddsToHistory(o) && m.current.Some? then [m.currentName] else [])
  {
  }

  /** A completed `goBack` shrinks the history by exactly one, pushes
      nothing back, and lands on a live scene built from the popped id. */
  lemma {:induction false} NavigateBackPops(m: Manager)
    requires Valid(m) && !Transitioning(m) && |m.history| > 0
    ensures var last := m.history[|m.history| - 1];
      var m' := NavigateBack(m);
      && !Transitioning(m')
      && m'.history == m.history[..|m.history| - 1]
      && m'.currentName == last
      && m'.current == Some(CreateScene(last).kind)
      && m'.emitted == m.emitted + [last]
      && Valid(m')
  {
    StepPreservesValid(m, RequestBack);
    SettleKeepsValid(GoBack(m));
    var last := m.history[|m.history| - 1];
    assert CreateScene(last).Created?;
    assert !AddsToHistory(BackOptions);
  }

  /** A manager that is idle, valid, and has neither a scene nor a
      history, as after construction (or after a change to an unknown id
      from the start). */
  predicate Fresh(m: Manager) {
    !Transitioning(m) && m.current.None? && m.history == []
  }

  /** HOUSE, INTERIOR, LIVING, then back twice lands on HOUSE with an empty
      history, and a third back does nothing. */
  lemma ForwardThenBackScenario(m0: Manager)
    requires Valid(m0) && Fresh(m0)
    ensures var m1 := Navigate(m0, HOUSE, NoOptions);
      var m2 := Navigate(m1, INTERIOR, NoOptions);
      var m3 := Navigate(m2, LIVING, NoOptions);
      var m4 := NavigateBack(m3);
      var m5 := NavigateBack(m4);
      && m1.current == Some(HouseScene) && m1.history == []
      && m2.current == Some(InteriorScene) && m2.history == [HOUSE]
      && m3.current == Some(LivingRoom) && m3.history == [HOUSE, INTERIOR] && Valid(m3) && !Transitioning(m3)
      && m4.current == Some(InteriorScene) && m4.history == [HOUSE]
      && m5.current == Some(HouseScene) && m5.history == []
      && NavigateBack(m5) == m5
  {
    var m1 := Navigate(m0, HOUSE, NoOptions);
    NavigateToKnown(m0, HOUSE, NoOptions);
    var m2 := Navigate(m1, INTERIOR, NoOptions);
    NavigateToKnown(m1, INTERIOR, NoOptions);
    assert m2.history == [HOUSE];
    var m3 := Navigate(m2, LIVING, NoOptions);
    NavigateToKnown(m2, LIVING, NoOptions);
    assert m3.history == [HOUSE, INTERIOR];
    var m4 := NavigateBack(m3);
    NavigateBackPops(m3);
    assert m4.history == [HOUSE];
    var m5 := NavigateBack(m4);
    NavigateBackPops(m4);
    assert m5.history == [];
  }

  /** The history may hold the current id: HOUSE, INTERIOR, HOUSE. */
  lemma HistoryMayHoldCurrent(m0: Manager)
    requires Valid(m0) && Fresh(m0)
    ensures var m := Navigate(Navigate(Navigate(m0, HOUSE, NoOptions), INTERIOR, NoOptions), HOUSE, NoOptions);
      m.currentName == HOUSE && m.history == [HOUSE, INTERIOR]
  {
    var m1 := Navigate(m0, HOUSE, NoOptions);
    NavigateToKnown(m0, HOUSE, NoOptions);
    var m2 := Navigate(m1, INTERIOR, NoOptions);
    NavigateToKnown(m1, INTERIOR, NoOptions);
    assert m2.history == [HOUSE];
    NavigateToKnown(m2, HOUSE, NoOptions);
  }

  /** Two back requests during one exit animation pop two ids but navigate
      once: after HOUSE, INTERIOR, LIVING the second back is dropped by the
      guard and HOUSE is lost from the trail. */
  lemma DoubleBackLosesAnEntry(m0: Manager)
    requires Valid(m0) && Fresh(m0)
    ensures var m3 := Navigate(Navigate(Navigate(m0, HOUSE, NoOptions), INTERIOR, NoOptions), LIVING, NoOptions);
      var m' := Settle(Step(Step(m3, RequestBack), RequestBack));
      m'.currentName == INTERIOR && m'.history == [] && !Transitioning(m')
  {
    var m3 := Navigate(Navigate(Navigate(m0, HOUSE, NoOptions), INTERIOR, NoOptions), LIVING, NoOptions);
    ForwardThenBackScenario(m0);
    var b1 := Step(m3, RequestBack);
    assert b1.history == [HOUSE] && b1.phase == Exiting(INTERIOR, BackOptions);
    var b2 := Step(b1, RequestBack);
    assert b2 == b1.(history := []);
    var e := FinishExit(b2);
    assert !AddsToHistory(BackOptions);
    assert e.history == [] && e.currentName == INTERIOR && e.phase.Initializing?;
  }

  /** The host's first request, `change(CURTAIN)`, leaves a null scene. */
  lemma InitialCurtainRequestYieldsNoScene()
    ensures var m := Navigate(New(), CURTAIN, NoOptions);
      m.current.None? && m.currentName == CURTAIN && !Transitioning(m) && m.emitted == []
  {
  }
}

=== FILE: scenes.dfy ===
/** Scene identifiers (`SCENES` in `constants.jsx`), the factory
    `SceneManager.createScene`, and the navigation requests that scenes
    hand to the manager. */
module Scenes {
  import opened Common

  /** A value passed as a scene id: a string, or JavaScript `undefined`,
      which is what `SCENES.BALCONY` and `SCENES.GARDEN_PATH` evaluate to
      since `SCENES` has no such keys. */
  datatype SceneRef = Named(name: string) | Undefined

  const CURTAIN: SceneRef := Named("CURTAIN")
  const HOUSE: SceneRef := Named("HOUSE")
  const INTERIOR: SceneRef := Named("INTERIOR")
  const LIVING: SceneRef := Named("LIVING")
  const BEDROOM: SceneRef := Named("BEDROOM")
  const KITCHEN: SceneRef := Named("KITCHEN")
  const GAMING: SceneRef := Named("GAMING")
  const DANCE: SceneRef := Named("DANCE")
  const STUDY: SceneRef := Named("STUDY")
  const GARDEN: SceneRef := Named("GARDEN")
  const GARDEN_SITTING: SceneRef := Named("GARDEN_SITTING")
  const BALCONY: SceneRef := Undefined
  const GARDEN_PATH: SceneRef := Undefined

  /** The scene classes `createScene` can construct. */
  datatype SceneKind =
    | HouseScene | InteriorScene | LivingRoom | BedroomRoom | Balcony
    | KitchenRoom | GamingRoom | DanceRoom | StudyRoom | GardenRoom
    | GardenSittingArea | GardenPath

  /** What `createScene` does: returns a new instance, returns `null` for an
      id it has no case for, or throws. */
  datatype Creation = Created(kind: SceneKind) | Unknown | Throws

  /** The ids `createScene` has a working case for. */
  const KnownNames: set<string> :=
    {"HOUSE", "INTERIOR", "LIVING", "BEDROOM", "KITCHEN", "GAMING",
     "DANCE", "STUDY", "GARDEN", "GARDEN_SITTING"}

  /** `createScene`, case by case in the order of its `switch` (strict
      equality). The `BALCONY` case compares against `undefined` and comes
      before `GARDEN_PATH`, so `undefined` selects `Balcony`, whose
      constructor reads `ROOM_CONFIGS.BALCONY.title` of a missing key and
      throws; the `GARDEN_PATH` case can never be reached. */
  function CreateScene(id: SceneRef): (c: Creation)
    ensures c.Throws? <==> id == Undefined
    ensures c.Created? <==> id.Named? && id.name in KnownNames
    ensures c != Created(Balcony) && c != Created(GardenPath)
  {
    if id == HOUSE then Created(HouseScene)
    else if id == INTERIOR then Created(InteriorScene)
    else if id == LIVING then Created(LivingRoom)
    else if id == BEDROOM then Created(BedroomRoom)
    else if id == BALCONY then Throws
    else if id == KITCHEN then Created(KitchenRoom)
    else if id == GAMING then Created(GamingRoom)
    else if id == DANCE then Created(DanceRoom)
    else if id == STUDY then Created(StudyRoom)
    else if id == GARDEN then Created(GardenRoom)
    else if id == GARDEN_SITTING then Created(GardenSittingArea)
    else if id == GARDEN_PATH then Created(GardenPath)
    else Unknown
  }

  /** Different ids construct different scene classes. */
  lemma CreateSceneInjective(a: SceneRef, b: SceneRef)
    requires CreateScene(a).Created? && CreateScene(a) == CreateScene(b)
    ensures a == b
  {
  }

  /** The initial id the host asks for has no case: it yields a null scene. */
  lemma CurtainIsUnknown()
    ensures CreateScene(CURTAIN) == Unknown
  {
  }

  /** The options argument of `change`; an absent field takes the default
      given by the destructuring in `change`. */
  datatype Options = Options(transition: Option<string>, duration: Option<real>, addToHistory: Option<bool>)

  const NoOptions: Options := Options(None, None, None)

  /** `{ addToHistory: false }`, as `goBack` passes it. */
  const BackOptions: Options := Options(None, None, Some(false))

  function TransitionOf(o: Options): string { o.transition.GetOr("fade") }
  function DurationOf(o: Options): real { o.duration.GetOr(0.5) }
  function AddsToHistory(o: Options): bool { o.addToHistory.GetOr(true) }

  /** A call a scene makes on its manager. */
  datatype NavRequest = ChangeTo(id: SceneRef, options: Options) | GoBack

  function ChangeRequest(id: SceneRef, transition: string, duration: real): NavRequest {
    ChangeTo(id, Options(Some(transition), Some(duration), None))
  }
}

=== FILE: sound_manager.dfy ===
/** The sound manager's bookkeeping (`SoundManager.jsx`): the registry of
    named sounds, the mute flag, the master volume and the tracker of the
    one-shot effect currently playing. Howler itself is outside the model:
    a sound handle is an opaque record, a play returns a fresh numeric id,
    and every fade-out and unload is recorded instead of performed. */
module SoundManager {
  import opened Common

  /** An opaque sound handle; `serial` tells apart handles created from the
      same options. */
  datatype Howl = Howl(serial: nat, src: string, loop: bool, volume: real, preload: bool)

  /** Caller options for `register`, each overriding its default. */
  datatype SoundOptions = SoundOptions(loop: Option<bool>, volume: Option<real>, preload: Option<bool>)

  /** A play started on a registered sound, with the id it returned. */
  datatype Play = Play(name: string, id: nat)

  /** A fade-out requested through `stopWithFade`. */
  datatype Fade = Fade(name: string, duration: int)

  datatype Manager = Manager(
    sounds: map<string, Howl>,
    currentSFX: Option<string>,
    currentSFXId: Option<nat>,
    isMuted: bool,
    masterVolume: real,
    nextId: nat,                 // the id the next play returns
    nextSerial: nat,             // the serial of the next handle created
    plays: seq<Play>,
    fades: seq<Fade>,
    unloaded: set<nat>,          // serials of unloaded handles
    muteEvents: seq<bool>)       // `muteChange` events dispatched

  const InitialVolume: real := 0.7
  const DefaultSfxFade: int := 400

  function New(): (m: Manager)
    ensures m.sounds == map[] && m.currentSFX.None? && !m.isMuted && m.masterVolume == InitialVolume
  {
    Manager(map[], None, None, false, InitialVolume, 0, 0, [], [], {}, [])
  }

  /** JavaScript truthiness of the tracker: `null` and the empty name are
      both false. */
  predicate Tracking(m: Manager) {
    m.currentSFX.Some? && m.currentSFX.value != ""
  }

  /** `register`: a fresh handle built from the defaults (no loop, full
      volume, preloaded) overridden by the options; it replaces, without
      unloading, any handle already under that name. */
  function Register(m: Manager, name: string, src: string, o: SoundOptions): (res: (Manager, Howl))
    ensures res.0.sounds == m.sounds[name := res.1]
    ensures res.1.src == src && res.1.serial == m.nextSerial
    ensures res.1.loop == o.loop.GetOr(false) && res.1.volume == o.volume.GetOr(1.0)
      && res.1.preload == o.preload.GetOr(true)
    ensures res.0.unloaded == m.unloaded && res.0.currentSFX == m.currentSFX
  {
    var h := Howl(m.nextSerial, src, o.loop.GetOr(false), o.volume.GetOr(1.0), o.preload.GetOr(true));
    (m.(sounds := m.sounds[name := h], nextSerial := m.nextSerial + 1), h)
  }

  /** `play`: nothing when muted or when the name is unknown; otherwise a
      new play whose id is returned. The effect tracker is not touched. */
  function PlayNamed(m: Manager, name: string): (res: (Manager, Option<nat>))
    ensures m.isMuted || name !in m.sounds ==> res == (m, None)
    ensures !m.isMuted && name in m.sounds ==>
      res.1 == Some(m.nextId) && res.0.plays == m.plays + [Play(name, m.nextId)]
      && res.0.currentSFX == m.currentSFX && res.0.nextId > m.nextId
  {
    if m.isMuted || name !in m.sounds then (m, None)
    else (m.(plays := m.plays + [Play(name, m.nextId)], nextId := m.nextId + 1), Some(m.nextId))
  }

  /** A JavaScript default parameter: it replaces only an omitted argument,
      so an explicit `0` is kept. */
  function Defaulted(arg: Option<int>, fallback: int): (d: int)
    ensures arg.None? ==> d == fallback
    ensures arg.Some? ==> d == arg.value
  {
    if arg.Some? then arg.value else fallback
  }

  /** `stopWithFade(name, fadeDuration = 500)`: a fade-out of a registered
      sound, 500 ms when no duration is passed; an unknown name is ignored. */
  function StopWithFade(m: Manager, name: string, duration: Option<int>): (m': Manager)
    ensures name in m.sounds ==> m'.fades == m.fades + [Fade(name, Defaulted(duration, 500))]
    ensures name in m.sounds && duration.None? ==> m'.fades[|m.fades|].duration == 500
    ensures name !in m.sounds ==> m' == m
    ensures m' == m.(fades := m'.fades)
  {
    if name in m.sounds then m.(fades := m.fades + [Fade(name, Defaulted(duration, 500))]) else m
  }

  /** `options.fadeDuration || 400`: a missing or zero duration means 400. */
  function SfxFade(fadeDuration: Option<int>): (d: int)
    ensures d != 0
    ensures fadeDuration.Some? && fadeDuration.value != 0 ==> d == fadeDuration.value
  {
    if fadeDuration.None? || fadeDuration.value == 0 then DefaultSfxFade else fadeDuration.value
  }

  /** `playSFX`: nothing when muted. Otherwise a different effect still
      tracked is faded out first, before the name is looked up; an unknown
      name then returns nothing and leaves the tracker naming the faded
      effect. A known name plays and becomes the tracked effect. */
  function PlaySfx(m: Manager, name: string, fadeDuration: Option<int>): (res: (Manager, Option<nat>))
    ensures m.isMuted ==> res == (m, None)
    ensures !m.isMuted && name !in m.sounds ==> res.1.None? && res.0.currentSFX == m.currentSFX
    ensures !m.isMuted && name in m.sounds ==>
      res.1 == Some(m.nextId) && res.0.currentSFX == Some(name) && res.0.currentSFXId == res.1
      && res.0.plays == m.plays + [Play(name, m.nextId)]
    ensures !m.isMuted && Tracking(m) && m.currentSFX.value != name && m.currentSFX.value in m.sounds ==>
      res.0.fades == m.fades + [Fade(m.currentSFX.value, SfxFade(fadeDuration))]
    ensures !(Tracking(m) && m.currentSFX.value != name) ==> res.0.fades == m.fades
    ensures res.0.sounds == m.sounds && res.0.isMuted == m.isMuted
  {
    if m.isMuted then (m, None)
    else
      var m1 := if Tracking(m) && m.currentSFX.value != name
        then StopWithFade(m, m.currentSFX.value, Some(SfxFade(fadeDuration))) else m;
      if name !in m1.sounds then (m1, None)
      else
        var id := m1.nextId;
        (m1.(plays := m1.plays + [Play(name, id)], nextId := id + 1,
             currentSFX := Some(name), currentSFXId := Some(id)), Some(id))
  }

  /** The `end` listener of an effect: it clears the tracker only when the
      tracker still holds that effect's name. It checks the name, not the
      play id. */
  function SfxEnded(m: Manager, name: string): (m': Manager)
    ensures m.currentSFX == Some(name) ==> m'.currentSFX.None? && m'.currentSFXId.None?
    ensures m.currentSFX != Some(name) ==> m' == m
    ensures m'.plays == m.plays && m'.sounds == m.sounds
  {
    if m.currentSFX == Some(name) then m.(currentSFX := None, currentSFXId := None) else m
  }

  /** `stopSFX(fadeDuration = 400)`: when an effect is tracked, fade it out
      (400 ms when no duration is passed) and clear the tracker; otherwise
      nothing. */
  function StopSfx(m: Manager, fadeDuration: Option<int>): (m': Manager)
    ensures !Tracking(m) ==> m' == m
    ensures Tracking(m) ==> m'.currentSFX.None? && m'.currentSFXId.None?
    ensures Tracking(m) && m.currentSFX.value in m.sounds ==>
      m'.fades == m.fades + [Fade(m.currentSFX.value, Defaulted(fadeDuration, 400))]
  {
    if Tracking(m) then
      StopWithFade(m, m.currentSFX.value, Some(Defaulted(fadeDuration, 400))).(currentSFX := None, currentSFXId := None)
    else m
  }

  /** `toggleMute`: flips the flag, announces it, and returns the new value. */
  function ToggleMute(m: Manager): (res: (Manager, bool))
    ensures res.1 == !m.isMuted && res.0.isMuted == res.1
    ensures res.0.muteEvents == m.muteEvents + [res.1]
    ensures res.0 == m.(isMuted := res.1, muteEvents := res.0.muteEvents)
  {
    var muted := !m.isMuted;
    (m.(isMuted := muted, muteEvents := m.muteEvents + [muted]), muted)
  }

  /** `setVolume`: the requested volume clamped into [0, 1]. */
  function SetVolume(m: Manager, volume: real): (m': Manager)
    ensures 0.0 <= m'.masterVolume <= 1.0
    ensures 0.0 <= volume <= 1.0 ==> m'.masterVolume == volume
    ensures volume < 0.0 ==> m'.masterVolume == 0.0
    ensures volume > 1.0 ==> m'.masterVolume == 1.0
    ensures m' == m.(masterVolume := m'.masterVolume)
  {
    m.(masterVolume := MaxReal(0.0, MinReal(1.0, volume)))
  }

  /** `destroy`: every registered handle is unloaded and the registry
      emptied; the effect tracker is left as it was. */
  function Destroy(m: Manager): (m': Manager)
    ensures m'.sounds == map[]
    ensures forall name | name in m.sounds :: m.sounds[name].serial in m'.unloaded
    ensures m'.unloaded - m.unloaded <= set name | name in m.sounds :: m.sounds[name].serial
    ensures m'.currentSFX == m.currentSFX
  {
    m.(sounds := map[], unloaded := m.unloaded + set name | name in m.sounds :: m.sounds[name].serial)
  }

  datatype Event =
    | RegisterSound(name: string, src: string, options: SoundOptions)
    | PlaySound(name: string)
    | PlayEffect(name: string, fadeDuration: Option<int>)
    | EffectEnded(name: string)
    | StopEffect(stopFade: Option<int>)
    | Mute
    | Volume(level: real)
    | DestroyManager

  function Step(m: Manager, e: Event): (m': Manager)
    ensures |m.plays| <= |m'.plays| <= |m.plays| + 1 && m'.plays[..|m.plays|] == m.plays
    ensures m'.nextId >= m.nextId
  {
    match e
    case RegisterSound(name, src, o) => Register(m, name, src, o).0
    case PlaySound(name) => PlayNamed(m, name).0
    case PlayEffect(name, d) => PlaySfx(m, name, d).0
    case EffectEnded(name) => SfxEnded(m, name)
    case StopEffect(d) => StopSfx(m, d)
    case Mute => ToggleMute(m).0
    case Volume(v) => SetVolume(m, v)
    case DestroyManager => Destroy(m)
  }

  /** What every reachable manager keeps: the volume lies in [0, 1]; play
      ids are below the next id and strictly increase; the tracker and its
      id are set together, and a tracked effect is a play that happened;
      handle serials are below the next serial. */
  predicate Inv(m: Manager) {
    && 0.0 <= m.masterVolume <= 1.0
    && (forall k | 0 <= k < |m.plays| :: m.plays[k].id < m.nextId)
    && (forall j, k | 0 <= j < k < |m.plays| :: m.plays[j].id < m.plays[k].id)
    && (m.currentSFX.Some? <==> m.currentSFXId.Some?)
    && (m.currentSFX.Some? ==> Play(m.currentSFX.value, m.currentSFXId.value) in m.plays)
    && (forall name | name in m.sounds :: m.sounds[name].serial < m.nextSerial)
  }

  function Run(m: Manager, evs: seq<Event>): Manager
    decreases |evs|
  {
    if |evs| == 0 then m else Run(Step(m, evs[0]), evs[1..])
  }

  lemma NewInv()
    ensures Inv(New())
  {
  }

  lemma StepPreservesInv(m: Manager, e: Event)
    requires Inv(m)
    ensures Inv(Step(m, e))
  {
    var m' := Step(m, e);
    if e.PlaySound? || e.PlayEffect? {
      assert forall k | 0 <= k < |m.plays| :: m'.plays[k] == m.plays[k];
      if |m'.plays| > |m.plays| {
        assert m'.plays[|m.plays|].id == m.nextId;
      }
    }
  }

  lemma {:induction false} RunPreservesInv(m: Manager, evs: seq<Event>)
    requires Inv(m)
    ensures Inv(Run(m, evs))
    decreases |evs|
  {
    if |evs| > 0 {
      StepPreservesInv(m, evs[0]);
      RunPreservesInv(Step(m, evs[0]), evs[1..]);
    }
  }

  /** Play ids are never reused: every play of a run gets a fresh id. */
  lemma {:induction false} RunIdsDistinct(m: Manager, evs: seq<Event>)
    requires Inv(m)
    ensures var r := Run(m, evs);
      forall j, k | 0 <= j < k < |r.plays| :: r.plays[j].id != r.plays[k].id
    decreases |evs|
  {
    RunPreservesInv(m, evs);
  }

  /** Two toggles restore the mute flag and announce both changes. */
  lemma ToggleTwice(m: Manager)
    ensures var m2 := ToggleMute(ToggleMute(m).0).0;
      m2 == m.(muteEvents := m.muteEvents + [!m.isMuted, m.isMuted])
  {
  }

  /** Clamping is idempotent: setting the volume that was just set changes
      nothing. */
  lemma SetVolumeIdempotent(m: Manager, v: real)
    ensures SetVolume(SetVolume(m, v), SetVolume(m, v).masterVolume) == SetVolume(m, v)
  {
  }

  /** Registering under a name that is taken replaces the handle and leaves
      the old one loaded. */
  lemma RegisterReplaces(m: Manager, name: string, src: string, o: SoundOptions)
    requires Inv(m) && name in m.sounds
    ensures var (m', h) := Register(m, name, src, o);
      m'.sounds[name] == h && h != m.sounds[name] && m.sounds[name].serial !in m'.unloaded - m.unloaded
  {
  }

  /** With the tracker on "a", a play of an unknown effect "b" still fades
      "a" out but leaves the tracker naming it. */
  lemma UnknownEffectStillFadesOld(m: Manager, a: string, b: string, d: Option<int>)
    requires !m.isMuted && m.currentSFX == Some(a) && a != "" && a != b
    requires a in m.sounds && b !in m.sounds
    ensures var (m', id) := PlaySfx(m, b, d);
      id.None? && m'.currentSFX == Some(a) && m'.fades == m.fades + [Fade(a, SfxFade(d))]
  {
  }

  /** Playing the same effect twice and then hearing the first play end
      clears the tracker while the second play is still sounding, because
      the listener compares names, not ids. */
  lemma EarlierEndClearsLaterPlay(m: Manager, name: string)
    requires !m.isMuted && name in m.sounds
    ensures var m1 := PlaySfx(m, name, None).0;
      var m2 := PlaySfx(m1, name, None).0;
      m2.currentSFXId == Some(m1.nextId) && m1.currentSFXId != m2.currentSFXId
      && SfxEnded(m2, name).currentSFX.None?
  {
  }

  /** An effect registered under the empty name is tracked but falsy, so
      `stopSFX` leaves it alone and the next effect does not fade it. */
  lemma EmptyNameEscapesStop(m: Manager, other: string)
    requires !m.isMuted && "" in m.sounds && other in m.sounds && other != ""
    ensures var m1 := PlaySfx(m, "", None).0;
      m1.currentSFX == Some("") && StopSfx(m1, None) == m1
      && PlaySfx(m1, other, None).0.fades == m1.fades
  {
  }

  /** While muted, neither kind of play sounds or changes anything. */
  lemma MutedIsSilent(m: Manager, name: string, d: Option<int>)
    requires m.isMuted
    ensures PlayNamed(m, name) == (m, None) && PlaySfx(m, name, d) == (m, None)
  {
  }

  /** After `destroy` a stale tracker survives; `stopSFX` then clears it
      without any fade because the sound is gone. */
  lemma StopAfterDestroy(m: Manager)
    requires Tracking(m)
    ensures var m' := StopSfx(Destroy(m), None);
      m'.currentSFX.None? && m'.fades == m.fades && Destroy(m).currentSFX == m.currentSFX
  {
  }
}

=== FILE: transitions.dfy ===
/** The exit and enter animations `SceneManager` plays on a scene's root
    container. Each is a tween from the container's pose when it starts to a
    target pose; a preset name without a case resolves at once. Easing and
    timing are not modelled, only the end points. */
module Transitions {

  /** The transition names `change` recognises; anything else is `Other`. */
  datatype Preset = Fade | SlideLeft | SlideRight | ScaleFade | Zoom | Other

  function ParsePreset(name: string): (p: Preset)
    ensures p == Fade <==> name == "fade"
    ensures p == SlideLeft <==> name == "slideLeft"
    ensures p == SlideRight <==> name == "slideRight"
    ensures p == ScaleFade <==> name == "scale"
    ensures p == Zoom <==> name == "zoom"
    ensures p == Other <==> name !in {"fade", "slideLeft", "slideRight", "scale", "zoom"}
  {
    if name == "fade" then Fade
    else if name == "slideLeft" then SlideLeft
    else if name == "slideRight" then SlideRight
    else if name == "scale" then ScaleFade
    else if name == "zoom" then Zoom
    else Other
  }

  /** The animated properties of a PIXI container. */
  datatype Pose = Pose(alpha: real, x: real, scale: real)

  /** A freshly built container: opaque, unshifted, unscaled. */
  const Rest := Pose(1.0, 0.0, 1.0)

  /** `Immediate` resolves the promise without animating; `Animate` tweens
      from `start` to `end`. */
  datatype Tween = Immediate | Animate(start: Pose, end: Pose)

  /** The pose a tween leaves behind. */
  function Final(t: Tween, before: Pose): Pose {
    match t
    case Immediate => before
    case Animate(_, e) => e
  }

  /** Scene is visibly gone: transparent or a full screen width aside. */
  predicate Gone(p: Pose, screenWidth: real) {
    p.alpha == 0.0 || p.x <= -screenWidth || p.x >= screenWidth
  }

  /** `transitionOut(type)` on the current scene's container, posed `now`. */
  function ExitTween(p: Preset, now: Pose, screenWidth: real): (t: Tween)
    requires screenWidth > 0.0
    ensures t.Immediate? <==> p == Other
    ensures t.Animate? ==> t.start == now && Gone(t.end, screenWidth)
  {
    match p
    case Fade => Animate(now, now.(alpha := 0.0))
    case SlideLeft => Animate(now, now.(x := -screenWidth))
    case SlideRight => Animate(now, now.(x := screenWidth))
    case ScaleFade => Animate(now, now.(alpha := 0.0, scale := 0.8))
    case Zoom => Animate(now, now.(alpha := 0.0, scale := 1.5))
    case Other => Immediate
  }

  /** `transitionIn(type)` on the new scene's container, posed `now`: the
      container is first placed at the preset's starting pose. */
  function EnterTween(p: Preset, now: Pose, screenWidth: real): (t: Tween)
    requires screenWidth > 0.0
    ensures t.Immediate? <==> p == Other
    ensures t.Animate? ==> Gone(t.start, screenWidth)
  {
    match p
    case Fade => Animate(now.(alpha := 0.0), now.(alpha := 1.0))
    case SlideLeft => Animate(now.(x := screenWidth), now.(x := 0.0))
    case SlideRight => Animate(now.(x := -screenWidth), now.(x := 0.0))
    case ScaleFade => Animate(now.(alpha := 0.0, scale := 1.2), now.(alpha := 1.0, scale := 1.0))
    case Zoom => Animate(now.(alpha := 0.0, scale := 0.5), now.(alpha := 1.0, scale := 1.0))
    case Other => Immediate
  }

  /** Whatever the preset, a new scene whose container starts at rest ends
      its enter transition at rest. */
  lemma EnterEndsAtRest(p: Preset, screenWidth: real)
    requires screenWidth > 0.0
    ensures Final(EnterTween(p, Rest, screenWidth), Rest) == Rest
  {
  }

  /** A known preset takes the old scene off screen; an unknown one leaves
      it where it was. */
  lemma ExitHidesIffKnown(p: Preset, screenWidth: real)
    requires screenWidth > 0.0
    ensures Gone(Final(ExitTween(p, Rest, screenWidth), Rest), screenWidth) <==> p != Other
  {
  }

  /** The slide presets move both scenes the same way: the new scene enters
      from the side opposite to the one the old scene leaves by. */
  lemma SlidesAgreeInDirection(p: Preset, now: Pose, screenWidth: real)
    requires screenWidth > 0.0 && (p == SlideLeft || p == SlideRight)
    ensures ExitTween(p, now, screenWidth).end.x == -EnterTween(p, now, screenWidth).start.x
  {
  }

  /** Exit and enter leave the properties their preset does not name alone. */
  lemma TweensTouchOnlyTheirProperties(p: Preset, now: Pose, screenWidth: real)
    requires screenWidth > 0.0
    ensures (p == SlideLeft || p == SlideRight) ==>
      ExitTween(p, now, screenWidth).end.alpha == now.alpha && ExitTween(p, now, screenWidth).end.scale == now.scale
    ensures p == Fade ==>
      var e := EnterTween(p, now, screenWidth).end; e.x == now.x && e.scale == now.scale
  {
  }
}
